=== FILE: README.md ===
# Fuund loan application wizard, modelled in Dafny

This project models the core of the Fuund commercial-loan application:
the seven-step wizard a borrower fills in, the validation engine that
decides which required fields are still missing, and the server that
stores the application, derives its loan metrics and keeps its documents.

- **Validation engine** (`form_validation.dfy`). The required-field table
  has 23 entries over five steps, and some entries have a condition on the
  loan type or the property type. The module also holds the dotted-path
  lookup `getValueByPath`, the emptiness test `isFieldEmpty`, the
  per-step loop `getStepValidation`, and the hook state: the visited
  steps and the error-display switch.
- **Loan metrics** (`loan_metrics.dfy`). The amortised monthly payment,
  rounded to cents. From it and the application record come the three
  metric strings: loan-to-value, first-month interest and debt service
  coverage (DSCR). Each is printed with `toFixed(2)`.
- **Request handlers** (`routes.dfy`). Create, read, update and delete
  for applications, and upload, list and delete for documents. Each
  handler checks in a fixed order: 404, 403, 400, then the write.
- **Store and schema** (`storage.dfy`, `schema.dfy`). The two tables are
  maps from key to row. The schema gives each table's columns, not-null
  rules, defaults and decimal precision. It also gives the columns the
  insert schemas omit and the cascade from an application to its
  documents.
- **Wizard page and step list** (`application_page.dfy`,
  `progress_stepper.dfy`). A step counter clamped to 1..7 and the status
  of each step derived from it. Clicks navigate only on a completed step
  and only when a callback is given.
- **The step forms** (`quick_start.dfy`, `property_basics.dfy`,
  `loan_specifics.dfy`, `financial_snapshot.dfy`,
  `property_performance.dfy`, `review_submit.dfy`, `document_upload.dfy`).
  Each one's state, handlers and submitted payload, plus the review
  screen's derived values and the document slots.
- **JavaScript semantics** the core relies on (`js_value.dfy`,
  `js_number.dfy`). Falsiness, `||`, optional property access,
  `includes`, `trim`, `split`, `parseFloat` and `toFixed`.
  `wrappers.dfy` holds `Option` and `Result`.

The model keeps the repository's behaviour as written, including where
its parts disagree with each other. Lemmas state each disagreement:
- The step-5 validator looks for the income and expense figures under
  `loanSpecifics`, while the income step submits them at top level
  (`PropertyPerformance.FiguresMissedByValidator`).
- The review screen reads `calculatedLtv` and `calculatedDscr`, which
  no stored application has (`ReviewSubmit.StoredApplicationShowsNoMetrics`).
- A bridge loan's term, entered in months, reaches the payment formula as
  years (`LoanSpecifics.BridgeTermReadAsYears`).
- The form deletes documents at a path the server does not serve
  (`DocumentUpload.DeletePathMissesRoute`).
- The form uploads without the `name` field the server requires, so an
  upload ends "failed" (`DocumentUpload.UploadWithoutName`).
- The page shows a placeholder for steps 3, 5 and 6
  (`ApplicationPage.PlaceholderSteps`).

Collaborators the code cannot see become parameters:
- the signed-in user;
- generated keys and the clock;
- the outcome of the object-storage calls;
- `Math.pow`, with one stated property;
- the currency formatter;
- the text JavaScript gives a number or a date inside an array.

## Model

| member | source | states |
|---|---|---|
| FormValidation.GetValueByPath | client/src/hooks/useFormValidation.ts:125-134 | the loop returns what the path lookup denotes: undefined for a falsy object or empty path, otherwise the keys followed in turn |
| FormValidation.WalkStopsAtNullish | client/src/hooks/useFormValidation.ts:129-132 | once an intermediate key yields null or undefined with keys left, the lookup is undefined whatever the rest of the path |
| FormValidation.ValueAtSimplePath | client/src/hooks/useFormValidation.ts:125-134 | a one-key path on a truthy object reads that property |
| FormValidation.ValueAtNestedPath | client/src/hooks/useFormValidation.ts:125-134 | `outer.inner` reads the inner property of the outer one, undefined when the outer one is null or undefined |
| FormValidation.IsFieldEmptyMeaning | client/src/hooks/useFormValidation.ts:136-140 | a value is empty exactly when it is null, undefined or an all-whitespace string; 0 and false are not empty |
| FormValidation.FieldsOfStepMembers | client/src/hooks/useFormValidation.ts:155 | the step filter keeps exactly the table entries of that step |
| FormValidation.StepFieldsFilter | client/src/hooks/useFormValidation.ts:29-123 | filtering the table by a step gives its entries in table order: 4, 6, 7, 3 and 3 for steps 1 to 5, none for any other id |
| FormValidation.GetStepValidation | client/src/hooks/useFormValidation.ts:154-173 | the result is the step's validation status, and `isComplete` holds exactly when nothing is missing |
| FormValidation.CollectMissing | client/src/hooks/useFormValidation.ts:158-166 | the loop skips entries whose condition fails and pushes, in order, those whose value is empty |
| FormValidation.MissingInMeaning | client/src/hooks/useFormValidation.ts:158-166 | a field is collected exactly when it is among the entries, its condition holds and its value is empty |
| FormValidation.StepValidationMeaning | client/src/hooks/useFormValidation.ts:154-172 | a field is missing from a step exactly when the table has it in that step, its condition holds and its value is empty |
| FormValidation.MissingFieldOfStep | client/src/hooks/useFormValidation.ts:158-166 | every missing field belongs to the step and its condition holds |
| FormValidation.StepValidationInOrder | client/src/hooks/useFormValidation.ts:155-166 | the missing fields are a subsequence of the step's entries (table order kept) |
| FormValidation.StepWithoutEntriesComplete | client/src/hooks/useFormValidation.ts:154-172 | steps 6, 7 and every id outside 1..5 are complete with nothing missing |
| FormValidation.ConstructionStep3 | client/src/hooks/useFormValidation.ts:42-84 | for a construction loan step 3 can report only the property value, budget and period |
| FormValidation.NoLoanTypeStep3 | client/src/hooks/useFormValidation.ts:42-84 | without a loan type step 3 can report only the property value |
| FormValidation.NotIncomeProducing | client/src/hooks/useFormValidation.ts:95-99 | land, owner-occupied property or a construction loan fails the step-5 condition |
| FormValidation.NotReportedStep5 | client/src/hooks/useFormValidation.ts:90-122 | for such an application no step-5 field is ever reported |
| FormValidation.NonIncomeProducingStep5 | client/src/hooks/useFormValidation.ts:90-122 | for such an application step 5 is complete whatever the fields hold |
| FormValidation.AllStepValidations | client/src/hooks/useFormValidation.ts:175-178 | five statuses, the i-th being step i+1's validation |
| FormValidation.ValidationState.constructor | client/src/hooks/useFormValidation.ts:143-144 | the visited set starts as {1} and errors start hidden |
| FormValidation.ValidationState.MarkStepVisited | client/src/hooks/useFormValidation.ts:146-148 | the step is added, nothing is forgotten, the error switch is kept |
| FormValidation.ValidationState.SetShowValidationErrors | client/src/hooks/useFormValidation.ts:144 | only the error switch changes |
| FormValidation.MissingNameMeaning | client/src/hooks/useFormValidation.ts:180-184 | a name is among the step's missing `fieldName`s exactly when an entry of the step with that name is reported |
| FormValidation.ValidationState.IsFieldMissing | client/src/hooks/useFormValidation.ts:180-184 | takes a `fieldName`; never true while errors are hidden, otherwise true exactly when an entry of that step with that name is reported |
| JsValue.TrimEmptyIffWhitespace | client/src/hooks/useFormValidation.ts:138 | `trim()` gives "" exactly when every character is JavaScript whitespace |
| JsValue.SplitJoin | client/src/hooks/useFormValidation.ts:127 | splitting on '.' loses nothing: joining the parts gives the path back, and no part holds a '.' |
| JsValue.RemoveCommas | client/src/components/PropertyPerformanceForm.tsx:51-52 | `replace(/,/g, "")` leaves no comma and never lengthens the text |
| JsValue.RemoveCommasAppend | client/src/components/PropertyPerformanceForm.tsx:51-52 | removing commas works piece by piece, so the other characters keep their order |
| JsValue.RemoveCommasCounts | client/src/components/PropertyPerformanceForm.tsx:51-52 | every character other than a comma is kept exactly as often as it occurs, and the length drops by the number of commas |
| JsValue.RemoveCommasNoComma | client/src/components/ReviewSubmitForm.tsx:23 | text without commas is left unchanged |
| JsNumber.ParseDigits | server/routes.ts:55-62 | `parseFloat` of a run of digits is the number they write |
| JsNumber.ParseFloatStopsAtComma | server/routes.ts:55-62 | `parseFloat` reads nothing past a comma |
| JsNumber.ArrayReadsFirstElement | server/routes.ts:55-62 | `parseFloat(String(array))` of an array starting with text reads that first element alone |
| JsNumber.ParseToFixed | server/routes.ts:64-74 | `parseFloat` of what `toFixed(d)` prints is the number rounded to d places |
| Metrics.PaymentWithoutInterest | server/routes.ts:33-35 | at a zero rate the monthly payment times the number of months is the principal |
| Metrics.PaymentRoundedToCents | server/routes.ts:37-41 | with interest the payment is a whole number of cents within half a cent of the amortisation formula |
| Metrics.AmortizedExceedsInterest | server/routes.ts:37-39 | a positive loan at a positive rate pays more each month than the first month's interest |
| Metrics.PaymentNonNegative | server/routes.ts:25-42 | the payment of a positive loan at a positive rate is never negative |
| Metrics.FirstMonthInterest | server/routes.ts:70-74 | the first month's interest is amount × rate / 1200, positive for positive inputs |
| Metrics.ArrayInputReadsFirst | server/routes.ts:55-62 | a loan figure sent as an array is read through its first element, as `parseFloat` reads the array's text |
| Metrics.CalculateLoanMetrics | server/routes.ts:47-89 | the object filled field by field is the metrics of the record |
| Metrics.MetricKeys | server/routes.ts:52-83 | the metrics have no keys but `ltv`, `monthlyInterest` and `dscr`, all strings |
| Metrics.LtvEntry | server/routes.ts:64-68 | `ltv` is present exactly when amount and property value are positive numbers, and is their percentage printed to two places |
| Metrics.LtvRule | server/routes.ts:64-68 | the `ltv` text reads back as the loan-to-value percentage rounded to two places |
| Metrics.InterestEntry | server/routes.ts:70-74 | `monthlyInterest` is present exactly when amount and rate are positive, and is the first month's interest printed to two places |
| Metrics.MonthlyInterestRule | server/routes.ts:70-74 | the `monthlyInterest` text reads back as the first month's interest rounded to two places |
| Metrics.DscrRule | server/routes.ts:76-83 | `dscr` is present exactly when NOI, amount, rate and term are all positive, so its payment is always the amortised one |
| Metrics.DscrValue | server/routes.ts:76-83 | DSCR reads back as NOI over twelve payments to two places, and is "Infinity" when the payment rounds to zero |
| Metrics.NoLoanAmountNoMetrics | server/routes.ts:55-83 | a missing, empty, zero or non-numeric loan amount yields no metric at all |
| Routes.MetricsInsertable | server/routes.ts:130-134 | every metric key is a key the application insert schema takes |
| Routes.CreateValuesMeaning | server/routes.ts:113-134 | the create handler inserts the signed-in user as owner, each computed metric over any client value, and every other field as sent |
| Routes.PatchValuesMeaning | server/routes.ts:205-218 | the update writes the client's changes and the metrics computed over the stored row overlaid with them, nothing else |
| Routes.MetricInserted | server/routes.ts:127-137 | a computed metric reaches the inserted row unchanged: its `toFixed(2)` text is already what its column keeps, and "Infinity" is left as it is for the column to refuse |
| Routes.LtvTextKept | shared/schema.ts:87 | the LTV text of a positive amount and value is kept unchanged by numeric(5, 2) |
| Routes.DscrTextKept | shared/schema.ts:88 | the DSCR text of positive inputs is kept unchanged by numeric(5, 2) |
| Routes.FixedTextTooWide | shared/schema.ts:87-88 | text `toFixed(2)` printed for a value rounding to 1000 or more does not fit numeric(5, 2) |
| Routes.OversizedLtvRefused | server/routes.ts:64-68 | an LTV that rounds to 1000% or more makes the database refuse the new application |
| Routes.InfiniteDscrRefused | server/routes.ts:78-82 | a payment rounding to zero cents makes DSCR "Infinity", and the database refuses the new application |
| Routes.PostApplication | server/routes.ts:108-143 | 400 and no change for a body the strict schema refuses; otherwise the inserted row, each numeric value as its column keeps it (rounded to scale, printed with that many decimals), or 500 with no change when the database refuses it |
| Routes.GetApplications | server/routes.ts:145-154 | 200 with exactly the user's applications, most recently updated first |
| Routes.GetApplication | server/routes.ts:156-171 | 404 for a missing row, 403 for another user's, else 200 with the row |
| Routes.PatchApplication | server/routes.ts:173-227 | 404, 403, then 400 for a body naming `userId` or refused by the partial schema; otherwise the updated row with a fresh `updatedAt` and each numeric value as its column keeps it, or 500 |
| Routes.DeleteApplication | server/routes.ts:229-245 | 404, 403, else the row and, by the cascade, its documents are removed |
| Routes.DocumentDataMeaning | server/routes.ts:300-323 | the built document is "uploaded" with an upload time exactly when a file came, "pending" otherwise |
| Routes.DocumentDataKeeps | server/routes.ts:300-306 | the built document keeps the application, the owner, the name and the type it was given |
| Routes.DocumentDataStoragePath | server/routes.ts:315-317 | a storage path is recorded exactly when a non-empty one was produced |
| Routes.DocumentDataKeys | server/routes.ts:299-320 | the built document uses only keys the document insert schema takes |
| Routes.BuildDocumentData | server/routes.ts:299-323 | the field-by-field construction gives the document described above |
| Routes.DocumentParent | server/routes.ts:300-335 | the row inserted for a built document belongs to the application in the request |
| Routes.PostDocument | server/routes.ts:248-342 | every path is exact: 404, 403, 400 for a falsy `name` or `type`, 500 "Object storage is not configured" or "Failed to upload file to storage", 400 "Invalid document data"; otherwise 200 with the inserted row when the key is new and the row fits, else 500 "Failed to upload document"; every failure changes nothing |
| Routes.GetDocuments | server/routes.ts:344-360 | 404, 403, else 200 with exactly the application's documents (each listed, none foreign, no duplicates), newest `createdAt` first |
| Routes.DeleteDocument | server/routes.ts:362-401 | 404, 403, 500 when the stored file cannot be deleted, else that document alone is removed |
| Storage.InsertNewestFirst | server/storage.ts:75-82 | inserting into a newest-first list keeps it newest first and adds exactly that row |
| Storage.SelectNewestFirst | server/storage.ts:75-82 | the selection holds exactly the matching rows, newest first |
| Storage.CascadeKeepsParents | shared/schema.ts:111-113 | after an application and its documents go, every remaining document still has its application |
| Storage.ParentIsText | shared/schema.ts:111-113 | a document the database accepts names its application by text |
| Storage.UpdateKeepsIdentity | server/storage.ts:84-97 | an accepted application update keeps the row's key and creation time and leaves `updatedAt` a date |
| Storage.UpdatedDocumentValid | server/storage.ts:129-139 | an update through insert keys keeps a document row's key and parent constraints |
| Storage.DatabaseStorage.constructor | server/storage.ts:146 | the store starts with both tables empty |
| Storage.DatabaseStorage.CreateApplication | server/storage.ts:59-65 | inserts the row with its defaults and each value as its column keeps it; a duplicate key or a row the columns refuse is an error that changes nothing |
| Storage.DatabaseStorage.GetApplication | server/storage.ts:67-73 | the row stored under that key, none when there is none |
| Storage.DatabaseStorage.GetUserApplications | server/storage.ts:75-82 | exactly the user's applications, most recently updated first |
| Storage.DatabaseStorage.UpdateApplication | server/storage.ts:84-97 | sets the given columns, as their columns keep them, and `updatedAt`; nothing for a missing key, an error for a refused row |
| Storage.DatabaseStorage.DeleteApplication | server/storage.ts:99-101 | removes the row and, by the cascade, its documents |
| Storage.DatabaseStorage.CreateDocument | server/storage.ts:104-110 | inserts the row with its defaults; a duplicate key, a refused row or a missing application is an error that changes nothing |
| Storage.DatabaseStorage.GetDocumentById | server/storage.ts:112-118 | the document stored under that key, none when there is none |
| Storage.DatabaseStorage.GetApplicationDocuments | server/storage.ts:120-127 | exactly the application's documents, newest first |
| Storage.DatabaseStorage.UpdateDocument | server/storage.ts:129-139 | sets the given columns and nothing else; nothing for a missing key, an error for a refused row or missing parent |
| Storage.DatabaseStorage.DeleteDocument | server/storage.ts:141-143 | removes that document only |
| Schema.RatioColumns | shared/schema.ts:87-89 | `ltv` and `dscr` are nullable numeric(5, 2) columns and `monthlyInterest` a nullable numeric(12, 2) column, none with a default |
| Schema.NotNullColumnsExact | shared/schema.ts:41-131 | the not-null columns are exactly those the tables declare so |
| Schema.DefaultedColumnsExact | shared/schema.ts:41-131 | the defaulted columns are exactly those the tables declare a default for |
| Schema.RequiredKeysExact | shared/schema.ts:41-136 | an insert must supply exactly the not-null columns without a default |
| Schema.ApplicationInsertKeys | shared/schema.ts:99-103 | the application insert schema takes `userId`, `status` and the three metrics, and refuses `id` and both timestamps |
| Schema.DocumentInsertKeys | shared/schema.ts:133-136 | the document insert schema omits exactly `id` and `createdAt` |
| Schema.NumericTextOfFixed | shared/schema.ts:87-89 | the database reads text printed by `toFixed` as the rounded number |
| Schema.StoredNumberReadsBack | shared/schema.ts:49-89 | the text a numeric column prints for a number reads back as that number rounded to the scale |
| Schema.RoundedTwice | shared/schema.ts:49-89 | rounding to a scale twice is rounding once |
| Schema.FixedOfRounded | shared/schema.ts:49-89 | `toFixed(d)` of a value rounded to d places is `toFixed(d)` of the value, unless a negative value rounds to zero |
| Schema.FitsRounded | shared/schema.ts:49-89 | a number fits numeric(p, s) exactly when its rounding to s places does |
| Schema.StoredValueMeaning | shared/schema.ts:49-89 | a numeric column keeps NaN as "NaN" and a number as text that reads back as the number rounded to its scale; other columns, and values a column refuses, are kept as given |
| Schema.StoredFitsKept | shared/schema.ts:49-89 | what a column keeps fits it exactly when the given value does |
| Schema.StoredValueTwice | shared/schema.ts:49-89 | storing what a column keeps changes nothing more |
| Schema.FixedTextKept | shared/schema.ts:49-89 | non-negative `toFixed(s)` text is kept unchanged by a numeric column of scale s |
| Schema.PaddedAmountKept | shared/schema.ts:49 | " 250000" written to `loanAmount` is kept as "250000.00" |
| Schema.ExponentAmountKept | shared/schema.ts:49 | "2.5e5" written to `loanAmount` is kept as "250000.00" |
| Schema.HalfCentRounded | shared/schema.ts:49 | "100.005" written to `loanAmount` is kept as "100.01" |
| Schema.NaNKept | shared/schema.ts:49-89 | "nan" written to any numeric column is kept as "NaN" |
| Schema.FixedTextFits | shared/schema.ts:87-88 | `toFixed(s)` text fits numeric(p, s) exactly when the rounded value has at most p − s integer digits |
| Schema.InfinityDoesNotFit | shared/schema.ts:87-88 | "Infinity" fits no numeric column |
| Schema.InsertRowMeaning | server/storage.ts:59-65 | an inserted row holds what each column keeps of its given non-null value (a numeric value rounded to scale and printed with that many decimals, any other value unchanged), no column given null, and a column left out exactly when it has no default |
| Schema.DefaultApplied | shared/schema.ts:41-131 | a column the values leave out takes its default |
| Schema.ApplicationDefaults | shared/schema.ts:92-93 | a new application is a "draft" on step "quick-start" unless told otherwise |
| Schema.ApplicationFlagDefaults | shared/schema.ts:78-83 | `hasBankruptcy` and `authorizeCreditPull` default to false and `isIncomeProducing` to true |
| Schema.ApplicationKeyAndTimes | shared/schema.ts:42-96 | a new application gets the generated id and both timestamps are the insert time |
| Schema.DocumentDefaults | shared/schema.ts:110-131 | a new document is "pending", with the generated id and the insert time |
| Schema.UpdateRowMeaning | server/storage.ts:88-95 | an update sets exactly the columns it names with a defined value, to what each column keeps of it (a numeric value rounded to scale, any other value unchanged), clears those set to null and keeps the rest |
| Schema.AcceptedInsertHasNotNull | shared/schema.ts:99-103 | a body the strict insert schema accepts leaves no not-null column empty |
| ApplicationPage.Steps | client/src/pages/application.tsx:18-26 | seven steps with ids 1..7 and their names, in order |
| ApplicationPage.StepStatusRule | client/src/pages/application.tsx:19-24 | steps 1 to 6 are completed once passed, current when reached and upcoming before |
| ApplicationPage.LastStepRule | client/src/pages/application.tsx:25 | step 7 is never completed, and is current exactly at counter 7 |
| ApplicationPage.ExactlyOneCurrent | client/src/pages/application.tsx:18-26 | for a counter in 1..7 the current step is exactly the one whose id is the counter |
| ApplicationPage.ClickableSteps | client/src/pages/application.tsx:85 | the stepper draws buttons exactly for the steps before the counter, and since no callback is passed no click navigates |
| ApplicationPage.PlaceholderSteps | client/src/pages/application.tsx:46-73 | within 1..7 the placeholder screen stands for steps 3, 5 and 6 only |
| ApplicationPage.Page.constructor | client/src/pages/application.tsx:15-16 | the counter starts at 1 and the indicator at "saved" |
| ApplicationPage.Page.HandleContinue | client/src/pages/application.tsx:28-35 | the indicator shows "saving", one save is scheduled, the step data is dropped |
| ApplicationPage.Page.SaveTimerFires | client/src/pages/application.tsx:31-34 | the indicator shows "saved" and the counter moves one step forward, never past 7 |
| ApplicationPage.Page.HandleBack | client/src/pages/application.tsx:37-39 | the counter moves one step back, never before 1 |
| ApplicationPage.Page.PlaceholderContinue | client/src/pages/application.tsx:66 | the placeholder's Continue submits `{}` through `handleContinue` |
| ProgressStepper.HandleStepClick | client/src/components/ProgressStepper.tsx:15-22 | the callback is called, with the step's id, exactly for a completed step when a callback was given |
| ProgressStepper.Render | client/src/components/ProgressStepper.tsx:27-63 | one item per step in order with its id and name, a button exactly for completed steps, a connector on all but the last |
| ProgressStepper.ClickNavigates | client/src/components/ProgressStepper.tsx:29-41 | a click on an item navigates exactly when it is a completed step and a callback exists |
| ProgressStepper.NoCallbackNoNavigation | client/src/components/ProgressStepper.tsx:18 | without a callback no click navigates |
| QuickStart.OfferedLoanTypes | client/src/components/QuickStartForm.tsx:25-56 | the selectable values are the `value`s of the option list, in order |
| QuickStart.FiveLoanTypes | client/src/components/QuickStartForm.tsx:25-56 | exactly the five loan types, in their order |
| QuickStart.Payload | client/src/components/QuickStartForm.tsx:60-65 | the payload has the four keys, city and state renamed to `propertyCity` and `propertyState` |
| QuickStart.UntouchedRoundTrip | client/src/components/QuickStartForm.tsx:20-23 | submitting untouched gives back each truthy initial value and "" for the others |
| QuickStart.ContinueEnabledIff | client/src/components/QuickStartForm.tsx:162 | Continue is enabled exactly when every payload value is truthy |
| QuickStart.QuickStartForm.constructor | client/src/components/QuickStartForm.tsx:20-23 | each field starts from `initialData` or "" |
| QuickStart.QuickStartForm.SetLoanType | client/src/components/QuickStartForm.tsx:20 | only the loan type changes |
| QuickStart.QuickStartForm.SetLoanAmount | client/src/components/QuickStartForm.tsx:21 | only the amount changes |
| QuickStart.QuickStartForm.SetCity | client/src/components/QuickStartForm.tsx:22 | only the city changes |
| QuickStart.QuickStartForm.SetState | client/src/components/QuickStartForm.tsx:23 | only the state changes |
| QuickStart.QuickStartForm.HandleSubmit | client/src/components/QuickStartForm.tsx:58-68 | hands over the payload, all of whose values are truthy when Continue is enabled |
| PropertyBasics.InitialFormDataMeaning | client/src/components/PropertyBasicsForm.tsx:19-33 | each of the 13 fields starts from its key in `initialData` (`yearsExperience` for `experience`) or "" |
| PropertyBasics.SubmittedMeaning | client/src/components/PropertyBasicsForm.tsx:37-51 | the payload has exactly the 13 data keys, each holding its field, `experience` renamed `yearsExperience` |
| PropertyBasics.UntouchedRoundTrip | client/src/components/PropertyBasicsForm.tsx:19-51 | submitting untouched gives back each truthy initial value under the key it came from, "" otherwise |
| PropertyBasics.StarredFieldsAreStep2 | client/src/components/PropertyBasicsForm.tsx:87-220 | the six starred fields are exactly the step-2 entries of the required-field table |
| PropertyBasics.StarredFieldPath | client/src/hooks/useFormValidation.ts:35-40 | each step-2 entry is a form field read at a one-key path of its own name |
| PropertyBasics.BlankIsEmpty | client/src/hooks/useFormValidation.ts:136-140 | a single space is truthy but empty for the validator |
| PropertyBasics.HighlightedIsReported | client/src/components/PropertyBasicsForm.tsx:94-228 | a highlighted starred field is reported by step 2 for the payload; a blank one is reported but not highlighted |
| PropertyBasics.PropertyBasicsForm.constructor | client/src/components/PropertyBasicsForm.tsx:19-33 | the record starts as the initial form data |
| PropertyBasics.PropertyBasicsForm.UpdateField | client/src/components/PropertyBasicsForm.tsx:56-58 | only that field changes |
| PropertyBasics.PropertyBasicsForm.HandleSubmit | client/src/components/PropertyBasicsForm.tsx:35-54 | hands over the renamed copy of the record |
| LoanSpecifics.InitialFields | client/src/components/LoanSpecificsForm.tsx:28-42 | the state has exactly the thirteen fields |
| LoanSpecifics.Defaults | client/src/components/LoanSpecificsForm.tsx:28-42 | with nothing saved, four fields start at "no", "monthly", "fixed" and "non-recourse", the rest at "" |
| LoanSpecifics.PutGroup | client/src/components/LoanSpecificsForm.tsx:54-80 | a group of assignments adds the group's keys with their fields' values and keeps every other key |
| LoanSpecifics.ConstructionKeys | client/src/components/LoanSpecificsForm.tsx:74-80 | a construction loan gets exactly rate, value, budget, period, draw schedule, term and recourse |
| LoanSpecifics.ConstructionOnlyExactly | client/src/components/LoanSpecificsForm.tsx:74 | the construction fields appear exactly for the type "construction" |
| LoanSpecifics.IncludesOrEmpty | client/src/components/LoanSpecificsForm.tsx:24 | `|| ""` does not change which words a loan type includes |
| LoanSpecifics.CoversStep3 | client/src/components/LoanSpecificsForm.tsx:48-80 | every field step 3 requires for some data is a key of the object built for its loan type |
| LoanSpecifics.BridgeTermReadAsYears | server/routes.ts:61 | a bridge term entered in months reaches the payment as that many years |
| LoanSpecifics.FormatLoanTypeDisplay | client/src/components/LoanSpecificsForm.tsx:85-94 | a type is shown as itself exactly when it is not one of the five known types |
| LoanSpecifics.LoanSpecificsForm.constructor | client/src/components/LoanSpecificsForm.tsx:24-42 | the loan type and the thirteen fields start from `initialData` or their defaults |
| LoanSpecifics.LoanSpecificsForm.SetField | client/src/components/LoanSpecificsForm.tsx:28-42 | only that field changes |
| LoanSpecifics.LoanSpecificsForm.HandleSubmit | client/src/components/LoanSpecificsForm.tsx:44-83 | runs only when no rendered `required` input is empty; the conditional assignments build `{loanSpecifics}` with exactly the loan type's keys, each holding its field |
| LoanSpecifics.UnblockedSubmitFilled | client/src/components/LoanSpecificsForm.tsx:108-345 | a submit the browser lets through carries every rendered `required` input (the property value always, the exit strategy, current balance, budget and period when shown), none of them empty |
| LoanSpecifics.AlwaysRateAndValue | client/src/components/LoanSpecificsForm.tsx:48-51 | the object always carries the interest rate and the property value |
| FinancialSnapshot.InitialFormData | client/src/components/FinancialSnapshotForm.tsx:18-25 | the record has exactly the six fields |
| FinancialSnapshot.InitialFormDataMeaning | client/src/components/FinancialSnapshotForm.tsx:18-25 | text fields start at "" and check boxes at false unless `initialData` holds a truthy value, which is kept |
| FinancialSnapshot.UpdateKeepsFields | client/src/components/FinancialSnapshotForm.tsx:32-34 | an update keeps the six keys and every other field |
| FinancialSnapshot.UntouchedRoundTrip | client/src/components/FinancialSnapshotForm.tsx:18-30 | submitting untouched gives back every truthy initial value |
| FinancialSnapshot.FinancialSnapshotForm.constructor | client/src/components/FinancialSnapshotForm.tsx:18-25 | the record starts as the initial form data |
| FinancialSnapshot.FinancialSnapshotForm.UpdateField | client/src/components/FinancialSnapshotForm.tsx:32-34 | only that field changes |
| FinancialSnapshot.FinancialSnapshotForm.HandleSubmit | client/src/components/FinancialSnapshotForm.tsx:27-30 | hands over the record as it stands |
| PropertyPerformance.SetField | client/src/components/PropertyPerformanceForm.tsx:69 | the tenant's one field takes the value and the other three are kept |
| PropertyPerformance.TenantRoundTrip | client/src/components/PropertyPerformanceForm.tsx:21-26 | a submitted tenant reads back as the same tenant |
| PropertyPerformance.TenantsValue | client/src/components/PropertyPerformanceForm.tsx:85 | the submitted array has one object per tenant, each reading back as that tenant |
| PropertyPerformance.InitialTenants | client/src/components/PropertyPerformanceForm.tsx:33-35 | a falsy saved list starts the form with no tenants |
| PropertyPerformance.TenantsRoundTrip | client/src/components/PropertyPerformanceForm.tsx:33-35 | submitting the saved tenants gives back the saved array |
| PropertyPerformance.AddTenant | client/src/components/PropertyPerformanceForm.tsx:59-61 | one empty tenant is appended and the others are kept |
| PropertyPerformance.RemoveTenant | client/src/components/PropertyPerformanceForm.tsx:63-65 | the tenant at the index is dropped, the rest kept in order; an index out of range changes nothing |
| PropertyPerformance.AmountIgnoresCommas | client/src/components/PropertyPerformanceForm.tsx:51-52 | digits with thousands separators read as the number they spell |
| PropertyPerformance.EmptyAmountIsZero | client/src/components/PropertyPerformanceForm.tsx:51-52 | an empty amount reads as 0 |
| PropertyPerformance.CalculatedNoi | client/src/components/PropertyPerformanceForm.tsx:50-57 | NOI is set exactly when both amounts parse to positive numbers |
| PropertyPerformance.CalculatedNoiValue | client/src/components/PropertyPerformanceForm.tsx:53-55 | the NOI text reads back as income minus expenses to the cent |
| PropertyPerformance.Submitted | client/src/components/PropertyPerformanceForm.tsx:73-95 | the figures only for an income-producing property, the tenants only when there are some, each improvements text only when truthy |
| PropertyPerformance.NoLoanSpecifics | client/src/components/PropertyPerformanceForm.tsx:76-95 | the submitted object never has a `loanSpecifics` key |
| PropertyPerformance.LoanSpecificsPathUndefined | client/src/hooks/useFormValidation.ts:125-134 | a `loanSpecifics.` path reads undefined where there is no `loanSpecifics` |
| PropertyPerformance.IncomeFigureUnseen | client/src/hooks/useFormValidation.ts:90-111 | without `loanSpecifics` the income and expense paths read undefined and are reported for an income-producing property |
| PropertyPerformance.FiguresMissedByValidator | client/src/components/PropertyPerformanceForm.tsx:80-81 | merged into an application without `loanSpecifics`, the submitted figures stay invisible to the step-5 validator, which reports them |
| PropertyPerformance.PropertyPerformanceForm.constructor | client/src/components/PropertyPerformanceForm.tsx:29-47 | every field starts from `initialData` or its default, and the income rule is the step-5 validator's |
| PropertyPerformance.PropertyPerformanceForm.Edit | client/src/components/PropertyPerformanceForm.tsx:29-37 | an input's change sets only that field |
| PropertyPerformance.PropertyPerformanceForm.CalculateNoi | client/src/components/PropertyPerformanceForm.tsx:50-57 | NOI becomes the calculated text when both amounts are positive and is kept otherwise; nothing else changes |
| PropertyPerformance.PropertyPerformanceForm.AddTenantClicked | client/src/components/PropertyPerformanceForm.tsx:59-61 | the list becomes the appended list; nothing else changes |
| PropertyPerformance.PropertyPerformanceForm.RemoveTenantClicked | client/src/components/PropertyPerformanceForm.tsx:63-65 | the list becomes the filtered list; nothing else changes |
| PropertyPerformance.PropertyPerformanceForm.UpdateTenant | client/src/components/PropertyPerformanceForm.tsx:67-71 | one field of one tenant changes; every other tenant and field is kept |
| PropertyPerformance.PropertyPerformanceForm.HandleSubmit | client/src/components/PropertyPerformanceForm.tsx:73-98 | runs only when the `required` income, expenses and occupancy inputs of the income-producing form are filled; the object filled one conditional assignment at a time is the submitted object |
| PropertyPerformance.UnblockedSubmitFigures | client/src/components/PropertyPerformanceForm.tsx:207-330 | an income-producing submit the browser lets through carries the income, the expenses and the occupancy, none of them empty |
| PropertyPerformance.NonIncomeProducingSubmitsNoFigures | client/src/components/PropertyPerformanceForm.tsx:44-87 | land, owner-occupied property or a construction loan submits at most the improvements texts |
| ReviewSubmit.GrossIncome | client/src/components/ReviewSubmitForm.tsx:60-61 | the income under `loanSpecifics` when truthy, the top-level one otherwise |
| ReviewSubmit.OperatingExpenses | client/src/components/ReviewSubmitForm.tsx:60-62 | the expenses under `loanSpecifics` when truthy, the top-level ones otherwise |
| ReviewSubmit.ReviewShowsSubmittedFigures | client/src/components/ReviewSubmitForm.tsx:60-62 | the review shows the figures the income step submitted, through the fallback |
| ReviewSubmit.ChosenLabels | client/src/components/ReviewSubmitForm.tsx:65-68 | a label is listed exactly when its check failed |
| ReviewSubmit.ChosenInOrder | client/src/components/ReviewSubmitForm.tsx:65-68 | the listed labels keep the checking order |
| ReviewSubmit.MissingFields | client/src/components/ReviewSubmitForm.tsx:64-68 | "Loan Amount", "Property Type" and "Property Value" are listed exactly when that value is falsy, in that order |
| ReviewSubmit.ReviewWithoutData | client/src/pages/application.tsx:55 | the page mounts the review without `data`, so all three values are listed as missing and Submit is disabled |
| ReviewSubmit.SubmitEnabledIff | client/src/components/ReviewSubmitForm.tsx:424 | Submit is enabled exactly when all three values are truthy |
| ReviewSubmit.LtvStatus | client/src/components/ReviewSubmitForm.tsx:71-74 | good for a truthy LTV ≤ 75, warning above 85, neutral otherwise and when absent or unparsable |
| ReviewSubmit.DscrStatus | client/src/components/ReviewSubmitForm.tsx:72-75 | good for DSCR ≥ 1.25, warning for a truthy one below 1.1, neutral otherwise and when absent or unparsable |
| ReviewSubmit.StatusBandsMonotone | client/src/components/ReviewSubmitForm.tsx:74-75 | a higher LTV never has a better status, a higher DSCR never a worse one |
| ReviewSubmit.NoCalculatedColumns | client/src/components/ReviewSubmitForm.tsx:71-72 | the application table has no `calculatedLtv`, `calculatedDscr` or `calculatedMonthlyInterest` column |
| ReviewSubmit.StoredApplicationShowsNoMetrics | client/src/components/ReviewSubmitForm.tsx:71-75 | for any stored application no metric card is drawn and both statuses are neutral |
| ReviewSubmit.FormatLoanType | client/src/components/ReviewSubmitForm.tsx:34-43 | a type is shown as itself exactly when it is not one of the five known types |
| ReviewSubmit.FormatPropertyType | client/src/components/ReviewSubmitForm.tsx:46-57 | a property type is shown as itself exactly when it is not one of the seven known ones |
| ReviewSubmit.FormatCurrency | client/src/components/ReviewSubmitForm.tsx:22-31 | "$0" when the comma-free text of the value is not a number, the formatter's text of the parsed number otherwise |
| ReviewSubmit.CurrencyOfText | client/src/components/ReviewSubmitForm.tsx:22-24 | an amount with thousands separators, alone or as a one-element array, is formatted as the number it spells |
| ReviewSubmit.CurrencyOfNothing | client/src/components/ReviewSubmitForm.tsx:22-24 | undefined and "" are shown as "$0" |
| DocumentUpload.Required | client/src/components/DocumentUploadForm.tsx:254-256 | the filter keeps exactly the required requirements |
| DocumentUpload.ContinueAlwaysEnabled | client/src/components/DocumentUploadForm.tsx:254-256 | no requirement is required, so Continue is enabled whatever the slots hold |
| DocumentUpload.StoredDocumentTyped | shared/schema.ts:120 | a stored document always has a text type, the key of its slot |
| DocumentUpload.InitialSlots | client/src/components/DocumentUploadForm.tsx:43-48 | there is a slot exactly for each saved document's type, every one "uploaded" |
| DocumentUpload.LastOfTypeWins | client/src/components/DocumentUploadForm.tsx:44-47 | of several saved documents of one type, the last one fills the slot |
| DocumentUpload.Placeholder | client/src/components/DocumentUploadForm.tsx:188-198 | the uploading slot has an empty id, the type and status "uploading" |
| DocumentUpload.UploadBody | client/src/components/DocumentUploadForm.tsx:114-116 | the multipart fields besides the file are `type` alone |
| DocumentUpload.DeletePathMissesRoute | client/src/components/DocumentUploadForm.tsx:209 | the delete path the form requests never starts with the server's `/api/documents/` |
| DocumentUpload.BytesReadBack | client/src/components/DocumentUploadForm.tsx:249 | below 1 KiB the size label reads back as the exact number of bytes |
| DocumentUpload.KilobytesReadBack | client/src/components/DocumentUploadForm.tsx:250 | below 1 MiB the label reads back as the kilobytes to one decimal |
| DocumentUpload.MegabytesReadBack | client/src/components/DocumentUploadForm.tsx:251 | from 1 MiB up the label reads back as the megabytes to one decimal |
| DocumentUpload.KilobytesAsServer | client/src/components/DocumentUploadForm.tsx:250 | between 1 KiB and 1 MiB the form labels a size as the server records it |
| DocumentUpload.DocumentUploadForm.constructor | client/src/components/DocumentUploadForm.tsx:43-49 | the slots start from the saved documents and no type is uploading |
| DocumentUpload.DocumentUploadForm.HandleFileSelect | client/src/components/DocumentUploadForm.tsx:163-202 | nothing for no file, no application id or a file over 10 MiB; otherwise the placeholder fills the slot, the type is uploading and the request goes out |
| DocumentUpload.DocumentUploadForm.OnSuccess | client/src/components/DocumentUploadForm.tsx:131-139 | the server's document fills the slot as "uploaded" and nothing is uploading |
| DocumentUpload.DocumentUploadForm.OnError | client/src/components/DocumentUploadForm.tsx:146-154 | an existing slot is marked "failed", a missing one stays missing, nothing is uploading |
| DocumentUpload.DocumentUploadForm.HandleRemoveDocument | client/src/components/DocumentUploadForm.tsx:204-230 | no request for an empty slot or a falsy id; otherwise the slot goes when the server agrees and stays when it does not |
| DocumentUpload.DocumentUploadForm.HandleContinue | client/src/components/DocumentUploadForm.tsx:232-246 | the reminder shows exactly when no slot is filled |
| DocumentUpload.SendUpload | client/src/components/DocumentUploadForm.tsx:112-130 | the server answers the form's upload with 400 and stores nothing |
| DocumentUpload.UploadWithoutName | server/routes.ts:264-268 | a file picked for an owned application is refused with 400 and its slot ends "failed" |

## Left out

- Floating point. Numbers are exact reals, and NaN is `None`. Rounding
  error, `-0`, and `toFixed` on values of 10^21 or more are not modelled.
  Neither are the exponent and `Infinity` forms of `parseFloat`.
- The database's numeric input reads white space, a sign, a decimal
  with an optional exponent, and "NaN". It does not bound the exponent's
  size, and it does not read the underscore and `0x`/`0o`/`0b` forms of
  PostgreSQL 16. The infinity spellings are not read: every numeric
  column here has a precision, and PostgreSQL refuses infinity in those
  columns too. White space between `e` and its digits is refused.
- A JavaScript number written to a numeric column is read as the exact
  number, not through the text the driver sends for it.
- Metrics.MonthlyPayment: `Math.pow` is an abstract parameter. The
  model knows only that a base above 1 raised to a positive power
  exceeds 1, so no exact payment amount is stated.
- ReviewSubmit.FormatCurrency: `Intl.NumberFormat` is an abstract
  parameter, so only the choice between "$0" and the formatter is stated.
  The texts of numbers and dates inside an array are parameters too.
- JsNumber.ParseNumber: a number's text is taken to read back as the
  number, which is the round trip JavaScript guarantees for its own
  numbers.
- JSX markup, styling, icons, tooltips, toasts and `console` output.
  None of them changes the state. The `required` attributes of the
  loan-terms and income forms are modelled, as the submit gates
  `LoanSpecifics.SubmitBlocked` and `PropertyPerformance.FiguresBlocked`.
  A required input counts as empty only when it holds the text "". A
  saved truthy value that is not text is taken as filled, even one
  (an empty array) that React shows as empty.
- The react-query cache invalidation after an upload or a delete is not
  modelled.
- The 1000 ms save timer is a separate event,
  `ApplicationPage.Page.SaveTimerFires`. Its delay is not modelled.
- Navigation to `/dashboard` and `/` from the wizard page is not
  modelled.
- Times are integer parameters, and the ISO text of `new Date()` is a
  string parameter.
- Authentication and the users and sessions tables are not modelled. The
  signed-in user is a parameter, and the `userId` foreign key to users
  is not checked.
- The object store's upload and delete are booleans. A missing bucket
  setting, which makes the client constructor throw, counts as a failed
  call. The file's bytes are not modelled.
- The zod `errors` array of a 400 reply is not modelled. Replies carry
  only the message.
- Insert-schema validation covers the column kinds, nullability and
  unknown keys. It does not cover zod's string coercions.
- `includes` on a loan type that is neither a string nor an array throws
  a TypeError in the source. Here it is false.
- Property access reads own properties only. Prototype properties such as
  a string's `length` read as undefined.
- PropertyPerformance.PropertyPerformanceForm.CalculateNoi: requires both
  amounts to be strings. In the source a saved non-string value makes
  `replace` throw, and that throw is not modelled.
- PropertyPerformance.PropertyPerformanceForm.UpdateTenant: requires the
  index to be in range. The source would write a fresh entry past the
  end, which is not modelled because the form only passes existing
  indices.
- PropertyPerformance.InitialTenants: a truthy `majorTenants` that is not
  an array starts the list empty. Saved tenant objects keep only their
  four fields.
- DocumentUpload.DocumentUploadForm.constructor: requires every saved
  document to have a text `type`. Every stored document has one
  (`DocumentUpload.StoredDocumentTyped`).
- DocumentUpload.DocumentUploadForm.OnError: the source sets `.status`
  on a slot object that the previous state shares. The model replaces
  that slot with a copy, so this aliasing is not captured.
- Storage.DatabaseStorage.UpdateDocument: an update with no defined value
  (the ORM's "no values to set" error) is not modelled.
- Storage.SelectNewestFirst: rows with equal timestamps come back in any
  order, and the model fixes none.
- `getUser` and `upsertUser`, and the `GET /api/auth/user` route, belong
  to authentication and are not part of this model.

=== FILE: application_page.dfy ===
/**
 * The wizard page (client/src/pages/application.tsx): a step counter kept
 * within 1..7, the save indicator, the step statuses derived from the
 * counter, and which screen each counter value shows.
 */
module ApplicationPage {
  import opened JsValue
  import opened ProgressStepper

  const FirstStep: int := 1
  const LastStep: int := 7

  const StepNames: seq<string> := [
    "Quick Start", "Property Details", "Loan Specifics", "Financial Snapshot",
    "Property Performance", "Documents", "Review & Submit"
  ]

  datatype SaveStatus = Saving | Saved | Idle

  /** The status of step `id` for counter `currentStep`; the last step is
      never shown as completed. */
  function StatusAt(currentStep: int, id: int): StepStatus {
    if id == LastStep then (if currentStep == LastStep then Current else Upcoming)
    else if currentStep > id then Completed
    else if currentStep == id then Current
    else Upcoming
  }

  /** The `steps` array handed to the progress stepper. */
  function Steps(currentStep: int): (steps: seq<Step>)
    ensures |steps| == 7
    ensures forall i | 0 <= i < 7 :: steps[i].id == i + 1 && steps[i].name == StepNames[i]
  {
    seq(7, i requires 0 <= i < 7 => Step(i + 1, StepNames[i], StatusAt(currentStep, i + 1)))
  }

  /** Steps 1..6: completed once passed, current when reached, upcoming before. */
  lemma StepStatusRule(currentStep: int, k: int)
    requires 1 <= k <= 6
    ensures Steps(currentStep)[k - 1].status == Completed <==> currentStep > k
    ensures Steps(currentStep)[k - 1].status == Current <==> currentStep == k
    ensures Steps(currentStep)[k - 1].status == Upcoming <==> currentStep < k
  {
  }

  /** Step 7 is never completed, and is current exactly at counter 7. */
  lemma LastStepRule(currentStep: int)
    ensures Steps(currentStep)[6].status != Completed
    ensures Steps(currentStep)[6].status == Current <==> currentStep == LastStep
  {
  }

  /** For every counter value in range exactly one step is current: the one
      whose id is the counter. */
  lemma ExactlyOneCurrent(currentStep: int, i: int)
    requires FirstStep <= currentStep <= LastStep && 0 <= i < 7
    ensures Steps(currentStep)[i].status == Current <==> Steps(currentStep)[i].id == currentStep
  {
  }

  /** The steps the stepper would let a user click are exactly those before
      the counter, and since the page passes no callback no click moves it. */
  lemma ClickableSteps(currentStep: int, i: int)
    requires FirstStep <= currentStep <= LastStep && 0 <= i < 7
    ensures Render(Steps(currentStep))[i].marker == CompletedButton <==> Steps(currentStep)[i].id < currentStep
    ensures Click(Steps(currentStep), i, false).None?
  {
  }

  /** The screen `renderStep` shows. */
  datatype Screen =
    | QuickStartScreen
    | PropertyBasicsScreen
    | FinancialSnapshotScreen
    | ReviewSubmitScreen
    | ComingSoon(step: int)   // a placeholder whose Continue submits `{}`

  function RenderStep(currentStep: int): Screen {
    match currentStep
    case 1 => QuickStartScreen
    case 2 => PropertyBasicsScreen
    case 4 => FinancialSnapshotScreen
    case 7 => ReviewSubmitScreen
    case _ => ComingSoon(currentStep)
  }

  /** Within 1..7 the placeholder stands in for steps 3, 5 and 6 only. */
  lemma PlaceholderSteps(currentStep: int)
    requires FirstStep <= currentStep <= LastStep
    ensures RenderStep(currentStep).ComingSoon? <==> currentStep in {3, 5, 6}
  {
  }

  function Min(a: int, b: int): int { if a <= b then a else b }
  function Max(a: int, b: int): int { if a >= b then a else b }

  /** The page state. Each `handleContinue` schedules one save timer;
      `pendingSaves` counts those that have not yet fired. */
  class Page {
    var currentStep: int
    var saveStatus: SaveStatus
    var pendingSaves: nat

    predicate Valid()
      reads this
    {
      FirstStep <= currentStep <= LastStep
    }

    constructor()
      ensures Valid()
      ensures currentStep == 1 && saveStatus == Saved && pendingSaves == 0
    {
      currentStep := 1;
      saveStatus := Saved;
      pendingSaves := 0;
    }

    /** `handleContinue(data)`: shows "saving" and schedules the save timer;
        the step data is not kept. */
    method HandleContinue(data: Value)
      requires Valid()
      modifies this
      ensures Valid()
      ensures saveStatus == Saving && currentStep == old(currentStep)
      ensures pendingSaves == old(pendingSaves) + 1
    {
      saveStatus := Saving;
      pendingSaves := pendingSaves + 1;
    }

    /** A scheduled save timer firing: "saved", and one step forward, never
        past the last. */
    method SaveTimerFires()
      requires Valid() && pendingSaves > 0
      modifies this
      ensures Valid()
      ensures saveStatus == Saved && currentStep == Min(old(currentStep) + 1, LastStep)
      ensures pendingSaves == old(pendingSaves) - 1
    {
      saveStatus := Saved;
      currentStep := Min(currentStep + 1, LastStep);
      pendingSaves := pendingSaves - 1;
    }

    /** `handleBack`: one step back, never before the first. */
    method HandleBack()
      requires Valid()
      modifies this
      ensures Valid()
      ensures currentStep == Max(old(currentStep) - 1, FirstStep)
      ensures saveStatus == old(saveStatus) && pendingSaves == old(pendingSaves)
    {
      currentStep := Max(currentStep - 1, FirstStep);
    }

    /** The Continue button of the placeholder screen. */
    method PlaceholderContinue()
      requires Valid() && RenderStep(currentStep).ComingSoon?
      modifies this
      ensures Valid()
      ensures saveStatus == Saving && currentStep == old(currentStep)
      ensures pendingSaves == old(pendingSaves) + 1
    {
      HandleContinue(Obj(map[]));
    }
  }
}

=== FILE: document_upload.dfy ===
/**
 * The document step (client/src/components/DocumentUploadForm.tsx): one slot
 * per document type, filled from the saved documents and changed by the file
 * select handler, the upload's success and error callbacks and the remove
 * handler, plus the requirement list, the Continue rule and the size label.
 */
module DocumentUpload {
  import opened Wrappers
  import opened JsValue
  import opened JsNumber
  import Schema
  import Storage
  import Routes

  /** A `DocumentRequirement`. */
  datatype Requirement = Requirement(docType: string, name: string, required: bool, description: string, acceptedTypes: string)

  /** A requirement with `required: false`. */
  function Optional(docType: string, name: string, description: string, acceptedTypes: string): (req: Requirement)
    ensures !req.required && req.docType == docType
  {
    Requirement(docType, name, false, description, acceptedTypes)
  }

  /** `documentRequirements`: eight types, none of them required. */
  const DocumentRequirements: seq<Requirement> := [
    Optional("financial-statements", "Financial Statements",
                "Last 3 years of business financial statements (P&L, Balance Sheet, Cash Flow)", ".pdf,.xls,.xlsx"),
    Optional("tax-returns", "Tax Returns", "Last 3 years of business and personal tax returns", ".pdf"),
    Optional("rent-roll", "Rent Roll", "Current rent roll showing all tenants, rents, and lease terms",
                ".pdf,.xls,.xlsx"),
    Optional("property-photos", "Property Photos", "Recent photos of the property (exterior and interior)",
                ".jpg,.jpeg,.png,.pdf"),
    Optional("purchase-agreement", "Purchase Agreement", "Signed purchase agreement or LOI (if acquisition)",
                ".pdf,.doc,.docx"),
    Optional("appraisal", "Property Appraisal", "Recent property appraisal report (if available)", ".pdf"),
    Optional("environmental", "Environmental Report", "Phase I Environmental Site Assessment (if available)",
                ".pdf"),
    Optional("insurance", "Insurance Documentation", "Current property insurance policy or quote", ".pdf")
  ]

  /** `requirements.filter(req => req.required)` */
  function Required(requirements: seq<Requirement>): (r: seq<Requirement>)
    ensures forall req :: req in r <==> req in requirements && req.required
    decreases |requirements|
  {
    if |requirements| == 0 then []
    else
      var front := requirements[..|requirements| - 1];
      var last := requirements[|requirements| - 1];
      assert requirements == front + [last];
      Required(front) + (if last.required then [last] else [])
  }

  /** A slot holds an uploaded document. */
  predicate IsUploaded(uploadedDocs: map<string, Record>, docType: string) {
    docType in uploadedDocs && Get(Obj(uploadedDocs[docType]), "status") == Str("uploaded")
  }

  /** `requiredDocsUploaded`: every required type has an uploaded document. */
  predicate RequiredDocsUploaded(uploadedDocs: map<string, Record>) {
    forall req | req in Required(DocumentRequirements) :: IsUploaded(uploadedDocs, req.docType)
  }

  /** No requirement is required, so Continue is enabled whatever the slots
      hold, even with no document at all. */
  lemma ContinueAlwaysEnabled(uploadedDocs: map<string, Record>)
    ensures RequiredDocsUploaded(uploadedDocs)
  {
    forall req | req in DocumentRequirements
      ensures !req.required
    {
    }
  }

  // ---------------------------------------------------------------- slots

  /** A saved document's type, the key of its slot. */
  predicate Typed(doc: Record) {
    "type" in doc && doc["type"].Str?
  }

  function TypeKey(doc: Record): string
    requires Typed(doc)
  {
    doc["type"].s
  }

  /** A stored document always has a text type. */
  lemma StoredDocumentTyped(doc: Record)
    requires Schema.RowFits(Schema.Documents, doc)
    ensures Typed(doc)
  {
    assert "type" in Schema.NotNullColumns(Schema.Documents);
    assert Schema.ColumnOf(Schema.Documents, "type") == Some(Schema.Column(Schema.Text, true, Schema.NoDefault));
  }

  /** `{ ...doc, status }` */
  function WithStatus(doc: Record, status: string): (r: Record)
    ensures r.Keys == doc.Keys + {"status"} && r["status"] == Str(status)
    ensures forall k | k in doc && k != "status" :: r[k] == doc[k]
  {
    doc["status" := Str(status)]
  }

  /** The initial slots: `existingDocuments.reduce`, each document under its
      type with status "uploaded". */
  function InitialSlots(docs: seq<Record>): (slots: map<string, Record>)
    requires forall doc | doc in docs :: Typed(doc)
    ensures forall t :: t in slots <==> exists doc | doc in docs :: TypeKey(doc) == t
    ensures forall t | t in slots :: Get(Obj(slots[t]), "status") == Str("uploaded")
    decreases |docs|
  {
    if |docs| == 0 then map[]
    else
      var front := docs[..|docs| - 1];
      var last := docs[|docs| - 1];
      assert docs == front + [last];
      InitialSlots(front)[TypeKey(last) := WithStatus(last, "uploaded")]
  }

  /** Of several saved documents of one type, the last one fills the slot. */
  lemma {:induction false} LastOfTypeWins(docs: seq<Record>, j: int)
    requires forall doc | doc in docs :: Typed(doc)
    requires 0 <= j < |docs|
    requires forall k | j < k < |docs| :: TypeKey(docs[k]) != TypeKey(docs[j])
    ensures TypeKey(docs[j]) in InitialSlots(docs)
    ensures InitialSlots(docs)[TypeKey(docs[j])] == WithStatus(docs[j], "uploaded")
    decreases |docs|
  {
    var front := docs[..|docs| - 1];
    if j < |docs| - 1 {
      assert forall k | j < k < |front| :: front[k] == docs[k];
      LastOfTypeWins(front, j);
      assert front[j] == docs[j];
    }
  }

  /** What a file input hands over: its name, MIME type and size in bytes. */
  datatype FileInfo = FileInfo(name: string, mimetype: string, size: nat)

  /** `10 * 1024 * 1024` */
  const MaxUploadBytes: nat := 10 * 1024 * 1024

  /** The slot shown while a file uploads. */
  function Placeholder(docType: string, file: FileInfo, uploadedAt: string): (doc: Record)
    ensures "id" in doc && doc["id"] == Str("") && "type" in doc && doc["type"] == Str(docType)
    ensures "status" in doc && doc["status"] == Str("uploading")
    ensures Falsy(Get(Obj(doc), "id"))
  {
    map["id" := Str(""), "type" := Str(docType), "fileName" := Str(file.name),
        "fileSize" := Num(file.size as real), "uploadedAt" := Str(uploadedAt), "status" := Str("uploading")]
  }

  /** The upload the mutation sends: the application id in the path, and the
      form fields `file` and `type`. */
  datatype UploadRequest = UploadRequest(applicationId: string, docType: string, file: FileInfo)

  /** The multipart fields other than the file: only `type`. */
  function UploadBody(request: UploadRequest): (body: Record)
    ensures body.Keys == {"type"} && body["type"] == Str(request.docType)
  {
    map["type" := Str(request.docType)]
  }

  /** The delete request: the application id, `null` when there is none,
      and the document's id. */
  datatype DeleteRequest = DeleteRequest(applicationId: Option<string>, docId: Value)

  /** `/api/applications/${applicationId}/documents/${doc.id}` */
  function DeletePath(applicationId: string, docId: string): string {
    "/api/applications/" + applicationId + "/documents/" + docId
  }

  /** The server deletes documents at `/api/documents/:id`; the path the form
      requests never has that prefix. */
  lemma DeletePathMissesRoute(applicationId: string, docId: string)
    ensures var path := DeletePath(applicationId, docId);
      |path| >= 15 && path[..15] != "/api/documents/"
  {
    var path := DeletePath(applicationId, docId);
    assert path[5] == 'a';
    assert "/api/documents/"[5] == 'd';
  }

  /** `formatFileSize` */
  function FormatFileSize(bytes: nat): string {
    if bytes < 1024 then NatToString(bytes) + " B"
    else if bytes < 1024 * 1024 then ToFixed(bytes as real / 1024.0, 1) + " KB"
    else ToFixed(bytes as real / (1024 * 1024) as real, 1) + " MB"
  }

  /** Below 1 KiB the label reads back as the exact number of bytes. */
  lemma BytesReadBack(bytes: nat)
    requires bytes < 1024
    ensures ParseFloat(FormatFileSize(bytes)) == Some(bytes as real)
  {
    NatToStringValue(bytes);
    ParseDigitsThen(NatToString(bytes), " B");
  }

  /** Below 1 MiB the label reads back as the kilobytes, to one decimal. */
  lemma KilobytesReadBack(bytes: nat)
    requires 1024 <= bytes < 1024 * 1024
    ensures ParseFloat(FormatFileSize(bytes)) == Some(Rounded(bytes as real / 1024.0, 1))
  {
    ParseFixedThen(bytes as real / 1024.0, 1, " KB");
  }

  /** From 1 MiB up the label reads back as the megabytes, to one decimal. */
  lemma MegabytesReadBack(bytes: nat)
    requires 1024 * 1024 <= bytes
    ensures ParseFloat(FormatFileSize(bytes)) == Some(Rounded(bytes as real / (1024 * 1024) as real, 1))
  {
    var megabytes := bytes as real / (1024 * 1024) as real;
    assert megabytes >= 0.0;
    assert FormatFileSize(bytes) == ToFixed(megabytes, 1) + " MB";
    ParseFixedThen(megabytes, 1, " MB");
  }

  /** Between 1 KiB and 1 MiB the form labels a size as the server does when
      it records an upload. */
  lemma KilobytesAsServer(bytes: nat)
    requires 1024 <= bytes < 1024 * 1024
    ensures FormatFileSize(bytes) == Routes.FileSizeText(bytes)
  {
  }

  /** A slot's `status` is one of the three of `UploadedDocument`. */
  predicate SlotStatusKnown(doc: Record) {
    Get(Obj(doc), "status") in {Str("uploading"), Str("uploaded"), Str("failed")}
  }

  /** The form's state. */
  class DocumentUploadForm {
    const applicationId: Option<string>
    var uploadedDocs: map<string, Record>
    var uploadingType: Option<string>

    /** Every slot has a known status. */
    predicate Valid()
      reads this
    {
      forall t | t in uploadedDocs :: SlotStatusKnown(uploadedDocs[t])
    }

    constructor(applicationId: Option<string>, existingDocuments: seq<Record>)
      requires forall doc | doc in existingDocuments :: Typed(doc)
      ensures Valid()
      ensures this.applicationId == applicationId
      ensures uploadedDocs == InitialSlots(existingDocuments) && uploadingType == None
    {
      this.applicationId := applicationId;
      uploadedDocs := InitialSlots(existingDocuments);
      uploadingType := None;
    }

    /** `!applicationId`: no id, or an empty one. */
    predicate NoApplication() {
      applicationId.None? || applicationId.value == ""
    }

    /** The `disabled` prop of every slot's buttons. */
    predicate InputsDisabled()
      reads this
    {
      NoApplication() || uploadingType.Some?
    }

    /** `handleFileSelect`: the upload to start, if any. Nothing happens for
        an empty file list, without an application id, or for a file over
        10 MiB; otherwise the slot shows a placeholder and the type is marked
        as uploading. `uploadedAt` is the current time as ISO text. */
    method HandleFileSelect(docType: string, files: seq<FileInfo>, uploadedAt: string)
      returns (request: Option<UploadRequest>)
      requires Valid()
      modifies this
      ensures Valid()
      ensures request.None? <==> |files| == 0 || NoApplication() || files[0].size > MaxUploadBytes
      ensures request.None? ==> uploadedDocs == old(uploadedDocs) && uploadingType == old(uploadingType)
      ensures request.Some? ==>
        request.value == UploadRequest(applicationId.value, docType, files[0])
        && uploadedDocs == old(uploadedDocs)[docType := Placeholder(docType, files[0], uploadedAt)]
        && uploadingType == Some(docType) && InputsDisabled()
    {
      if |files| == 0 {
        return None;
      }
      if NoApplication() {
        return None;
      }
      var file := files[0];
      if file.size > MaxUploadBytes {
        return None;
      }
      uploadingType := Some(docType);
      uploadedDocs := uploadedDocs[docType := Placeholder(docType, file, uploadedAt)];
      request := Some(UploadRequest(applicationId.value, docType, file));
    }

    /** The mutation's `onSuccess`: the server's document fills the slot with
        status "uploaded", and no type is uploading any more. */
    method OnSuccess(docType: string, data: Record)
      requires Valid()
      modifies this
      ensures Valid()
      ensures uploadedDocs == old(uploadedDocs)[docType := WithStatus(data, "uploaded")]
      ensures uploadingType == None
      ensures IsUploaded(uploadedDocs, docType)
    {
      uploadedDocs := uploadedDocs[docType := WithStatus(data, "uploaded")];
      uploadingType := None;
    }

    /** The mutation's `onError`: an existing slot is kept and marked
        "failed", and no type is uploading any more. */
    method OnError(docType: string)
      requires Valid()
      modifies this
      ensures Valid()
      ensures uploadingType == None
      ensures docType in old(uploadedDocs) ==>
        uploadedDocs == old(uploadedDocs)[docType := WithStatus(old(uploadedDocs)[docType], "failed")]
      ensures docType !in old(uploadedDocs) ==> uploadedDocs == old(uploadedDocs)
    {
      uploadingType := None;
      var updated := uploadedDocs;
      if docType in updated {
        updated := updated[docType := WithStatus(updated[docType], "failed")];
      }
      uploadedDocs := updated;
    }

    /** `handleRemoveDocument`: the delete request, if one is sent. Nothing
        is sent for an empty slot or one whose id is falsy; once sent, the
        slot is dropped when the server agrees (`deleteOk`) and kept
        otherwise. */
    method HandleRemoveDocument(docType: string, deleteOk: bool) returns (request: Option<DeleteRequest>)
      requires Valid()
      modifies this
      ensures Valid()
      ensures uploadingType == old(uploadingType)
      ensures request.None? <==>
        docType !in old(uploadedDocs) || Falsy(Get(Obj(old(uploadedDocs)[docType]), "id"))
      ensures request.None? ==> uploadedDocs == old(uploadedDocs)
      ensures request.Some? ==>
        request.value == DeleteRequest(applicationId, old(uploadedDocs)[docType]["id"])
        && uploadedDocs == (if deleteOk then old(uploadedDocs) - {docType} else old(uploadedDocs))
    {
      if docType !in uploadedDocs || Falsy(Get(Obj(uploadedDocs[docType]), "id")) {
        return None;
      }
      var doc := uploadedDocs[docType];
      request := Some(DeleteRequest(applicationId, doc["id"]));
      if deleteOk {
        uploadedDocs := uploadedDocs - {docType};
      }
    }

    /** `handleContinue`: whether the reminder that documents can be added
        later is shown, which is when no slot is filled. */
    method HandleContinue() returns (remind: bool)
      ensures remind <==> uploadedDocs == map[]
    {
      remind := |uploadedDocs.Keys| == 0;
    }
  }

  /** The server's handling of the form's upload: the multipart body has
      only `type`, so an owner's request is refused with 400 and nothing is
      stored. */
  method SendUpload(store: Storage.DatabaseStorage, request: UploadRequest, user: string,
                    privateDir: string, uploadOk: bool, docId: string, now: nat)
    returns (reply: Routes.Reply)
    requires store.Valid()
    requires request.applicationId in store.applications
    requires Routes.Owns(store.applications[request.applicationId], user)
    modifies store
    ensures store.Valid()
    ensures reply == Routes.Message(400, "Document name and type are required")
    ensures store.applications == old(store.applications) && store.documents == old(store.documents)
  {
    var body := UploadBody(request);
    assert Falsy(Get(Obj(body), "name"));
    var file := request.file;
    reply := Routes.PostDocument(store, request.applicationId, user, body,
                                 Some(Routes.Upload(file.name, file.mimetype, file.size)),
                                 privateDir, uploadOk, docId, now);
  }

  /** A file picked for an application the user owns goes up without a
      `name` field, so the server answers 400 and the slot ends "failed". */
  method UploadWithoutName(form: DocumentUploadForm, store: Storage.DatabaseStorage, user: string,
                           docType: string, file: FileInfo, uploadedAt: string,
                           privateDir: string, uploadOk: bool, docId: string, now: nat)
    returns (reply: Routes.Reply)
    requires form.Valid() && store.Valid()
    requires form.applicationId.Some? && form.applicationId.value != "" && file.size <= MaxUploadBytes
    requires form.applicationId.value in store.applications
    requires Routes.Owns(store.applications[form.applicationId.value], user)
    modifies form, store
    ensures form.Valid() && store.Valid()
    ensures reply == Routes.Message(400, "Document name and type are required")
    ensures store.applications == old(store.applications) && store.documents == old(store.documents)
    ensures docType in form.uploadedDocs && form.uploadingType == None
    ensures form.uploadedDocs[docType] == WithStatus(Placeholder(docType, file, uploadedAt), "failed")
  {
    var request := form.HandleFileSelect(docType, [file], uploadedAt);
    ghost var slot := form.uploadedDocs[docType];
    ghost var failed := WithStatus(Placeholder(docType, file, uploadedAt), "failed");
    assert slot == Placeholder(docType, file, uploadedAt);
    assert WithStatus(slot, "failed") == failed;
    reply := SendUpload(store, request.value, user, privateDir, uploadOk, docId, now);
    if 200 <= reply.status < 300 {
      assert false;
    } else {
      form.OnError(docType);
      assert form.uploadedDocs[docType] == WithStatus(slot, "failed") == failed;
    }
  }
}

=== FILE: financial_snapshot.dfy ===
/**
 * The financial step (client/src/components/FinancialSnapshotForm.tsx): a
 * six-field `formData` record seeded from `initialData`, changed one field at
 * a time, and handed to `onContinue` as it stands.
 */
module FinancialSnapshot {
  import opened JsValue

  /** The four text fields. */
  const TextFields: set<string> := {"netWorth", "liquidAssets", "downPaymentSource", "creditScore"}

  /** The two check boxes. */
  const FlagFields: set<string> := {"hasBankruptcy", "authorizeCreditPull"}

  const FormFields: set<string> := TextFields + FlagFields

  /** The initial value of a field: `initialData?.[field] || ""` for the text
      fields, `initialData?.[field] || false` for the check boxes. */
  function Seed(initialData: Value, field: string): Value {
    Or(Get(initialData, field), if field in FlagFields then Bool(false) else Str(""))
  }

  /** The initial `formData`. */
  function InitialFormData(initialData: Value): (formData: Record)
    ensures formData.Keys == FormFields
  {
    map field | field in FormFields :: Seed(initialData, field)
  }

  /** Text fields start as "" and check boxes as false unless `initialData`
      holds a truthy value, which is kept as it is. */
  lemma InitialFormDataMeaning(initialData: Value, field: string)
    requires field in FormFields
    ensures field in TextFields && Falsy(Get(initialData, field)) ==> InitialFormData(initialData)[field] == Str("")
    ensures field in FlagFields && Falsy(Get(initialData, field)) ==> InitialFormData(initialData)[field] == Bool(false)
    ensures !Falsy(Get(initialData, field)) ==> InitialFormData(initialData)[field] == Get(initialData, field)
  {
    assert TextFields !! FlagFields;
  }

  /** Setting one of the six fields keeps the key set and every other field. */
  lemma UpdateKeepsFields(formData: Record, field: string, value: Value, other: string)
    requires formData.Keys == FormFields && field in FormFields
    ensures formData[field := value].Keys == FormFields
    ensures other in formData && other != field ==> formData[field := value][other] == formData[other]
  {
  }

  /** The form's state. */
  class FinancialSnapshotForm {
    var formData: Record

    constructor(initialData: Value)
      ensures formData == InitialFormData(initialData)
    {
      formData := InitialFormData(initialData);
    }

    /** `updateField`: only `field` changes. */
    method UpdateField(field: string, value: Value)
      modifies this
      ensures formData == old(formData)[field := value]
    {
      formData := formData[field := value];
    }

    /** `handleSubmit`: the record as it stands. */
    method HandleSubmit() returns (data: Record)
      ensures data == formData
    {
      data := formData;
    }
  }

  /** Submitting an untouched form gives back every truthy initial value. */
  lemma UntouchedRoundTrip(initialData: Value, field: string)
    requires field in FormFields && !Falsy(Get(initialData, field))
    ensures field in InitialFormData(initialData)
    ensures InitialFormData(initialData)[field] == Get(initialData, field)
  {
    InitialFormDataMeaning(initialData, field);
  }
}

=== FILE: form_validation.dfy ===
/**
 * The wizard's required-field table and the validation engine built on it
 * (client/src/hooks/useFormValidation.ts): a dotted-path lookup into the
 * application data, an emptiness test, the per-step list of missing fields,
 * and the hook state holding the visited steps and the error-display switch.
 */
module FormValidation {
  import opened JsValue

  /** The `condition` of a table entry; `Always` is an entry without one. */
  datatype Condition =
    | Always
    | PermanentOrBridge   // loanType includes "permanent" or "bridge"
    | Permanent           // loanType includes "permanent"
    | Bridge              // loanType includes "bridge"
    | Refinance           // loanType includes "refinance"
    | Construction        // loanType is exactly "construction"
    | IncomeProducing     // neither land nor owner-occupied, and not a construction loan

  /** The fields the table names, one constructor per entry. */
  datatype FieldId =
    | LoanType | LoanAmount | PropertyCity | PropertyState
    | PropertyName | PropertyType | EntityName | BorrowerType | ContactEmail | ContactPhone
    | PropertyValue | LoanTerm | Amortization | ExitStrategy | CurrentLoanBalance
    | ConstructionBudget | ConstructionPeriod
    | NetWorth | LiquidAssets | DownPaymentSource
    | AnnualGrossIncome | AnnualOperatingExpenses | Occupancy

  /** An entry's `fieldName`. */
  function FieldName(id: FieldId): string {
    match id
    case LoanType => "loanType"
    case LoanAmount => "loanAmount"
    case PropertyCity => "propertyCity"
    case PropertyState => "propertyState"
    case PropertyName => "propertyName"
    case PropertyType => "propertyType"
    case EntityName => "entityName"
    case BorrowerType => "borrowerType"
    case ContactEmail => "contactEmail"
    case ContactPhone => "contactPhone"
    case PropertyValue => "propertyValue"
    case LoanTerm => "loanTerm"
    case Amortization => "amortization"
    case ExitStrategy => "exitStrategy"
    case CurrentLoanBalance => "currentLoanBalance"
    case ConstructionBudget => "constructionBudget"
    case ConstructionPeriod => "constructionPeriod"
    case NetWorth => "netWorth"
    case LiquidAssets => "liquidAssets"
    case DownPaymentSource => "downPaymentSource"
    case AnnualGrossIncome => "annualGrossIncome"
    case AnnualOperatingExpenses => "annualOperatingExpenses"
    case Occupancy => "occupancy"
  }

  /** Whether an entry's value lives under `loanSpecifics` rather than at top level. */
  predicate UnderLoanSpecifics(id: FieldId) {
    id in {PropertyValue, LoanTerm, Amortization, ExitStrategy, CurrentLoanBalance,
           ConstructionBudget, ConstructionPeriod, AnnualGrossIncome, AnnualOperatingExpenses}
  }

  /** An entry's `dataPath`: its name, under `loanSpecifics.` for the nine
      loan-specific entries (steps 3 and 5). */
  function DataPath(id: FieldId): string {
    if UnderLoanSpecifics(id) then "loanSpecifics." + FieldName(id) else FieldName(id)
  }

  /** An entry's `label`, shown to the user. */
  function FieldLabel(id: FieldId): string {
    match id
    case LoanType => "Loan Type"
    case LoanAmount => "Loan Amount"
    case PropertyCity => "Property City"
    case PropertyState => "State"
    case PropertyName => "Property Name"
    case PropertyType => "Property Type"
    case EntityName => "Entity Name"
    case BorrowerType => "Borrower Type"
    case ContactEmail => "Contact Email"
    case ContactPhone => "Contact Phone"
    case PropertyValue => "Property Value"
    case LoanTerm => "Loan Term"
    case Amortization => "Amortization"
    case ExitStrategy => "Exit Strategy"
    case CurrentLoanBalance => "Current Loan Balance"
    case ConstructionBudget => "Construction Budget"
    case ConstructionPeriod => "Construction Period"
    case NetWorth => "Net Worth"
    case LiquidAssets => "Liquid Assets"
    case DownPaymentSource => "Down Payment Source"
    case AnnualGrossIncome => "Annual Gross Income"
    case AnnualOperatingExpenses => "Annual Operating Expenses"
    case Occupancy => "Occupancy Rate"
  }

  /** The step whose table entry names the field. */
  function StepOf(id: FieldId): int {
    match id
    case LoanType | LoanAmount | PropertyCity | PropertyState => 1
    case PropertyName | PropertyType | EntityName | BorrowerType | ContactEmail | ContactPhone => 2
    case PropertyValue | LoanTerm | Amortization | ExitStrategy | CurrentLoanBalance
       | ConstructionBudget | ConstructionPeriod => 3
    case NetWorth | LiquidAssets | DownPaymentSource => 4
    case AnnualGrossIncome | AnnualOperatingExpenses | Occupancy => 5
  }

  /** The condition of the table entry that names the field. */
  function ConditionOf(id: FieldId): Condition {
    match id
    case LoanTerm => PermanentOrBridge
    case Amortization => Permanent
    case ExitStrategy => Bridge
    case CurrentLoanBalance => Refinance
    case ConstructionBudget | ConstructionPeriod => Construction
    case AnnualGrossIncome | AnnualOperatingExpenses | Occupancy => IncomeProducing
    case _ => Always
  }

  /** What `getStepValidation` returns; the missing fields are named by id,
      `FieldName` gives the string the hook reports. */
  datatype StepValidationStatus = StepValidationStatus(
    stepId: int, missingFields: seq<FieldId>, isComplete: bool)

  /** `data?.loanType` */
  function LoanTypeOf(data: Value): Value {
    Get(data, "loanType")
  }

  /** The step-5 rule on `propertyType || ""` and `loanType || ""`. */
  predicate IsIncomeProducing(propertyType: Value, loanType: Value) {
    propertyType != Str("land") && propertyType != Str("owner-occupied") && loanType != Str("construction")
  }

  /** Whether an entry's condition holds of the application data. */
  predicate Holds(c: Condition, data: Value) {
    match c
    case Always => true
    case PermanentOrBridge => Includes(LoanTypeOf(data), "permanent") || Includes(LoanTypeOf(data), "bridge")
    case Permanent => Includes(LoanTypeOf(data), "permanent")
    case Bridge => Includes(LoanTypeOf(data), "bridge")
    case Refinance => Includes(LoanTypeOf(data), "refinance")
    case Construction => LoanTypeOf(data) == Str("construction")
    case IncomeProducing =>
      IsIncomeProducing(Or(Get(data, "propertyType"), Str("")), Or(LoanTypeOf(data), Str("")))
  }

  /** The table's entries of one step, in table order. */
  function StepFields(stepId: int): seq<FieldId> {
    if stepId == 1 then [LoanType, LoanAmount, PropertyCity, PropertyState]
    else if stepId == 2 then [PropertyName, PropertyType, EntityName, BorrowerType, ContactEmail, ContactPhone]
    else if stepId == 3 then
      [PropertyValue, LoanTerm, Amortization, ExitStrategy, CurrentLoanBalance, ConstructionBudget, ConstructionPeriod]
    else if stepId == 4 then [NetWorth, LiquidAssets, DownPaymentSource]
    else if stepId == 5 then [AnnualGrossIncome, AnnualOperatingExpenses, Occupancy]
    else []
  }

  /** The table from step `step` on: its steps one after another. */
  function TableFrom(step: int): seq<FieldId>
    decreases 6 - step
  {
    if step > 5 then [] else StepFields(step) + TableFrom(step + 1)
  }

  /** `requiredFields`, in table order. An entry is its field: `StepOf`,
      `ConditionOf`, `FieldName`, `DataPath` and `FieldLabel` give its
      `stepId`, `condition`, `fieldName`, `dataPath` and `label`. */
  const RequiredFields: seq<FieldId> := TableFrom(1)

  /** The `fieldName`s of a list of entries, in order. */
  function FieldNames(ids: seq<FieldId>): (names: seq<string>)
    ensures |names| == |ids|
    ensures forall i | 0 <= i < |ids| :: names[i] == FieldName(ids[i])
  {
    seq(|ids|, i requires 0 <= i < |ids| => FieldName(ids[i]))
  }

  // ------------------------------------------------------------ path lookup

  /** Following `keys` from `v`, stopping with undefined at a null or undefined
      value that still has keys to follow. */
  function Walk(v: Value, keys: seq<string>): Value
    decreases |keys|
  {
    if |keys| == 0 then v
    else if Nullish(v) then Undefined
    else Walk(Get(v, keys[0]), keys[1..])
  }

  /** What `getValueByPath(obj, path)` returns. */
  function ValueAtPath(obj: Value, path: string): Value {
    if Falsy(obj) || path == "" then Undefined else Walk(obj, Split(path, '.'))
  }

  /** `getValueByPath`: the loop over the path's keys. */
  method GetValueByPath(obj: Value, path: string) returns (value: Value)
    ensures value == ValueAtPath(obj, path)
  {
    if Falsy(obj) || path == "" {
      return Undefined;
    }
    var keys := Split(path, '.');
    value := obj;
    var i := 0;
    while i < |keys|
      invariant 0 <= i <= |keys|
      invariant Walk(value, keys[i..]) == Walk(obj, keys)
    {
      if Nullish(value) {
        return Undefined;
      }
      assert keys[i..][1..] == keys[i + 1..];
      value := Get(value, keys[i]);
      i := i + 1;
    }
    assert keys[i..] == [];
  }

  lemma {:induction false} WalkAppend(v: Value, front: seq<string>, back: seq<string>)
    ensures Walk(v, front + back) == Walk(Walk(v, front), back)
    decreases |front|
  {
    if |front| == 0 {
      assert front + back == back;
    } else if Nullish(v) {
      assert Walk(v, front) == Undefined;
    } else {
      assert (front + back)[1..] == front[1..] + back;
      WalkAppend(Get(v, front[0]), front[1..], back);
    }
  }

  /** Once a key of the path yields null or undefined and keys remain, the
      lookup is undefined, whatever the rest of the path is. */
  lemma WalkStopsAtNullish(v: Value, keys: seq<string>, j: nat)
    requires j < |keys| && Nullish(Walk(v, keys[..j]))
    ensures Walk(v, keys) == Undefined
  {
    assert keys == keys[..j] + keys[j..];
    WalkAppend(v, keys[..j], keys[j..]);
  }

  /** A one-key path reads that property. */
  lemma ValueAtSimplePath(obj: Value, key: string)
    requires !Falsy(obj) && key != "" && '.' !in key
    ensures ValueAtPath(obj, key) == Get(obj, key)
  {
    SplitNoSeparator(key, '.');
    assert [key][1..] == [];
    assert Walk(obj, [key]) == Walk(Get(obj, key), []);
  }

  /** A two-key path `outer.inner` reads a property of a property. */
  lemma ValueAtNestedPath(obj: Value, outer: string, inner: string)
    requires !Falsy(obj) && '.' !in outer && '.' !in inner
    ensures ValueAtPath(obj, outer + "." + inner) ==
      if Nullish(Get(obj, outer)) then Undefined else Get(Get(obj, outer), inner)
  {
    var path := outer + "." + inner;
    assert path == outer + ['.'] + inner;
    SplitAtFirst(outer, inner, '.');
    SplitNoSeparator(inner, '.');
    var keys := [outer, inner];
    assert Split(path, '.') == keys;
    assert keys[1..] == [inner] && [inner][1..] == [];
    var mid := Get(obj, outer);
    assert Walk(obj, keys) == Walk(mid, [inner]);
    if !Nullish(mid) {
      assert Walk(mid, [inner]) == Walk(Get(mid, inner), []);
    }
  }

  // -------------------------------------------------------------- emptiness

  /** `isFieldEmpty`: undefined, null, or a string of white space only;
      `0` and `false` are values like any other. */
  predicate IsFieldEmpty(v: Value) {
    Nullish(v) || (v.Str? && Trim(v.s) == "")
  }

  lemma IsFieldEmptyMeaning(v: Value)
    ensures IsFieldEmpty(v) <==> Nullish(v) || (v.Str? && AllWhitespace(v.s))
    ensures !IsFieldEmpty(Num(0.0)) && !IsFieldEmpty(Bool(false))
  {
    if v.Str? {
      TrimEmptyIffWhitespace(v.s);
    }
  }

  // ----------------------------------------------------- step validation

  /** The entries of `fields` that belong to step `stepId`, in order. */
  function FieldsOfStep(fields: seq<FieldId>, stepId: int): (r: seq<FieldId>)
    ensures |r| <= |fields|
  {
    if |fields| == 0 then []
    else
      (if StepOf(fields[0]) == stepId then [fields[0]] else []) + FieldsOfStep(fields[1..], stepId)
  }

  /** The filter keeps exactly the entries of the step. */
  lemma {:induction false} FieldsOfStepMembers(fields: seq<FieldId>, stepId: int, id: FieldId)
    ensures id in FieldsOfStep(fields, stepId) <==> id in fields && StepOf(id) == stepId
    decreases |fields|
  {
    if |fields| > 0 {
      FieldsOfStepMembers(fields[1..], stepId, id);
      assert fields == [fields[0]] + fields[1..];
    }
  }

  /** Filtering a concatenation filters each part. */
  lemma {:induction false} FieldsOfStepConcat(a: seq<FieldId>, b: seq<FieldId>, stepId: int)
    ensures FieldsOfStep(a + b, stepId) == FieldsOfStep(a, stepId) + FieldsOfStep(b, stepId)
    decreases |a|
  {
    if |a| == 0 {
      assert a + b == b;
    } else {
      var head := if StepOf(a[0]) == stepId then [a[0]] else [];
      var p, q := FieldsOfStep(a[1..], stepId), FieldsOfStep(b, stepId);
      assert (a + b)[0] == a[0] && (a + b)[1..] == a[1..] + b;
      FieldsOfStepConcat(a[1..], b, stepId);
      assert FieldsOfStep(a + b, stepId) == head + (p + q);
      assert head + (p + q) == (head + p) + q;
    }
  }

  /** Every entry of `fields` belongs to `step`. */
  predicate AllOfStep(fields: seq<FieldId>, step: int) {
    forall i | 0 <= i < |fields| :: StepOf(fields[i]) == step
  }

  /** Entries all of one step are kept whole by that step's filter and
      dropped by any other. */
  lemma {:induction false} FieldsOfStepUniform(fields: seq<FieldId>, step: int, stepId: int)
    requires AllOfStep(fields, step)
    ensures FieldsOfStep(fields, stepId) == if step == stepId then fields else []
    decreases |fields|
  {
    if |fields| > 0 {
      assert forall i | 0 <= i < |fields[1..]| :: fields[1..][i] == fields[i + 1];
      FieldsOfStepUniform(fields[1..], step, stepId);
      assert fields == [fields[0]] + fields[1..];
    }
  }

  /** Each step's entries all carry that step. */
  lemma StepFieldsOfStep(step: int)
    ensures AllOfStep(StepFields(step), step)
  {
    if step == 1 {
      assert AllOfStep(StepFields(1), 1);
    } else if step == 2 {
      assert AllOfStep(StepFields(2), 2);
    } else if step == 3 {
      assert AllOfStep(StepFields(3), 3);
    } else if step == 4 {
      assert AllOfStep(StepFields(4), 4);
    } else if step == 5 {
      assert AllOfStep(StepFields(5), 5);
    }
  }

  /** Filtering the table from step `step` on by `stepId` gives that step's
      entries when the table still has that step, and nothing otherwise. */
  lemma {:induction false} FilterTableFrom(step: int, stepId: int)
    requires step >= 1
    ensures FieldsOfStep(TableFrom(step), stepId) == if step <= stepId <= 5 then StepFields(stepId) else []
    decreases 6 - step
  {
    if step <= 5 {
      var rest := FieldsOfStep(TableFrom(step + 1), stepId);
      FieldsOfStepConcat(StepFields(step), TableFrom(step + 1), stepId);
      StepFieldsOfStep(step);
      FieldsOfStepUniform(StepFields(step), step, stepId);
      FilterTableFrom(step + 1, stepId);
      if step == stepId {
        assert StepFields(stepId) + rest == StepFields(stepId);
      } else {
        assert FieldsOfStep(StepFields(step), stepId) + rest == rest;
      }
    }
  }

  /** `requiredFields.filter(f => f.stepId === stepId)` is that step's list:
      four, six, seven, three and three entries for steps 1 to 5, none for
      any other id. */
  lemma StepFieldsFilter(stepId: int)
    ensures FieldsOfStep(RequiredFields, stepId) == StepFields(stepId)
  {
    FilterTableFrom(1, stepId);
  }

  /** An entry whose condition holds and whose value is empty is reported. */
  predicate Reported(id: FieldId, data: Value) {
    Holds(ConditionOf(id), data) && IsFieldEmpty(ValueAtPath(data, DataPath(id)))
  }

  /** The reported entries of `fields`, in order. */
  function MissingIn(fields: seq<FieldId>, data: Value): seq<FieldId>
    decreases |fields|
  {
    if |fields| == 0 then []
    else
      var last := fields[|fields| - 1];
      MissingIn(fields[..|fields| - 1], data) + (if Reported(last, data) then [last] else [])
  }

  /** What `getStepValidation(stepId)` returns for the data. */
  function StepValidation(stepId: int, data: Value): StepValidationStatus {
    var missing := MissingIn(StepFields(stepId), data);
    StepValidationStatus(stepId, missing, |missing| == 0)
  }

  /** `getStepValidation`: filter the table, then push each reported field. */
  method GetStepValidation(stepId: int, data: Value) returns (status: StepValidationStatus)
    ensures status == StepValidation(stepId, data)
    ensures status.isComplete <==> status.missingFields == []
  {
    var stepFields := FieldsOfStep(RequiredFields, stepId);
    StepFieldsFilter(stepId);
    var missingFields := CollectMissing(stepFields, data);
    status := StepValidationStatus(stepId, missingFields, |missingFields| == 0);
  }

  /** The loop of `getStepValidation` over the step's entries: an entry with
      a condition that does not hold is skipped, otherwise its value is looked
      up and, when empty, its field is pushed. */
  method CollectMissing(stepFields: seq<FieldId>, data: Value) returns (missingFields: seq<FieldId>)
    ensures missingFields == MissingIn(stepFields, data)
  {
    missingFields := [];
    var i := 0;
    while i < |stepFields|
      invariant 0 <= i <= |stepFields|
      invariant missingFields == MissingIn(stepFields[..i], data)
    {
      var field := stepFields[i];
      assert stepFields[..i + 1][..i] == stepFields[..i];
      if ConditionOf(field) != Always && !Holds(ConditionOf(field), data) {
        i := i + 1;
        continue;
      }
      var value := GetValueByPath(data, DataPath(field));
      if IsFieldEmpty(value) {
        missingFields := missingFields + [field];
      }
      i := i + 1;
    }
    assert stepFields[..i] == stepFields;
  }

  /** A field is missing exactly when it is one of the entries and reported. */
  lemma {:induction false} MissingInMeaning(fields: seq<FieldId>, data: Value, id: FieldId)
    ensures id in MissingIn(fields, data) <==> id in fields && Reported(id, data)
    decreases |fields|
  {
    if |fields| > 0 {
      var front := fields[..|fields| - 1];
      MissingInMeaning(front, data, id);
      assert fields == front + [fields[|fields| - 1]];
    }
  }

  /** A name is among the missing fields' names exactly when an entry of the
      step with that name is reported. */
  lemma MissingNameMeaning(stepId: int, data: Value, fieldName: string)
    ensures fieldName in FieldNames(StepValidation(stepId, data).missingFields) <==>
      exists id :: FieldName(id) == fieldName && id in RequiredFields && StepOf(id) == stepId && Reported(id, data)
  {
    var missing := StepValidation(stepId, data).missingFields;
    var names := FieldNames(missing);
    if fieldName in names {
      var i :| 0 <= i < |names| && names[i] == fieldName;
      StepValidationMeaning(stepId, data, missing[i]);
    }
    if exists id :: FieldName(id) == fieldName && id in RequiredFields && StepOf(id) == stepId && Reported(id, data) {
      var id :| FieldName(id) == fieldName && id in RequiredFields && StepOf(id) == stepId && Reported(id, data);
      StepValidationMeaning(stepId, data, id);
      var i :| 0 <= i < |missing| && missing[i] == id;
      assert names[i] == fieldName;
    }
  }

  /** A field is missing from step `stepId` exactly when the table has it in
      that step, its condition holds and its value is empty; the step is
      complete exactly when nothing is missing. */
  lemma StepValidationMeaning(stepId: int, data: Value, id: FieldId)
    ensures id in StepValidation(stepId, data).missingFields <==>
      id in RequiredFields && StepOf(id) == stepId && Reported(id, data)
    ensures StepValidation(stepId, data).isComplete <==> StepValidation(stepId, data).missingFields == []
  {
    StepFieldsFilter(stepId);
    FieldsOfStepMembers(RequiredFields, stepId, id);
    MissingInMeaning(StepFields(stepId), data, id);
  }

  /** A missing field belongs to the step, and its condition holds. */
  lemma MissingFieldOfStep(stepId: int, data: Value, id: FieldId)
    requires id in StepValidation(stepId, data).missingFields
    ensures StepOf(id) == stepId && Holds(ConditionOf(id), data)
  {
    StepValidationMeaning(stepId, data, id);
  }

  /** The missing fields keep table order: they are a subsequence of the
      step's entries. */
  lemma {:induction false} MissingInSubsequence(fields: seq<FieldId>, data: Value)
    ensures IsSubsequence(MissingIn(fields, data), fields)
    decreases |fields|
  {
    if |fields| > 0 {
      var front := fields[..|fields| - 1];
      var last := fields[|fields| - 1];
      MissingInSubsequence(front, data);
      assert fields == front + [last];
      SubsequenceExtend(MissingIn(front, data), front, last, Reported(last, data));
    }
  }

  lemma StepValidationInOrder(stepId: int, data: Value)
    ensures IsSubsequence(StepValidation(stepId, data).missingFields, FieldsOfStep(RequiredFields, stepId))
  {
    StepFieldsFilter(stepId);
    MissingInSubsequence(StepFields(stepId), data);
  }

  /** `sub` is `s` with some elements dropped, the rest kept in order. */
  predicate IsSubsequence<T(==)>(sub: seq<T>, s: seq<T>)
    decreases |s|
  {
    if |s| == 0 then sub == []
    else if |sub| > 0 && sub[|sub| - 1] == s[|s| - 1] then IsSubsequence(sub[..|sub| - 1], s[..|s| - 1])
    else IsSubsequence(sub, s[..|s| - 1])
  }

  lemma SubsequenceExtend<T>(sub: seq<T>, s: seq<T>, x: T, keep: bool)
    requires IsSubsequence(sub, s)
    ensures IsSubsequence(sub + (if keep then [x] else []), s + [x])
  {
    var s' := s + [x];
    assert s'[..|s'| - 1] == s;
    if keep {
      var sub' := sub + [x];
      assert sub'[..|sub'| - 1] == sub;
    } else {
      assert sub + [] == sub;
      SubsequenceGrow(sub, s, x);
    }
  }

  /** Appending an element to `s` keeps every subsequence a subsequence. */
  lemma {:induction false} SubsequenceGrow<T>(sub: seq<T>, s: seq<T>, x: T)
    requires IsSubsequence(sub, s)
    ensures IsSubsequence(sub, s + [x])
    decreases |s|, 1
  {
    var s' := s + [x];
    assert s'[..|s'| - 1] == s;
    if |sub| > 0 && sub[|sub| - 1] == x {
      SubsequenceDropLast(sub, s);
    }
  }

  /** Dropping the last element of a subsequence leaves a subsequence. */
  lemma {:induction false} SubsequenceDropLast<T>(sub: seq<T>, s: seq<T>)
    requires IsSubsequence(sub, s) && |sub| > 0
    ensures IsSubsequence(sub[..|sub| - 1], s)
    decreases |s|, 0
  {
    var front := s[..|s| - 1];
    assert s == front + [s[|s| - 1]];
    if sub[|sub| - 1] == s[|s| - 1] {
      SubsequenceGrow(sub[..|sub| - 1], front, s[|s| - 1]);
    } else {
      SubsequenceDropLast(sub, front);
      SubsequenceGrow(sub[..|sub| - 1], front, s[|s| - 1]);
    }
  }

  /** Steps without table entries (6, 7 and every other id) are complete. */
  lemma StepWithoutEntriesComplete(stepId: int, data: Value)
    requires stepId < 1 || stepId > 5
    ensures StepValidation(stepId, data).missingFields == []
    ensures StepValidation(stepId, data).isComplete
  {
    assert StepFields(stepId) == [];
  }

  /** "construction" contains none of the words the other conditions test. */
  lemma ConstructionExcludes()
    ensures !Contains("construction", "permanent")
    ensures !Contains("construction", "bridge")
    ensures !Contains("construction", "refinance")
  {
    NotContainsMissingChar("construction", "permanent", 'p');
    NotContainsMissingChar("construction", "bridge", 'b');
    NotContainsMissingChar("construction", "refinance", 'f');
  }

  /** For a construction loan, step 3 never reports the loan term, the
      amortization, the exit strategy or the current loan balance. */
  lemma ConstructionStep3(data: Value, id: FieldId)
    requires LoanTypeOf(data) == Str("construction")
    requires id in StepValidation(3, data).missingFields
    ensures id in {PropertyValue, ConstructionBudget, ConstructionPeriod}
  {
    ConstructionExcludes();
    MissingFieldOfStep(3, data, id);
  }

  /** Without a loan type, step 3 can only report the property value. */
  lemma NoLoanTypeStep3(data: Value, id: FieldId)
    requires LoanTypeOf(data) == Undefined
    requires id in StepValidation(3, data).missingFields
    ensures id == PropertyValue
  {
    MissingFieldOfStep(3, data, id);
  }

  /** Land, owner-occupied property or a construction loan is not income
      producing. */
  lemma NotIncomeProducing(data: Value)
    requires Get(data, "propertyType") in {Str("land"), Str("owner-occupied")}
      || LoanTypeOf(data) == Str("construction")
    ensures !Holds(IncomeProducing, data)
  {
  }

  /** A step-5 field is never reported for a property that is not income
      producing. */
  lemma NotReportedStep5(data: Value, id: FieldId)
    requires Get(data, "propertyType") in {Str("land"), Str("owner-occupied")}
      || LoanTypeOf(data) == Str("construction")
    ensures id !in StepValidation(5, data).missingFields
  {
    NotIncomeProducing(data);
    if id in StepValidation(5, data).missingFields {
      MissingFieldOfStep(5, data, id);
    }
  }

  /** Land, owner-occupied property or a construction loan: step 5 is complete
      whatever the income fields hold. */
  lemma NonIncomeProducingStep5(data: Value)
    requires Get(data, "propertyType") in {Str("land"), Str("owner-occupied")}
      || LoanTypeOf(data) == Str("construction")
    ensures StepValidation(5, data).isComplete
  {
    var missing := StepValidation(5, data).missingFields;
    if |missing| > 0 {
      NotReportedStep5(data, missing[0]);
    }
  }

  /** `getAllStepValidations`: steps 1 to 5, in order. */
  function AllStepValidations(data: Value): (r: seq<StepValidationStatus>)
    ensures |r| == 5
    ensures forall i :: 0 <= i < 5 ==> r[i].stepId == i + 1 && r[i] == StepValidation(i + 1, data)
  {
    seq(5, i requires 0 <= i < 5 => StepValidation(i + 1, data))
  }

  // ------------------------------------------------------------ hook state

  /** The state the hook keeps between renders. */
  class ValidationState {
    var visitedSteps: set<int>
    var showValidationErrors: bool

    constructor ()
      ensures visitedSteps == {1} && !showValidationErrors
    {
      visitedSteps := {1};
      showValidationErrors := false;
    }

    /** `markStepVisited`: adds the step and forgets nothing. */
    method MarkStepVisited(stepId: int)
      modifies this
      ensures visitedSteps == old(visitedSteps) + {stepId}
      ensures showValidationErrors == old(showValidationErrors)
    {
      visitedSteps := visitedSteps + {stepId};
    }

    method SetShowValidationErrors(show: bool)
      modifies this
      ensures showValidationErrors == show && visitedSteps == old(visitedSteps)
    {
      showValidationErrors := show;
    }

    predicate HasVisitedStep(stepId: int)
      reads this
    {
      stepId in visitedSteps
    }

    /** `isFieldMissing(stepId, fieldName)`: never while errors are hidden;
        otherwise exactly when an entry of that step with that `fieldName`
        is reported. */
    function IsFieldMissing(data: Value, stepId: int, fieldName: string): (r: bool)
      reads this
      ensures !showValidationErrors ==> !r
      ensures showValidationErrors ==>
        (r <==> exists id :: FieldName(id) == fieldName && id in RequiredFields && StepOf(id) == stepId && Reported(id, data))
    {
      MissingNameMeaning(stepId, data, fieldName);
      showValidationErrors && fieldName in FieldNames(StepValidation(stepId, data).missingFields)
    }
  }
}

=== FILE: js_number.dfy ===
/**
 * JavaScript's number-to-text and text-to-number conversions over exact reals:
 * `parseFloat` and `Number.prototype.toFixed`.
 */
module JsNumber {
  import opened Wrappers
  import opened JsValue


  predicate IsDigit(c: char) {
    '0' <= c <= '9'
  }

  function DigitValue(c: char): nat
    requires IsDigit(c)
  {
    (c as int - '0' as int) as nat
  }

  function DigitChar(d: nat): (c: char)
    requires d < 10
    ensures IsDigit(c) && DigitValue(c) == d
  {
    ('0' as int + d) as char
  }

  predicate AllDigits(s: string) {
    forall i :: 0 <= i < |s| ==> IsDigit(s[i])
  }

  /** The value of a run of decimal digits, most significant first. */
  function DigitsValue(ds: string): nat
    requires AllDigits(ds)
    decreases |ds|
  {
    if |ds| == 0 then 0 else DigitsValue(ds[..|ds| - 1]) * 10 + DigitValue(ds[|ds| - 1])
  }

  function Pow10(k: nat): (p: nat)
    ensures p >= 1
  {
    if k == 0 then 1 else 10 * Pow10(k - 1)
  }

  /** The number of leading decimal digits of `s`. */
  function DigitRun(s: string): (n: nat)
    ensures n <= |s|
    ensures AllDigits(s[..n])
    ensures n < |s| ==> !IsDigit(s[n])
    decreases |s|
  {
    if |s| > 0 && IsDigit(s[0]) then
      var k := DigitRun(s[1..]);
      assert s[..k + 1] == [s[0]] + s[1..][..k];
      k + 1
    else 0
  }

  /** `parseFloat(s)`: the longest decimal prefix after leading whitespace, or
      None where JavaScript gives NaN. */
  function ParseFloat(s: string): Option<real> {
    ParseSigned(TrimStart(s))
  }

  function ParseSigned(t: string): Option<real> {
    if |t| > 0 && t[0] == '-' then
      match ParseUnsigned(t[1..])
      case Some(m) => Some(-m)
      case None => None
    else if |t| > 0 && t[0] == '+' then ParseUnsigned(t[1..])
    else ParseUnsigned(t)
  }

  /** Digits, optionally a point and more digits; at least one digit in all. */
  function ParseUnsigned(u: string): Option<real> {
    var i := DigitRun(u);
    var frac := FractionDigits(u[i..]);
    if i == 0 && |frac| == 0 then None
    else Some(Decimal(DigitsValue(u[..i]), DigitsValue(frac), |frac|))
  }

  /** The number written as `whole`, a point, and `frac` with k digits. */
  function Decimal(whole: nat, frac: nat, k: nat): real {
    whole as real + frac as real / Pow10(k) as real
  }

  /** The digits after a leading '.', if any. */
  function FractionDigits(rest: string): (frac: string)
    ensures AllDigits(frac)
    ensures |rest| > 0 && rest[0] == '.' ==> |frac| < |rest|
  {
    if |rest| > 0 && rest[0] == '.' then rest[1..][..DigitRun(rest[1..])] else ""
  }

  /** The decimal digits of a natural number, without leading zeros. */
  function NatToString(n: nat): (s: string)
    ensures |s| >= 1 && AllDigits(s)
    decreases n
  {
    if n < 10 then [DigitChar(n)] else NatToString(n / 10) + [DigitChar(n % 10)]
  }

  /** `n` written with exactly `width` digits, left-padded with zeros. */
  function PadDigits(n: nat, width: nat): (s: string)
    ensures |s| == width && AllDigits(s)
    decreases width
  {
    if width == 0 then "" else PadDigits(n / 10, width - 1) + [DigitChar(n % 10)]
  }

  /** The integer `toFixed` rounds a non-negative x to: the nearest multiple of
      10^-d, the larger one on a tie. */
  function RoundedUnits(x: real, d: nat): (n: nat)
    requires x >= 0.0
  {
    var scaled := x * Pow10(d) as real;
    assert scaled >= 0.0 by { NonNegativeProduct(x, Pow10(d) as real); }
    (scaled + 0.5).Floor
  }

  lemma NonNegativeProduct(a: real, b: real)
    requires a >= 0.0 && b >= 0.0
    ensures a * b >= 0.0
  {
  }

  /** `n` units of 10^-d written in decimal with d fractional digits. */
  function UnitsToFixed(n: nat, d: nat): string {
    var p := Pow10(d);
    var q, r := n / p, n % p;
    assert q >= 0 && r >= 0 by { DivModNat(n, p); }
    var whole := NatToString(q);
    if d == 0 then whole else whole + "." + PadDigits(r, d)
  }

  /** `x.toFixed(d)` of a non-negative number below 10^21. */
  function UnsignedFixed(x: real, d: nat): string
    requires x >= 0.0
  {
    UnitsToFixed(RoundedUnits(x, d), d)
  }

  /** `x.toFixed(d)` for numbers below 10^21 in magnitude. */
  function ToFixed(x: real, d: nat): string {
    if x < 0.0 then "-" + UnsignedFixed(-x, d) else UnsignedFixed(x, d)
  }

  /** The value that `x.toFixed(d)` denotes. */
  function Rounded(x: real, d: nat): real {
    if x < 0.0 then -(RoundedUnits(-x, d) as real / Pow10(d) as real)
    else RoundedUnits(x, d) as real / Pow10(d) as real
  }

  lemma {:induction false} DigitsValueAppend(ds: string, c: char)
    requires AllDigits(ds) && IsDigit(c)
    ensures AllDigits(ds + [c])
    ensures DigitsValue(ds + [c]) == DigitsValue(ds) * 10 + DigitValue(c)
  {
    assert (ds + [c])[..|ds|] == ds;
  }

  /** Reading back the digits of a natural number gives that number. */
  lemma {:induction false} NatToStringValue(n: nat)
    ensures DigitsValue(NatToString(n)) == n
    decreases n
  {
    if n < 10 {
      assert NatToString(n)[..0] == "";
    } else {
      NatToStringValue(n / 10);
      DigitsValueAppend(NatToString(n / 10), DigitChar(n % 10));
    }
  }

  /** Reading back zero-padded digits gives the number, when it fits the width. */
  lemma {:induction false} PadDigitsValue(n: nat, width: nat)
    requires n < Pow10(width)
    ensures DigitsValue(PadDigits(n, width)) == n
    decreases width
  {
    if width > 0 {
      PadDigitsValue(n / 10, width - 1);
      DigitsValueAppend(PadDigits(n / 10, width - 1), DigitChar(n % 10));
    }
  }

  /** Text that starts with a digit is parsed without a sign or whitespace. */
  lemma ParseFloatFromDigit(s: string)
    requires |s| > 0 && IsDigit(s[0])
    ensures ParseFloat(s) == ParseUnsigned(s)
  {
    assert TrimStart(s) == s;
  }

  lemma FractionAfterPoint(frac: string)
    requires AllDigits(frac)
    ensures FractionDigits("." + frac) == frac
  {
    assert ("." + frac)[1..] == frac;
    DigitRunOf(frac, "");
    assert frac + "" == frac;
    assert frac[..|frac|] == frac;
  }

  lemma ParseUnsignedParts(u: string, whole: string, frac: string)
    requires |whole| >= 1 && AllDigits(whole) && AllDigits(frac)
    requires DigitRun(u) == |whole| && u[..|whole|] == whole
    requires FractionDigits(u[|whole|..]) == frac
    ensures ParseUnsigned(u) == Some(Decimal(DigitsValue(whole), DigitsValue(frac), |frac|))
  {
  }

  /** Digits, a point and digits parse to the number they write. */
  lemma ParseUnsignedFixed(whole: string, frac: string)
    requires |whole| >= 1 && AllDigits(whole) && AllDigits(frac)
    ensures ParseFloat(whole + "." + frac) == Some(Decimal(DigitsValue(whole), DigitsValue(frac), |frac|))
  {
    var s := whole + "." + frac;
    assert s == whole + ("." + frac);
    assert s[..|whole|] == whole;
    assert s[|whole|..] == "." + frac;
    DigitRunOf(whole, "." + frac);
    FractionAfterPoint(frac);
    ParseUnsignedParts(s, whole, frac);
    ParseFloatFromDigit(s);
  }

  /** A run of digits parses to the number it writes. */
  lemma ParseDigits(ds: string)
    requires |ds| >= 1 && AllDigits(ds)
    ensures ParseFloat(ds) == Some(DigitsValue(ds) as real)
  {
    DigitRunOf(ds, "");
    assert ds + "" == ds;
    assert ds[..|ds|] == ds;
    assert FractionDigits(ds[|ds|..]) == "";
    ParseUnsignedParts(ds, ds, "");
    ParseFloatFromDigit(ds);
    WholeDecimal(DigitsValue(ds));
  }

  lemma WholeDecimal(n: nat)
    ensures Decimal(n, DigitsValue(""), 0) == n as real
  {
  }

  lemma {:induction false} DigitRunOf(ds: string, rest: string)
    requires AllDigits(ds)
    requires |rest| == 0 || !IsDigit(rest[0])
    ensures DigitRun(ds + rest) == |ds|
    decreases |ds|
  {
    if |ds| > 0 {
      assert (ds + rest)[1..] == ds[1..] + rest;
      DigitRunOf(ds[1..], rest);
    } else {
      assert ds + rest == rest;
    }
  }

  /** Digits followed by text that does not continue the number parse to
      the number the digits write. */
  lemma ParseDigitsThen(ds: string, rest: string)
    requires |ds| >= 1 && AllDigits(ds)
    requires |rest| > 0 && !IsDigit(rest[0]) && rest[0] != '.'
    ensures ParseFloat(ds + rest) == Some(DigitsValue(ds) as real)
  {
    var u := ds + rest;
    DigitRunOf(ds, rest);
    assert u[..|ds|] == ds && u[|ds|..] == rest;
    ParseUnsignedParts(u, ds, "");
    ParseFloatFromDigit(u);
    WholeDecimal(DigitsValue(ds));
  }

  /** The fraction digits after a point stop where the digits stop. */
  lemma FractionThen(frac: string, rest: string)
    requires AllDigits(frac) && (|rest| == 0 || !IsDigit(rest[0]))
    ensures FractionDigits("." + frac + rest) == frac
  {
    var tail := "." + frac + rest;
    assert tail[1..] == frac + rest;
    DigitRunOf(frac, rest);
    assert (frac + rest)[..|frac|] == frac;
  }

  /** Digits, a point and digits followed by text that does not continue
      the number parse to the number they write. */
  lemma ParseFixedDigitsThen(whole: string, frac: string, rest: string)
    requires |whole| >= 1 && AllDigits(whole) && AllDigits(frac)
    requires |rest| > 0 && !IsDigit(rest[0])
    ensures ParseFloat(whole + "." + frac + rest) == Some(Decimal(DigitsValue(whole), DigitsValue(frac), |frac|))
  {
    var tail := "." + frac + rest;
    var u := whole + tail;
    assert whole + "." + frac + rest == u;
    assert u[..|whole|] == whole && u[|whole|..] == tail;
    DigitRunOf(whole, tail);
    FractionThen(frac, rest);
    ParseUnsignedParts(u, whole, frac);
    ParseFloatFromDigit(u);
  }

  /** A non-negative `x.toFixed(d)` followed by a unit parses to the rounded
      value. */
  lemma ParseFixedThen(x: real, d: nat, rest: string)
    requires x >= 0.0 && d >= 1
    requires |rest| > 0 && !IsDigit(rest[0])
    ensures ParseFloat(ToFixed(x, d) + rest) == Some(Rounded(x, d))
  {
    var n := RoundedUnits(x, d);
    var p := Pow10(d);
    DivModNat(n, p);
    var w, f := NatToString(n / p), PadDigits(n % p, d);
    assert ToFixed(x, d) == w + "." + f;
    NatToStringValue(n / p);
    PadDigitsValue(n % p, d);
    ParseFixedDigitsThen(w, f, rest);
    DecimalOfUnits(n, d);
  }

  /** Parsing what `toFixed` printed gives the rounded value back. */
  lemma ParseToFixed(x: real, d: nat)
    requires d >= 1
    ensures ParseFloat(ToFixed(x, d)) == Some(Rounded(x, d))
  {
    var y := if x < 0.0 then -x else x;
    var s := UnsignedFixed(y, d);
    ParseUnsignedFixedValue(y, d);
    if x < 0.0 {
      assert ToFixed(x, d) == "-" + s;
      assert TrimStart(s) == s;
      assert TrimStart("-" + s) == "-" + s;
      assert ("-" + s)[1..] == s;
      assert ParseSigned(s) == ParseUnsigned(s);
    }
  }

  lemma ParseUnsignedFixedValue(y: real, d: nat)
    requires d >= 1 && y >= 0.0
    ensures |UnsignedFixed(y, d)| >= 1 && IsDigit(UnsignedFixed(y, d)[0])
    ensures ParseFloat(UnsignedFixed(y, d)) == Some(RoundedUnits(y, d) as real / Pow10(d) as real)
  {
    ParseUnitsToFixed(RoundedUnits(y, d), d);
  }

  /** Parsing fixed-point text gives the number of units over 10^d. */
  lemma ParseUnitsToFixed(n: nat, d: nat)
    requires d >= 1
    ensures |UnitsToFixed(n, d)| >= 1 && IsDigit(UnitsToFixed(n, d)[0])
    ensures ParseFloat(UnitsToFixed(n, d)) == Some(n as real / Pow10(d) as real)
  {
    var p := Pow10(d);
    DivModNat(n, p);
    var q, r := n / p, n % p;
    var w, f := NatToString(q), PadDigits(r, d);
    assert UnitsToFixed(n, d) == w + "." + f;
    NatToStringValue(q);
    PadDigitsValue(r, d);
    ParseUnsignedFixed(w, f);
    DecimalOfUnits(n, d);
  }

  lemma DecimalOfUnits(n: nat, d: nat)
    ensures n / Pow10(d) >= 0 && n % Pow10(d) >= 0
    ensures Decimal(n / Pow10(d), n % Pow10(d), d) == n as real / Pow10(d) as real
  {
    DivModReal(n, Pow10(d));
  }

  lemma DivModNat(n: nat, p: nat)
    requires p >= 1
    ensures n / p >= 0 && 0 <= n % p < p
  {
  }

  lemma DivModReal(n: nat, p: nat)
    requires p >= 1
    ensures (n / p) as real + (n % p) as real / p as real == n as real / p as real
    ensures n / p >= 0 && n % p >= 0
  {
    assert n == (n / p) * p + n % p;
    assert (n / p) as real * p as real + (n % p) as real == n as real;
  }
  /** `parseFloat(String(v))`. A number's text reads back as the number. An
      array's text is its elements' texts joined by ","; the comma ends the
      number `parseFloat` reads (ParseFloatStopsAtComma), so only the first
      element counts, and a null or undefined one has the text "". The text
      of every other value ("undefined", "null", "true", "false",
      "[object Object]", a date's) begins with a letter. */
  function ParseNumber(v: Value): Option<real>
    decreases v
  {
    match v
    case Num(n) => Some(n)
    case Str(s) => ParseFloat(s)
    case Arr(items) =>
      if |items| == 0 || items[0].Undefined? || items[0].Null? then None else ParseNumber(items[0])
    case _ => None
  }

  lemma {:induction false} TrimStartAppend(s: string, w: string)
    ensures TrimStart(s) != "" ==> TrimStart(s + w) == TrimStart(s) + w
    ensures TrimStart(s) == "" ==> TrimStart(s + w) == TrimStart(w)
    decreases |s|
  {
    if |s| > 0 {
      assert (s + w)[0] == s[0] && (s + w)[1..] == s[1..] + w;
      TrimStartAppend(s[1..], w);
    } else {
      assert s + w == w;
    }
  }

  lemma {:induction false} DigitRunAppend(y: string, w: string)
    requires |w| > 0 && !IsDigit(w[0])
    ensures DigitRun(y + w) == DigitRun(y)
    decreases |y|
  {
    if |y| > 0 {
      assert (y + w)[0] == y[0] && (y + w)[1..] == y[1..] + w;
      DigitRunAppend(y[1..], w);
    } else {
      assert y + w == w;
    }
  }

  /** A number followed by a comma is read as the number alone. */
  lemma ParseUnsignedStopsAtComma(y: string, t: string)
    ensures ParseUnsigned(y + [','] + t) == ParseUnsigned(y)
  {
    var w := [','] + t;
    assert y + [','] + t == y + w;
    DigitRunAppend(y, w);
    var i := DigitRun(y);
    assert (y + w)[..i] == y[..i];
    assert (y + w)[i..] == y[i..] + w;
    var z := y[i..];
    if |z| > 0 && z[0] == '.' {
      assert (z + w)[1..] == z[1..] + w;
      DigitRunAppend(z[1..], w);
      assert (z[1..] + w)[..DigitRun(z[1..])] == z[1..][..DigitRun(z[1..])];
    } else if |z| == 0 {
      assert z + w == w;
    }
  }

  lemma ParseSignedStopsAtComma(x: string, t: string)
    ensures ParseSigned(x + [','] + t) == ParseSigned(x)
  {
    var u := x + [','] + t;
    if |x| > 0 && (x[0] == '-' || x[0] == '+') {
      assert u[0] == x[0];
      assert u[1..] == x[1..] + [','] + t;
      ParseUnsignedStopsAtComma(x[1..], t);
    } else {
      assert u[0] == (if |x| == 0 then ',' else x[0]);
      ParseUnsignedStopsAtComma(x, t);
    }
  }

  /** `parseFloat` reads nothing past a comma: this is why only the first
      element of an array counts in `parseFloat(String(array))`. */
  lemma ParseFloatStopsAtComma(s: string, t: string)
    ensures ParseFloat(s + [','] + t) == ParseFloat(s)
  {
    var w := [','] + t;
    assert s + [','] + t == s + w;
    TrimStartAppend(s, w);
    assert !IsJsWhitespace(',');
    assert TrimStart(w) == w;
    if TrimStart(s) != "" {
      ParseSignedStopsAtComma(TrimStart(s), t);
      assert TrimStart(s) + w == TrimStart(s) + [','] + t;
    } else {
      ParseSignedStopsAtComma("", t);
      assert "" + [','] + t == w;
    }
  }

  /** For an array that starts with text, reading its whole text gives what
      ParseNumber reads from the first element. */
  lemma ArrayReadsFirstElement(s: string, rest: seq<Value>, numberText: real -> string, dateText: int -> string)
    ensures ParseFloat(Text(Arr([Str(s)] + rest), numberText, dateText)) == ParseNumber(Arr([Str(s)] + rest))
  {
    var v := Arr([Str(s)] + rest);
    assert v.items[0] == Str(s);
    assert Text(v, numberText, dateText) == ElementsText(v, 0, numberText, dateText)
      == "" + s + ElementsText(v, 1, numberText, dateText);
    if |rest| == 0 {
      assert ElementsText(v, 1, numberText, dateText) == "";
      assert Text(v, numberText, dateText) == s;
    } else {
      var tail := ElementsText(v, 2, numberText, dateText);
      var e := v.items[1];
      var t := (if e.Undefined? || e.Null? then "" else Text(e, numberText, dateText)) + tail;
      assert ElementsText(v, 1, numberText, dateText) == [','] + t;
      assert Text(v, numberText, dateText) == s + [','] + t;
      ParseFloatStopsAtComma(s, t);
    }
  }

}

=== FILE: js_value.dfy ===
/**
 * The JavaScript values the wizard and the server pass around, with the few
 * built-in operations the core relies on: truthiness, property access,
 * `String.prototype.includes`, `split`, `trim`, `replace(/,/g, "")`,
 * `parseFloat` and `Number.prototype.toFixed`.
 */
module JsValue {
  import opened Wrappers

  /** A JavaScript value: the JSON values plus `undefined` and a `Date`
      (milliseconds since the epoch). Numbers are finite reals. */
  datatype Value =
    | Undefined
    | Null
    | Bool(b: bool)
    | Num(n: real)
    | Str(s: string)
    | Date(time: int)
    | Arr(items: seq<Value>)
    | Obj(fields: map<string, Value>)

  /** A plain object's own properties. */
  type Record = map<string, Value>

  /** JavaScript falsiness: undefined, null, false, 0 and "". */
  predicate Falsy(v: Value) {
    v.Undefined? || v.Null? || v == Bool(false) || v == Num(0.0) || v == Str("")
  }

  /** A `required` input showing this value is missing: its text is empty.
      (Whitespace counts as filled.) */
  predicate ValueMissing(v: Value) {
    v == Str("")
  }

  /** `a || b` */
  function Or(a: Value, b: Value): Value {
    if Falsy(a) then b else a
  }

  /** `v?.[key]`: an own property of an object; `undefined` for anything else. */
  function Get(v: Value, key: string): Value {
    match v
    case Obj(m) => if key in m then m[key] else Undefined
    case _ => Undefined
  }

  /** `v === undefined || v === null` */
  predicate Nullish(v: Value) {
    v.Undefined? || v.Null?
  }

  // ---------------------------------------------------------------- strings

  /** `sub` occurs in `s` at index `i`. */
  predicate OccursAt(s: string, sub: string, i: int) {
    0 <= i && i + |sub| <= |s| && s[i..i + |sub|] == sub
  }

  /** `s.includes(sub)` on strings. */
  predicate Contains(s: string, sub: string) {
    exists i | 0 <= i <= |s| :: OccursAt(s, sub, i)
  }

  /** A string lacking one of the characters of `sub` does not contain it. */
  lemma NotContainsMissingChar(s: string, sub: string, c: char)
    requires c in sub && c !in s
    ensures !Contains(s, sub)
  {
  }

  /** A string contains each of its prefixes. */
  lemma ContainsPrefix(s: string, prefix: string, rest: string)
    requires s == prefix + rest
    ensures Contains(s, prefix)
  {
    assert s[0..|prefix|] == prefix;
    assert OccursAt(s, prefix, 0);
  }

  /** `v?.includes(word)`: substring test on a string, element test on an array.
      Any other value gives false. */
  predicate Includes(v: Value, word: string) {
    match v
    case Str(s) => Contains(s, word)
    case Arr(items) => Str(word) in items
    case _ => false
  }

  /** The characters JavaScript's `trim` removes (WhiteSpace and LineTerminator). */
  predicate IsJsWhitespace(c: char) {
    c == ' ' || c == '\t' || c == '\n' || c == '\r' || c == '\U{000B}' || c == '\U{000C}'
    || c == '\U{00A0}' || c == '\U{1680}' || ('\U{2000}' <= c <= '\U{200A}')
    || c == '\U{2028}' || c == '\U{2029}' || c == '\U{202F}' || c == '\U{205F}'
    || c == '\U{3000}' || c == '\U{FEFF}'
  }

  function TrimStart(s: string): (r: string)
    ensures |r| <= |s|
  {
    if |s| > 0 && IsJsWhitespace(s[0]) then TrimStart(s[1..]) else s
  }

  function TrimEnd(s: string): (r: string)
    ensures |r| <= |s|
  {
    if |s| > 0 && IsJsWhitespace(s[|s| - 1]) then TrimEnd(s[..|s| - 1]) else s
  }

  /** `s.trim()` */
  function Trim(s: string): string {
    TrimEnd(TrimStart(s))
  }

  predicate AllWhitespace(s: string) {
    forall i :: 0 <= i < |s| ==> IsJsWhitespace(s[i])
  }

  lemma {:induction false} TrimStartEmpty(s: string)
    ensures TrimStart(s) == [] <==> AllWhitespace(s)
    decreases |s|
  {
    if |s| > 0 && IsJsWhitespace(s[0]) {
      TrimStartEmpty(s[1..]);
      assert AllWhitespace(s) <==> AllWhitespace(s[1..]) by {
        if AllWhitespace(s[1..]) {
          forall i | 0 <= i < |s| ensures IsJsWhitespace(s[i]) {
            if i > 0 { assert s[i] == s[1..][i - 1]; }
          }
        }
      }
    }
  }

  lemma {:induction false} TrimEndOfWhitespace(s: string)
    requires AllWhitespace(s)
    ensures TrimEnd(s) == []
    decreases |s|
  {
    if |s| > 0 {
      TrimEndOfWhitespace(s[..|s| - 1]);
    }
  }

  lemma {:induction false} TrimEndKeepsNonWhitespace(s: string)
    requires |s| > 0 && !IsJsWhitespace(s[0])
    ensures TrimEnd(s) != []
    decreases |s|
  {
    if IsJsWhitespace(s[|s| - 1]) {
      TrimEndKeepsNonWhitespace(s[..|s| - 1]);
    }
  }

  /** A string trims to "" exactly when every character is whitespace. */
  lemma TrimEmptyIffWhitespace(s: string)
    ensures Trim(s) == [] <==> AllWhitespace(s)
  {
    TrimStartEmpty(s);
    var t := TrimStart(s);
    if AllWhitespace(s) {
      TrimEndOfWhitespace(t);
    } else {
      assert t != [];
      assert !IsJsWhitespace(t[0]) by { TrimStartStops(s); }
      TrimEndKeepsNonWhitespace(t);
    }
  }

  lemma {:induction false} TrimStartStops(s: string)
    requires TrimStart(s) != []
    ensures !IsJsWhitespace(TrimStart(s)[0])
    decreases |s|
  {
    if |s| > 0 && IsJsWhitespace(s[0]) {
      TrimStartStops(s[1..]);
    }
  }

  /** `s.split(sep)` for a one-character separator. */
  function Split(s: string, sep: char): (parts: seq<string>)
    ensures |parts| >= 1
    decreases |s|
  {
    if |s| == 0 then [""]
    else
      var rest := Split(s[1..], sep);
      if s[0] == sep then [""] + rest
      else [[s[0]] + rest[0]] + rest[1..]
  }

  /** `parts.join(sep)` */
  function Join(parts: seq<string>, sep: char): string
    requires |parts| >= 1
    decreases |parts|
  {
    if |parts| == 1 then parts[0] else parts[0] + [sep] + Join(parts[1..], sep)
  }

  /** Splitting loses nothing: joining the parts gives the string back, and
      no part contains the separator. */
  lemma {:induction false} SplitJoin(s: string, sep: char)
    ensures Join(Split(s, sep), sep) == s
    ensures forall i :: 0 <= i < |Split(s, sep)| ==> sep !in Split(s, sep)[i]
  {
    SplitJoinBack(s, sep);
    SplitPartsFree(s, sep);
  }

  lemma {:induction false} SplitJoinBack(s: string, sep: char)
    ensures Join(Split(s, sep), sep) == s
    decreases |s|
  {
    if |s| > 0 {
      SplitJoinBack(s[1..], sep);
      var rest := Split(s[1..], sep);
      if s[0] == sep {
        assert Split(s, sep)[1..] == rest;
        assert s == [] + [sep] + s[1..];
      } else {
        var parts := Split(s, sep);
        assert parts[1..] == rest[1..];
        if |rest| == 1 {
          assert s == [s[0]] + rest[0];
        } else {
          assert rest == [rest[0]] + rest[1..];
          assert Join(rest, sep) == rest[0] + [sep] + Join(rest[1..], sep);
          assert s == [s[0]] + s[1..];
        }
      }
    }
  }

  lemma {:induction false} SplitPartsFree(s: string, sep: char)
    ensures forall i :: 0 <= i < |Split(s, sep)| ==> sep !in Split(s, sep)[i]
    decreases |s|
  {
    if |s| > 0 {
      SplitPartsFree(s[1..], sep);
      var rest := Split(s[1..], sep);
      var parts := Split(s, sep);
      if s[0] == sep {
        assert parts[1..] == rest;
        forall i | 0 <= i < |parts| ensures sep !in parts[i] {
          if i > 0 { assert parts[i] == rest[i - 1]; }
        }
      } else {
        forall i | 0 <= i < |parts| ensures sep !in parts[i] {
          if i > 0 { assert parts[i] == rest[i]; }
        }
      }
    }
  }

  /** A string without the separator splits into itself alone. */
  lemma {:induction false} SplitNoSeparator(s: string, sep: char)
    requires sep !in s
    ensures Split(s, sep) == [s]
    decreases |s|
  {
    if |s| > 0 {
      assert sep !in s[1..];
      SplitNoSeparator(s[1..], sep);
      assert s == [s[0]] + s[1..];
    }
  }

  /** Splitting at a separator that follows a separator-free head. */
  lemma {:induction false} SplitAtFirst(head: string, tail: string, sep: char)
    requires sep !in head
    ensures Split(head + [sep] + tail, sep) == [head] + Split(tail, sep)
    decreases |head|
  {
    var s := head + [sep] + tail;
    if |head| == 0 {
      assert s[1..] == tail;
    } else {
      assert s[1..] == head[1..] + [sep] + tail;
      assert sep !in head[1..];
      SplitAtFirst(head[1..], tail, sep);
      assert head == [head[0]] + head[1..];
    }
  }

  /** `String(v)`. `numberText` stands for JavaScript's conversion of a
      number to text and `dateText` for a date's; an array's text is its
      elements' texts joined by ",", a null or undefined element giving "". */
  function Text(v: Value, numberText: real -> string, dateText: int -> string): string
    decreases v, 1, 0
  {
    match v
    case Undefined => "undefined"
    case Null => "null"
    case Bool(b) => if b then "true" else "false"
    case Num(n) => numberText(n)
    case Str(s) => s
    case Date(time) => dateText(time)
    case Arr(_) => ElementsText(v, 0, numberText, dateText)
    case Obj(_) => "[object Object]"
  }

  /** The texts of an array's elements from index i on, each after a ",". */
  function ElementsText(v: Value, i: nat, numberText: real -> string, dateText: int -> string): string
    requires v.Arr? && i <= |v.items|
    decreases v, 0, |v.items| - i
  {
    if i == |v.items| then ""
    else
      var e := v.items[i];
      (if i == 0 then "" else ",") + (if e.Undefined? || e.Null? then "" else Text(e, numberText, dateText))
      + ElementsText(v, i + 1, numberText, dateText)
  }

  /** `s.replace(/,/g, "")` */
  function RemoveCommas(s: string): (r: string)
    ensures ',' !in r
    ensures |r| <= |s|
  {
    if |s| == 0 then ""
    else if s[0] == ',' then RemoveCommas(s[1..])
    else [s[0]] + RemoveCommas(s[1..])
  }

  /** Removing commas works piece by piece: the characters that are not
      commas stay in their order. */
  lemma {:induction false} RemoveCommasAppend(s: string, t: string)
    ensures RemoveCommas(s + t) == RemoveCommas(s) + RemoveCommas(t)
    decreases |s|
  {
    if |s| == 0 {
      assert s + t == t;
    } else {
      assert (s + t)[1..] == s[1..] + t;
      RemoveCommasAppend(s[1..], t);
    }
  }

  /** Every character other than a comma is kept as often as it occurs. */
  lemma {:induction false} RemoveCommasCounts(s: string)
    ensures multiset(RemoveCommas(s)) == multiset(s)[',' := 0]
    ensures |RemoveCommas(s)| == |s| - multiset(s)[',']
    decreases |s|
  {
    if |s| > 0 {
      RemoveCommasCounts(s[1..]);
      assert s == [s[0]] + s[1..];
      assert multiset(s) == multiset{s[0]} + multiset(s[1..]);
    }
  }

  /** Text without commas is left as it is. */
  lemma {:induction false} RemoveCommasNoComma(s: string)
    requires ',' !in s
    ensures RemoveCommas(s) == s
    decreases |s|
  {
    if |s| > 0 {
      assert ',' !in s[1..];
      RemoveCommasNoComma(s[1..]);
      assert s == [s[0]] + s[1..];
    }
  }

}

=== FILE: loan_metrics.dfy ===
/**
 * The server's loan arithmetic: the amortised monthly payment and the three
 * metrics (loan-to-value, first-month interest, debt service coverage) it
 * derives from an application record, as the text it stores.
 */
module Metrics {
  import opened Wrappers
  import opened JsValue
  import opened JsNumber

  /** `Math.pow`, left abstract. */
  type Pow = (real, real) -> real

  /** The one property of `Math.pow` the payment relies on: a base above 1
      raised to a positive power exceeds 1. */
  ghost predicate PowGrows(pow: Pow) {
    forall b: real, e: real :: b > 1.0 && e > 0.0 ==> pow(b, e) > 1.0
  }

  /** `Math.round`: the nearest integer, halves rounded up. */
  function MathRound(x: real): int {
    (x + 0.5).Floor
  }

  function MonthlyRate(annualInterestRate: real): real {
    annualInterestRate / 100.0 / 12.0
  }

  /** The amortisation formula M = P·r·(1+r)^n / ((1+r)^n − 1), unrounded. */
  function Amortized(principal: real, monthlyRate: real, numPayments: real, pow: Pow): real
    requires PowGrows(pow) && monthlyRate > 0.0 && numPayments > 0.0
  {
    var growth := pow(1.0 + monthlyRate, numPayments);
    principal * monthlyRate * growth / (growth - 1.0)
  }

  /** `calculateMonthlyPayment`: an interest-free loan is repaid in equal
      unrounded parts; otherwise the amortised payment, rounded to cents. */
  function MonthlyPayment(principal: real, annualInterestRate: real, loanTermYears: real, pow: Pow): real
    requires PowGrows(pow) && annualInterestRate >= 0.0 && loanTermYears > 0.0
  {
    var monthlyRate := MonthlyRate(annualInterestRate);
    var numPayments := loanTermYears * 12.0;
    if monthlyRate == 0.0 then principal / numPayments
    else MathRound(Amortized(principal, monthlyRate, numPayments, pow) * 100.0) as real / 100.0
  }

  /** At a zero rate the payment is the principal over the number of months. */
  lemma PaymentWithoutInterest(principal: real, loanTermYears: real, pow: Pow)
    requires PowGrows(pow) && loanTermYears > 0.0
    ensures MonthlyPayment(principal, 0.0, loanTermYears, pow) * (loanTermYears * 12.0) == principal
  {
  }

  /** With interest the payment is a whole number of cents within half a cent
      of the amortisation formula. */
  lemma PaymentRoundedToCents(principal: real, annualInterestRate: real, loanTermYears: real, pow: Pow)
    requires PowGrows(pow) && annualInterestRate > 0.0 && loanTermYears > 0.0
    ensures var exact := Amortized(principal, MonthlyRate(annualInterestRate), loanTermYears * 12.0, pow);
      var paid := MonthlyPayment(principal, annualInterestRate, loanTermYears, pow);
      exact - 0.005 < paid <= exact + 0.005
    ensures (MonthlyPayment(principal, annualInterestRate, loanTermYears, pow) * 100.0).Floor as real
      == MonthlyPayment(principal, annualInterestRate, loanTermYears, pow) * 100.0
  {
    var exact := Amortized(principal, MonthlyRate(annualInterestRate), loanTermYears * 12.0, pow);
    RoundingBound(exact * 100.0);
  }

  lemma RoundingBound(x: real)
    ensures x - 0.5 < MathRound(x) as real <= x + 0.5
  {
  }

  /** A positive loan at a positive rate costs more each month than its first
      month's interest: the payment also repays principal. */
  lemma AmortizedExceedsInterest(principal: real, monthlyRate: real, numPayments: real, pow: Pow)
    requires PowGrows(pow) && monthlyRate > 0.0 && numPayments > 0.0 && principal > 0.0
    ensures Amortized(principal, monthlyRate, numPayments, pow) > principal * monthlyRate
  {
    var growth := pow(1.0 + monthlyRate, numPayments);
    var interest := principal * monthlyRate;
    assert growth > 1.0;
    assert interest > 0.0;
    QuotientAboveOne(interest, growth);
  }

  lemma QuotientAboveOne(a: real, g: real)
    requires a > 0.0 && g > 1.0
    ensures a * g / (g - 1.0) > a
  {
    var d := g - 1.0;
    var q := a * g / d;
    assert q * d == a * g;
    assert a * g == a * d + a;
    assert (q - a) * d == a;
  }

  // ----------------------------------------------------------- the metrics

  /** The numbers `calculateLoanMetrics` reads: `parseFloat(x || "0")` of
      each, None where the parse gives NaN. */
  datatype Inputs = Inputs(
    loanAmount: Option<real>,
    propertyValue: Option<real>,
    interestRate: Option<real>,
    loanTermYears: Option<real>,
    annualNOI: Option<real>)

  function NumberOr0(v: Value): Option<real> {
    ParseNumber(Or(v, Str("0")))
  }

  /** An input sent as an array is read through its first element, as
      `parseFloat(String(array))` reads it. */
  lemma ArrayInputReadsFirst(v: Value, rest: seq<Value>)
    requires !v.Undefined? && !v.Null?
    ensures NumberOr0(Arr([v] + rest)) == ParseNumber(v)
  {
    assert ([v] + rest)[0] == v;
  }

  /** The inputs of an application record; the property value, rate and term
      come from its `loanSpecifics` object. */
  function ReadInputs(data: Record): Inputs {
    var specifics := Or(Get(Obj(data), "loanSpecifics"), Obj(map[]));
    Inputs(
      NumberOr0(Get(Obj(data), "loanAmount")),
      NumberOr0(Get(specifics, "propertyValue")),
      NumberOr0(Get(specifics, "interestRate")),
      NumberOr0(Get(specifics, "loanTerm")),
      NumberOr0(Get(Obj(data), "annualNOI")))
  }

  /** `x > 0`; NaN compares false. */
  predicate Positive(x: Option<real>) {
    x.Some? && x.value > 0.0
  }

  /** Loan-to-value: the loan as a percentage of the property value. */
  function LtvPercent(loanAmount: real, propertyValue: real): real
    requires propertyValue != 0.0
  {
    loanAmount / propertyValue * 100.0
  }

  /** The first month's interest: a twelfth of a year's interest at the
      annual percentage rate. */
  function FirstMonthInterest(loanAmount: real, interestRate: real): (interest: real)
    ensures interest == loanAmount * interestRate / 1200.0
    ensures loanAmount > 0.0 && interestRate > 0.0 ==> interest > 0.0
  {
    loanAmount * (interestRate / 100.0) / 12.0
  }

  /** The DSCR text for a positive NOI and payment terms: NOI over twelve
      payments, and JavaScript's "Infinity" when the payment rounds to zero. */
  function DscrText(noi: real, loanAmount: real, interestRate: real, loanTermYears: real, pow: Pow): string
    requires PowGrows(pow) && interestRate > 0.0 && loanTermYears > 0.0
  {
    var annualDebtService := MonthlyPayment(loanAmount, interestRate, loanTermYears, pow) * 12.0;
    if annualDebtService == 0.0 then "Infinity" else ToFixed(noi / annualDebtService, 2)
  }

  /** The metrics of an application record, as `calculateLoanMetrics` returns
      them: each key present only when its inputs are positive numbers. */
  function LoanMetrics(data: Record, pow: Pow): Record
    requires PowGrows(pow)
  {
    var i := ReadInputs(data);
    var withLtv :=
      if Positive(i.loanAmount) && Positive(i.propertyValue)
      then map["ltv" := Str(ToFixed(LtvPercent(i.loanAmount.value, i.propertyValue.value), 2))]
      else map[];
    var withInterest :=
      if Positive(i.loanAmount) && Positive(i.interestRate)
      then withLtv["monthlyInterest" := Str(ToFixed(FirstMonthInterest(i.loanAmount.value, i.interestRate.value), 2))]
      else withLtv;
    if Positive(i.annualNOI) && Positive(i.loanAmount) && Positive(i.interestRate) && Positive(i.loanTermYears)
    then withInterest["dscr" := Str(DscrText(i.annualNOI.value, i.loanAmount.value, i.interestRate.value, i.loanTermYears.value, pow))]
    else withInterest
  }

  /** `calculateLoanMetrics`: parses the inputs, then adds each metric whose
      inputs are positive. */
  method CalculateLoanMetrics(data: Record, pow: Pow) returns (metrics: Record)
    requires PowGrows(pow)
    ensures metrics == LoanMetrics(data, pow)
  {
    metrics := map[];
    var loanAmount := NumberOr0(Get(Obj(data), "loanAmount"));
    var loanSpecifics := Or(Get(Obj(data), "loanSpecifics"), Obj(map[]));
    var propertyValue := NumberOr0(Get(loanSpecifics, "propertyValue"));
    var interestRate := NumberOr0(Get(loanSpecifics, "interestRate"));
    var loanTermYears := NumberOr0(Get(loanSpecifics, "loanTerm"));
    var annualNOI := NumberOr0(Get(Obj(data), "annualNOI"));
    if Positive(loanAmount) && Positive(propertyValue) {
      var ltv := LtvPercent(loanAmount.value, propertyValue.value);
      metrics := metrics["ltv" := Str(ToFixed(ltv, 2))];
    }
    if Positive(loanAmount) && Positive(interestRate) {
      var monthlyInterest := FirstMonthInterest(loanAmount.value, interestRate.value);
      metrics := metrics["monthlyInterest" := Str(ToFixed(monthlyInterest, 2))];
    }
    if Positive(annualNOI) && Positive(loanAmount) && Positive(interestRate) && Positive(loanTermYears) {
      var dscr := DscrText(annualNOI.value, loanAmount.value, interestRate.value, loanTermYears.value, pow);
      metrics := metrics["dscr" := Str(dscr)];
    }
  }

  /** The metrics have no keys but the three metric columns. */
  lemma MetricKeys(data: Record, pow: Pow)
    requires PowGrows(pow)
    ensures LoanMetrics(data, pow).Keys <= {"ltv", "monthlyInterest", "dscr"}
    ensures forall k | k in LoanMetrics(data, pow) :: LoanMetrics(data, pow)[k].Str?
  {
  }

  /** Where the LTV entry comes from. */
  lemma LtvEntry(data: Record, pow: Pow)
    requires PowGrows(pow)
    ensures var i := ReadInputs(data);
      ("ltv" in LoanMetrics(data, pow) <==> Positive(i.loanAmount) && Positive(i.propertyValue))
      && ("ltv" in LoanMetrics(data, pow) ==>
        LoanMetrics(data, pow)["ltv"] == Str(ToFixed(LtvPercent(i.loanAmount.value, i.propertyValue.value), 2)))
  {
  }

  /** LTV is present exactly when the loan amount and property value are
      positive numbers; it reads back as their ratio in percent, rounded to
      two places. */
  lemma LtvRule(data: Record, pow: Pow)
    requires PowGrows(pow)
    ensures var i := ReadInputs(data);
      ("ltv" in LoanMetrics(data, pow) <==> Positive(i.loanAmount) && Positive(i.propertyValue))
      && ("ltv" in LoanMetrics(data, pow) ==>
        ParseFloat(LoanMetrics(data, pow)["ltv"].s)
          == Some(Rounded(LtvPercent(i.loanAmount.value, i.propertyValue.value), 2)))
  {
    LtvEntry(data, pow);
    var i := ReadInputs(data);
    if Positive(i.loanAmount) && Positive(i.propertyValue) {
      ParseToFixed(LtvPercent(i.loanAmount.value, i.propertyValue.value), 2);
    }
  }

  /** Where the monthly-interest entry comes from. */
  lemma InterestEntry(data: Record, pow: Pow)
    requires PowGrows(pow)
    ensures var i := ReadInputs(data);
      ("monthlyInterest" in LoanMetrics(data, pow) <==> Positive(i.loanAmount) && Positive(i.interestRate))
      && ("monthlyInterest" in LoanMetrics(data, pow) ==>
        LoanMetrics(data, pow)["monthlyInterest"]
          == Str(ToFixed(FirstMonthInterest(i.loanAmount.value, i.interestRate.value), 2)))
  {
  }

  /** Monthly interest is present exactly when the loan amount and rate are
      positive numbers; it reads back as the first month's interest, rounded
      to two places. */
  lemma MonthlyInterestRule(data: Record, pow: Pow)
    requires PowGrows(pow)
    ensures var i := ReadInputs(data);
      ("monthlyInterest" in LoanMetrics(data, pow) <==> Positive(i.loanAmount) && Positive(i.interestRate))
      && ("monthlyInterest" in LoanMetrics(data, pow) ==>
        ParseFloat(LoanMetrics(data, pow)["monthlyInterest"].s)
          == Some(Rounded(FirstMonthInterest(i.loanAmount.value, i.interestRate.value), 2)))
  {
    InterestEntry(data, pow);
    var i := ReadInputs(data);
    if Positive(i.loanAmount) && Positive(i.interestRate) {
      ParseToFixed(FirstMonthInterest(i.loanAmount.value, i.interestRate.value), 2);
    }
  }

  /** DSCR is present exactly when NOI, loan amount, rate and term are all
      positive numbers, so the payment it uses is always the amortised one;
      its text is then `DscrText` of those numbers. */
  lemma DscrRule(data: Record, pow: Pow)
    requires PowGrows(pow)
    ensures var i := ReadInputs(data);
      ("dscr" in LoanMetrics(data, pow) <==>
        Positive(i.annualNOI) && Positive(i.loanAmount) && Positive(i.interestRate) && Positive(i.loanTermYears))
      && ("dscr" in LoanMetrics(data, pow) ==>
            (MonthlyRate(i.interestRate.value) > 0.0
             && LoanMetrics(data, pow)["dscr"] == Str(DscrText(i.annualNOI.value, i.loanAmount.value,
                  i.interestRate.value, i.loanTermYears.value, pow))))
  {
  }

  /** A positive loan at a positive rate has a payment of zero or more cents. */
  lemma PaymentNonNegative(loanAmount: real, interestRate: real, loanTermYears: real, pow: Pow)
    requires PowGrows(pow) && loanAmount > 0.0 && interestRate > 0.0 && loanTermYears > 0.0
    ensures MonthlyPayment(loanAmount, interestRate, loanTermYears, pow) >= 0.0
  {
    var rate := MonthlyRate(interestRate);
    var exact := Amortized(loanAmount, rate, loanTermYears * 12.0, pow);
    AmortizedExceedsInterest(loanAmount, rate, loanTermYears * 12.0, pow);
    assert loanAmount * rate > 0.0;
    RoundingBound(exact * 100.0);
    assert MathRound(exact * 100.0) >= 0;
  }

  /** DSCR is NOI over a year of rounded payments, to two places; a payment
      that rounds to zero cents gives "Infinity". */
  lemma DscrValue(noi: real, loanAmount: real, interestRate: real, loanTermYears: real, pow: Pow)
    requires PowGrows(pow) && noi > 0.0 && loanAmount > 0.0 && interestRate > 0.0 && loanTermYears > 0.0
    ensures var payment := MonthlyPayment(loanAmount, interestRate, loanTermYears, pow);
      payment >= 0.0
      && (payment == 0.0 ==> DscrText(noi, loanAmount, interestRate, loanTermYears, pow) == "Infinity")
      && (payment > 0.0 ==>
        ParseFloat(DscrText(noi, loanAmount, interestRate, loanTermYears, pow))
          == Some(Rounded(noi / (12.0 * payment), 2)))
  {
    PaymentNonNegative(loanAmount, interestRate, loanTermYears, pow);
    var payment := MonthlyPayment(loanAmount, interestRate, loanTermYears, pow);
    if payment > 0.0 {
      var text := DscrText(noi, loanAmount, interestRate, loanTermYears, pow);
      assert text == ToFixed(noi / (12.0 * payment), 2) by {
        assert payment * 12.0 == 12.0 * payment;
      }
      ParseToFixed(noi / (12.0 * payment), 2);
    }
  }

  /** A missing, empty, zero or non-numeric loan amount yields no metric. */
  lemma NoLoanAmountNoMetrics(data: Record, pow: Pow)
    requires PowGrows(pow)
    requires !Positive(ReadInputs(data).loanAmount)
    ensures LoanMetrics(data, pow) == map[]
  {
  }
}

=== FILE: loan_specifics.dfy ===
/**
 * The loan-terms step (client/src/components/LoanSpecificsForm.tsx): thirteen
 * state fields seeded from `initialData.loanSpecifics` with their defaults,
 * the `loanSpecifics` object built for the chosen loan type, and the display
 * name of a loan type.
 */
module LoanSpecifics {
  import opened Wrappers
  import opened JsValue
  import opened JsNumber
  import opened FormValidation
  import Metrics

  /** The names of the thirteen `useState` hooks. */
  const StateFields: set<string> := {
    "interestRate", "loanTerm", "amortization", "prepaymentPenalty", "propertyValue",
    "exitStrategy", "constructionBudget", "constructionPeriod", "drawSchedule",
    "currentLoanBalance", "currentLender", "rateType", "recourse"
  }

  /** The value a field falls back to when the saved one is falsy. */
  function DefaultOf(field: string): string {
    match field
    case "prepaymentPenalty" => "no"
    case "drawSchedule" => "monthly"
    case "rateType" => "fixed"
    case "recourse" => "non-recourse"
    case _ => ""
  }

  /** `initialData?.loanType || ""` */
  function LoanTypeOfForm(initialData: Value): Value {
    Or(Get(initialData, "loanType"), Str(""))
  }

  /** `initialData?.loanSpecifics || {}` */
  function ExistingSpecifics(initialData: Value): Value {
    Or(Get(initialData, "loanSpecifics"), Obj(map[]))
  }

  /** The initial state: each field from the saved specifics, or its default. */
  function InitialFields(initialData: Value): (fields: Record)
    ensures fields.Keys == StateFields
  {
    map field | field in StateFields :: Or(Get(ExistingSpecifics(initialData), field), Str(DefaultOf(field)))
  }

  /** With nothing saved, four fields start at "no", "monthly", "fixed" and
      "non-recourse" and the other nine at "". */
  lemma Defaults(initialData: Value, field: string)
    requires field in StateFields && Falsy(Get(ExistingSpecifics(initialData), field))
    ensures InitialFields(initialData)[field] ==
      Str(if field == "prepaymentPenalty" then "no"
          else if field == "drawSchedule" then "monthly"
          else if field == "rateType" then "fixed"
          else if field == "recourse" then "non-recourse"
          else "")
  {
  }

  const BaseKeys: set<string> := {"interestRate", "propertyValue"}
  const PermanentKeys: set<string> := {"loanTerm", "amortization", "prepaymentPenalty", "rateType", "recourse"}
  const BridgeKeys: set<string> := {"loanTerm", "exitStrategy", "prepaymentPenalty", "recourse"}
  const RefinanceKeys: set<string> := {"currentLoanBalance", "currentLender"}
  const ConstructionKeySet: set<string> := {"constructionBudget", "constructionPeriod", "drawSchedule", "loanTerm", "recourse"}

  /** A group's keys added when its condition holds. */
  function With(keys: set<string>, condition: bool, group: set<string>): set<string> {
    if condition then keys + group else keys
  }

  /** The keys of `loanSpecifics`, given which of the four groups apply. */
  function GroupKeys(permanent: bool, bridge: bool, refinance: bool, construction: bool): set<string> {
    With(With(With(With(BaseKeys, permanent, PermanentKeys), bridge, BridgeKeys),
              refinance, RefinanceKeys), construction, ConstructionKeySet)
  }

  /** The keys `handleSubmit` puts in `loanSpecifics` for a loan type. */
  function KeysFor(loanType: Value): set<string> {
    GroupKeys(Includes(loanType, "permanent"), Includes(loanType, "bridge"),
              Includes(loanType, "refinance"), loanType == Str("construction"))
  }

  /** The `loanSpecifics` object: each key of the loan type with its field's value. */
  function SpecificsFor(loanType: Value, fields: Record): Record
    requires StateFields <= fields.Keys
  {
    map k | k in KeysFor(loanType) :: fields[k]
  }

  /** Every group's keys are state fields. */
  lemma GroupsAreFields()
    ensures BaseKeys <= StateFields && PermanentKeys <= StateFields && BridgeKeys <= StateFields
    ensures RefinanceKeys <= StateFields && ConstructionKeySet <= StateFields
  {
  }

  /** Every entry of `specifics` holds the field of the same name. */
  predicate CopiedFrom(specifics: Record, fields: Record) {
    forall k | k in specifics :: k in fields && specifics[k] == fields[k]
  }

  /** One group of assignments `loanSpecifics.k = <field k>`, for each key k
      of the group. */
  function PutGroup(specifics: Record, fields: Record, group: set<string>): (r: Record)
    requires group <= fields.Keys
    ensures r.Keys == specifics.Keys + group
    ensures forall k | k in group :: r[k] == fields[k]
    ensures forall k | k in specifics && k !in group :: r[k] == specifics[k]
  {
    specifics + map k | k in group :: fields[k]
  }

  /** A group of assignments keeps every entry a copy of its field. */
  lemma PutGroupCopies(specifics: Record, fields: Record, group: set<string>)
    requires group <= fields.Keys && CopiedFrom(specifics, fields)
    ensures CopiedFrom(PutGroup(specifics, fields, group), fields)
  {
  }

  /** A record holding exactly the loan type's keys, each with its field's
      value, is that type's `loanSpecifics`. */
  lemma SpecificsByKeys(specifics: Record, loanType: Value, fields: Record)
    requires StateFields <= fields.Keys
    requires specifics.Keys == KeysFor(loanType)
    requires CopiedFrom(specifics, fields)
    ensures specifics == SpecificsFor(loanType, fields)
  {
  }

  /** A construction loan gets the budget, period, draw schedule, term and
      recourse, and nothing of the permanent, bridge or refinance groups. */
  lemma ConstructionKeys()
    ensures KeysFor(Str("construction")) ==
      {"interestRate", "propertyValue", "constructionBudget", "constructionPeriod",
       "drawSchedule", "loanTerm", "recourse"}
    ensures "prepaymentPenalty" !in KeysFor(Str("construction"))
    ensures "exitStrategy" !in KeysFor(Str("construction"))
    ensures "amortization" !in KeysFor(Str("construction"))
  {
    NotContainsMissingChar("construction", "permanent", 'p');
    NotContainsMissingChar("construction", "bridge", 'b');
    NotContainsMissingChar("construction", "refinance", 'f');
  }

  /** The construction fields appear only for the exact type "construction". */
  lemma ConstructionOnlyExactly(loanType: Value)
    ensures "constructionBudget" in KeysFor(loanType) <==> loanType == Str("construction")
  {
  }

  /** `||` with "" does not change which words a loan type includes. */
  lemma IncludesOrEmpty(loanType: Value, word: string)
    requires word != ""
    ensures Includes(Or(loanType, Str("")), word) <==> Includes(loanType, word)
  {
    if Falsy(loanType) {
      assert !Contains("", word);
    }
  }

  /** Every field the step-3 validator requires for some data is a key of the
      `loanSpecifics` the form builds for that data's loan type. */
  lemma CoversStep3(data: Value, id: FieldId)
    requires StepOf(id) == 3 && Holds(ConditionOf(id), data)
    ensures FieldName(id) in KeysFor(Or(LoanTypeOf(data), Str("")))
  {
    var lt := LoanTypeOf(data);
    IncludesOrEmpty(lt, "permanent");
    IncludesOrEmpty(lt, "bridge");
    IncludesOrEmpty(lt, "refinance");
  }

  /** A term entered in months, read by the server as years: a bridge loan's
      "12" (months) reaches the payment formula as 12 years. */
  lemma BridgeTermReadAsYears(data: Record, specifics: Record, term: string)
    requires "loanSpecifics" in data && data["loanSpecifics"] == Obj(specifics)
    requires "loanTerm" in specifics && specifics["loanTerm"] == Str(term)
    requires |term| >= 1 && AllDigits(term) && DigitsValue(term) > 0
    ensures Metrics.ReadInputs(data).loanTermYears == Some(DigitsValue(term) as real)
  {
    ParseDigits(term);
  }

  /** `formatLoanTypeDisplay`: the five known types get a display name, any
      other string is shown as it is. */
  function FormatLoanTypeDisplay(loanType: string): (display: string)
    ensures display == loanType <==>
      loanType !in {"permanent-acquisition", "permanent-refinance", "bridge-acquisition",
                    "bridge-refinance", "construction"}
  {
    match loanType
    case "permanent-acquisition" => "Permanent Acquisition Loan"
    case "permanent-refinance" => "Permanent Refinance Loan"
    case "bridge-acquisition" => "Bridge Acquisition Loan"
    case "bridge-refinance" => "Bridge Refinance Loan"
    case "construction" => "Construction Loan"
    case _ => loanType
  }

  /** The `required` inputs rendered for a loan type: the property value
      always, the exit strategy for a bridge loan, the current balance for a
      refinance, and the budget and period for a construction loan. */
  function RequiredInputs(loanType: Value): set<string> {
    {"propertyValue"}
    + (if Includes(loanType, "bridge") then {"exitStrategy"} else {})
    + (if Includes(loanType, "refinance") then {"currentLoanBalance"} else {})
    + (if loanType == Str("construction") then {"constructionBudget", "constructionPeriod"} else {})
  }

  /** The browser's constraint validation stops the submit while a rendered
      `required` input is empty. */
  predicate SubmitBlocked(loanType: Value, fields: Record) {
    exists k | k in RequiredInputs(loanType) :: k in fields && ValueMissing(fields[k])
  }

  /** The form's state. */
  class LoanSpecificsForm {
    const loanType: Value
    var fields: Record

    predicate Valid()
      reads this
    {
      fields.Keys == StateFields
    }

    constructor(initialData: Value)
      ensures Valid()
      ensures loanType == LoanTypeOfForm(initialData) && fields == InitialFields(initialData)
    {
      loanType := LoanTypeOfForm(initialData);
      fields := InitialFields(initialData);
    }

    /** One of the setters: only that field changes. */
    method SetField(field: string, value: string)
      requires Valid() && field in StateFields
      modifies this
      ensures Valid()
      ensures fields == old(fields)[field := Str(value)]
    {
      fields := fields[field := Str(value)];
    }

    /** `handleSubmit`: `{loanSpecifics}`, built by one conditional group of
        assignments after another. The browser fires the form's submit event
        only when no rendered `required` input is empty. */
    method HandleSubmit() returns (payload: Record)
      requires Valid() && !SubmitBlocked(loanType, fields)
      ensures payload == map["loanSpecifics" := Obj(SpecificsFor(loanType, fields))]
    {
      GroupsAreFields();
      var permanent, bridge := Includes(loanType, "permanent"), Includes(loanType, "bridge");
      var refinance, construction := Includes(loanType, "refinance"), loanType == Str("construction");
      var specifics := PutGroup(map[], fields, BaseKeys);
      PutGroupCopies(map[], fields, BaseKeys);
      ghost var keys := BaseKeys;
      if permanent {
        PutGroupCopies(specifics, fields, PermanentKeys);
        specifics := PutGroup(specifics, fields, PermanentKeys);
      }
      keys := With(keys, permanent, PermanentKeys);
      assert specifics.Keys == keys;
      if bridge {
        PutGroupCopies(specifics, fields, BridgeKeys);
        specifics := PutGroup(specifics, fields, BridgeKeys);
      }
      keys := With(keys, bridge, BridgeKeys);
      assert specifics.Keys == keys;
      if refinance {
        PutGroupCopies(specifics, fields, RefinanceKeys);
        specifics := PutGroup(specifics, fields, RefinanceKeys);
      }
      keys := With(keys, refinance, RefinanceKeys);
      assert specifics.Keys == keys;
      if construction {
        PutGroupCopies(specifics, fields, ConstructionKeySet);
        specifics := PutGroup(specifics, fields, ConstructionKeySet);
      }
      keys := With(keys, construction, ConstructionKeySet);
      assert specifics.Keys == keys == KeysFor(loanType);
      SpecificsByKeys(specifics, loanType, fields);
      payload := map["loanSpecifics" := Obj(specifics)];
    }
  }

  /** A submit the browser lets through hands over every rendered `required`
      input, none of them empty: in particular the property value is never "". */
  lemma UnblockedSubmitFilled(loanType: Value, fields: Record, k: string)
    requires StateFields <= fields.Keys && !SubmitBlocked(loanType, fields)
    requires k in RequiredInputs(loanType)
    ensures k in SpecificsFor(loanType, fields) && !ValueMissing(SpecificsFor(loanType, fields)[k])
    ensures "propertyValue" in SpecificsFor(loanType, fields)
      && SpecificsFor(loanType, fields)["propertyValue"] != Str("")
  {
    assert "propertyValue" in RequiredInputs(loanType);
  }

  /** The payload always carries the interest rate and the property value. */
  lemma AlwaysRateAndValue(loanType: Value, fields: Record)
    requires StateFields <= fields.Keys
    ensures "interestRate" in SpecificsFor(loanType, fields) && "propertyValue" in SpecificsFor(loanType, fields)
    ensures SpecificsFor(loanType, fields)["interestRate"] == fields["interestRate"]
  {
  }
}

=== FILE: progress_stepper.dfy ===
/**
 * The wizard's step list (client/src/components/ProgressStepper.tsx): how
 * each step is drawn from its status, and which clicks reach the optional
 * `onStepClick` callback. The component holds no state.
 */
module ProgressStepper {
  import opened Wrappers

  datatype StepStatus = Completed | Current | Upcoming

  /** A `steps` prop entry. */
  datatype Step = Step(id: int, name: string, status: StepStatus)

  /** `handleStepClick`: the id handed to `onStepClick`, when the callback is
      called at all. `hasCallback` says whether the prop was supplied. */
  function HandleStepClick(step: Step, hasCallback: bool): (call: Option<int>)
    ensures call.Some? <==> step.status == Completed && hasCallback
    ensures call.Some? ==> call.value == step.id
  {
    if step.status == Completed && hasCallback then Some(step.id) else None
  }

  /** The element a list item shows: a button for a completed step, and a
      non-clickable marker for the current and the upcoming ones. */
  datatype Marker = CompletedButton | CurrentMarker | UpcomingMarker

  /** One `<li>`: the step's id and name, its marker, and whether the
      connector line to the next item is drawn. */
  datatype Item = Item(stepId: int, name: string, marker: Marker, connector: bool)

  function MarkerOf(status: StepStatus): Marker {
    match status
    case Completed => CompletedButton
    case Current => CurrentMarker
    case Upcoming => UpcomingMarker
  }

  /** The rendered list, one item per step in order. */
  function Render(steps: seq<Step>): (items: seq<Item>)
    ensures |items| == |steps|
    ensures forall i | 0 <= i < |steps| ::
      items[i].stepId == steps[i].id && items[i].name == steps[i].name
      && (items[i].marker == CompletedButton <==> steps[i].status == Completed)
      && (items[i].connector <==> i < |steps| - 1)
  {
    seq(|steps|, i requires 0 <= i < |steps| =>
      Item(steps[i].id, steps[i].name, MarkerOf(steps[i].status), i < |steps| - 1))
  }

  /** A click on the i-th item: only a button has a click handler, and the
      handler goes through `handleStepClick`. */
  function Click(steps: seq<Step>, i: int, hasCallback: bool): (call: Option<int>)
    requires 0 <= i < |steps|
  {
    if Render(steps)[i].marker == CompletedButton then HandleStepClick(steps[i], hasCallback) else None
  }

  /** A click navigates exactly when it lands on a completed step and a
      callback was supplied, and it hands over that step's id. */
  lemma ClickNavigates(steps: seq<Step>, i: int, hasCallback: bool)
    requires 0 <= i < |steps|
    ensures Click(steps, i, hasCallback) == (if steps[i].status == Completed && hasCallback then Some(steps[i].id) else None)
  {
  }

  /** Without a callback no click navigates. */
  lemma NoCallbackNoNavigation(steps: seq<Step>, i: int)
    requires 0 <= i < |steps|
    ensures Click(steps, i, false).None?
  {
  }
}

=== FILE: property_basics.dfy ===
/**
 * The property and borrower step (client/src/components/PropertyBasicsForm.tsx):
 * a 13-field `formData` record seeded from `initialData`, changed one field
 * at a time, submitted with `experience` renamed to `yearsExperience`, and
 * the red outline on the six starred fields.
 */
module PropertyBasics {
  import opened JsValue
  import opened FormValidation

  /** The keys of `formData`. */
  const FormFields: set<string> := {
    "propertyName", "propertyAddress", "propertyType", "squareFootage", "units", "yearBuilt",
    "occupancy", "entityName", "borrowerType", "contactEmail", "contactPhone", "experience",
    "projectsCompleted"
  }

  /** The key a form field is read from in `initialData` and written to in
      the payload: the same name, except `experience`. */
  function DataKey(field: string): string {
    if field == "experience" then "yearsExperience" else field
  }

  /** The keys of the payload. */
  const PayloadKeys: set<string> := FormFields - {"experience"} + {"yearsExperience"}

  /** The form field a payload key is copied from. */
  function SourceField(key: string): string {
    if key == "yearsExperience" then "experience" else key
  }

  /** `initialData?.[key] || ""` */
  function Seed(initialData: Value, key: string): Value {
    Or(Get(initialData, key), Str(""))
  }

  /** The initial `formData`: each of the 13 fields read from its data key,
      or "". */
  function InitialFormData(initialData: Value): Record {
    map field | field in FormFields :: Seed(initialData, DataKey(field))
  }

  /** `formData` holds every form field. */
  predicate HasFormFields(formData: Record) {
    FormFields <= formData.Keys
  }

  /** The payload `handleSubmit` hands to `onContinue`: the 13 fields copied
      one by one, `experience` under the name `yearsExperience`. */
  function Submitted(formData: Record): Record
    requires HasFormFields(formData)
  {
    map key | key in PayloadKeys :: formData[SourceField(key)]
  }

  /** Every field starts from its data key in `initialData`, or "". */
  lemma InitialFormDataMeaning(initialData: Value, field: string)
    requires field in FormFields
    ensures HasFormFields(InitialFormData(initialData))
    ensures InitialFormData(initialData)[field] == Seed(initialData, DataKey(field))
  {
  }

  /** The payload has exactly the data keys of the form fields, each holding
      its field's value: twelve copied and `experience` renamed. */
  lemma {:induction false} SubmittedMeaning(formData: Record, field: string)
    requires HasFormFields(formData) && field in FormFields
    ensures Submitted(formData).Keys == set f | f in FormFields :: DataKey(f)
    ensures DataKey(field) in Submitted(formData)
    ensures Submitted(formData)[DataKey(field)] == formData[field]
    ensures "experience" !in Submitted(formData)
  {
    assert "yearsExperience" !in FormFields;
    assert SourceField(DataKey(field)) == field;
    var keys := set f | f in FormFields :: DataKey(f);
    forall k | k in PayloadKeys ensures k in keys {
      if k == "yearsExperience" {
        assert DataKey("experience") == k;
      } else {
        assert DataKey(k) == k;
      }
    }
  }

  /** Submitting an untouched form gives back each truthy initial value under
      the key it came from, and "" for the others. */
  lemma UntouchedRoundTrip(initialData: Value, field: string)
    requires field in FormFields
    ensures var key := DataKey(field);
      HasFormFields(InitialFormData(initialData))
      && key in Submitted(InitialFormData(initialData))
      && (!Falsy(Get(initialData, key)) ==> Submitted(InitialFormData(initialData))[key] == Get(initialData, key))
      && (Falsy(Get(initialData, key)) ==> Submitted(InitialFormData(initialData))[key] == Str(""))
  {
    InitialFormDataMeaning(initialData, field);
    SubmittedMeaning(InitialFormData(initialData), field);
  }

  /** The six starred fields. */
  const StarredFields: seq<string> := [
    "propertyName", "propertyType", "entityName", "borrowerType", "contactEmail", "contactPhone"
  ]

  /** `showValidation && !formData[field]`: the field is outlined in red. */
  predicate Highlighted(showValidation: bool, formData: Record, field: string) {
    showValidation && Falsy(Get(Obj(formData), field))
  }

  /** The starred fields are exactly the step-2 entries of the required-field
      table. */
  lemma StarredFieldsAreStep2(id: FieldId)
    ensures StepOf(id) == 2 <==> FieldName(id) in StarredFields
  {
  }

  /** A starred field is a form field read at a one-key path of the same name. */
  lemma StarredFieldPath(id: FieldId)
    requires StepOf(id) == 2
    ensures FieldName(id) in FormFields && DataKey(FieldName(id)) == FieldName(id)
    ensures DataPath(id) == FieldName(id) && FieldName(id) != "" && '.' !in FieldName(id)
  {
    StarredFieldsAreStep2(id);
  }

  /** A single space is truthy but empty for the validator. */
  lemma BlankIsEmpty()
    ensures !Falsy(Str(" ")) && IsFieldEmpty(Str(" "))
  {
    assert IsJsWhitespace(' ');
    assert AllWhitespace(" ");
    TrimEmptyIffWhitespace(" ");
  }

  /** A highlighted text field is one the step-2 validator reports for the
      submitted payload. The converse fails: the validator also reports
      white space, which is truthy and so not highlighted. */
  lemma HighlightedIsReported(formData: Record, id: FieldId)
    requires HasFormFields(formData) && StepOf(id) == 2
    requires Get(Obj(formData), FieldName(id)).Str?
    ensures Highlighted(true, formData, FieldName(id)) ==> Reported(id, Obj(Submitted(formData)))
    ensures formData[FieldName(id)] == Str(" ") ==>
      !Highlighted(true, formData, FieldName(id)) && Reported(id, Obj(Submitted(formData)))
  {
    var data := Obj(Submitted(formData));
    var name := FieldName(id);
    StarredFieldPath(id);
    SubmittedMeaning(formData, name);
    ValueAtSimplePath(data, name);
    assert ValueAtPath(data, DataPath(id)) == formData[name];
    BlankIsEmpty();
  }

  /** The form's state. */
  class PropertyBasicsForm {
    var formData: Record

    predicate Valid()
      reads this
    {
      HasFormFields(formData)
    }

    constructor(initialData: Value)
      ensures Valid()
      ensures formData == InitialFormData(initialData)
    {
      formData := InitialFormData(initialData);
    }

    /** `updateField`: only `field` changes. */
    method UpdateField(field: string, value: string)
      requires Valid()
      modifies this
      ensures Valid()
      ensures formData == old(formData)[field := Str(value)]
    {
      formData := formData[field := Str(value)];
    }

    /** `handleSubmit`; nothing blocks it. */
    method HandleSubmit() returns (data: Record)
      requires Valid()
      ensures data == Submitted(formData)
    {
      data := Submitted(formData);
    }
  }
}

=== FILE: property_performance.dfy ===
/**
 * The income step (client/src/components/PropertyPerformanceForm.tsx): the
 * income, expense, NOI and occupancy fields, the major-tenant list with its
 * add, remove and update handlers, the NOI calculation, and the object handed
 * to `onContinue`.
 */
module PropertyPerformance {
  import opened Wrappers
  import opened JsValue
  import opened JsNumber
  import opened FormValidation

  /** `interface Tenant`; each field holds whatever the saved data or the
      input put there. */
  datatype Tenant = Tenant(name: Value, unit: Value, monthlyRent: Value, leaseExpiry: Value)

  /** `keyof Tenant` */
  datatype TenantField = Name | Unit | MonthlyRent | LeaseExpiry

  /** The tenant `addTenant` appends. */
  const EmptyTenant: Tenant := Tenant(Str(""), Str(""), Str(""), Str(""))

  function FieldOf(t: Tenant, field: TenantField): Value {
    match field
    case Name => t.name
    case Unit => t.unit
    case MonthlyRent => t.monthlyRent
    case LeaseExpiry => t.leaseExpiry
  }

  /** `{ ...tenant, [field]: value }` */
  function SetField(t: Tenant, field: TenantField, value: string): (r: Tenant)
    ensures FieldOf(r, field) == Str(value)
    ensures forall other: TenantField | other != field :: FieldOf(r, other) == FieldOf(t, other)
  {
    match field
    case Name => t.(name := Str(value))
    case Unit => t.(unit := Str(value))
    case MonthlyRent => t.(monthlyRent := Str(value))
    case LeaseExpiry => t.(leaseExpiry := Str(value))
  }

  /** A tenant as the object it is submitted as. */
  function TenantValue(t: Tenant): Value {
    Obj(map["name" := t.name, "unit" := t.unit, "monthlyRent" := t.monthlyRent, "leaseExpiry" := t.leaseExpiry])
  }

  /** A saved tenant object read back as a tenant. */
  function TenantOf(v: Value): Tenant {
    Tenant(Get(v, "name"), Get(v, "unit"), Get(v, "monthlyRent"), Get(v, "leaseExpiry"))
  }

  /** A submitted tenant reads back as the same tenant. */
  lemma TenantRoundTrip(t: Tenant)
    ensures TenantOf(TenantValue(t)) == t
  {
  }

  /** The submitted `majorTenants` array. */
  function TenantsValue(tenants: seq<Tenant>): (v: Value)
    ensures v.Arr? && |v.items| == |tenants|
    ensures forall i | 0 <= i < |tenants| :: TenantOf(v.items[i]) == tenants[i]
  {
    Arr(seq(|tenants|, i requires 0 <= i < |tenants| => TenantValue(tenants[i])))
  }

  /** `initialData?.majorTenants || []`, each saved object read as a tenant. */
  function InitialTenants(initialData: Value): (tenants: seq<Tenant>)
    ensures Falsy(Get(initialData, "majorTenants")) ==> tenants == []
  {
    match Or(Get(initialData, "majorTenants"), Arr([]))
    case Arr(items) => seq(|items|, i requires 0 <= i < |items| => TenantOf(items[i]))
    case _ => []
  }

  /** Submitting the saved tenants gives back the saved array when each of
      its entries is a tenant object with just the four fields. */
  lemma TenantsRoundTrip(initialData: Value)
    requires Get(initialData, "majorTenants").Arr?
    requires forall v | v in Get(initialData, "majorTenants").items :: v == TenantValue(TenantOf(v))
    ensures TenantsValue(InitialTenants(initialData)) == Get(initialData, "majorTenants")
  {
    var items := Get(initialData, "majorTenants").items;
    var back := TenantsValue(InitialTenants(initialData)).items;
    assert |back| == |items|;
    forall i | 0 <= i < |items|
      ensures back[i] == items[i]
    {
      assert items[i] in items;
    }
  }

  /** `addTenant`: one empty tenant appended. */
  function AddTenant(tenants: seq<Tenant>): (r: seq<Tenant>)
    ensures |r| == |tenants| + 1 && r[..|tenants|] == tenants && r[|tenants|] == EmptyTenant
  {
    tenants + [EmptyTenant]
  }

  /** `removeTenant`: `tenants.filter((_, i) => i !== index)`. */
  function RemoveTenant(tenants: seq<Tenant>, index: int): (r: seq<Tenant>)
    ensures 0 <= index < |tenants| ==> r == tenants[..index] + tenants[index + 1..]
    ensures !(0 <= index < |tenants|) ==> r == tenants
    decreases |tenants|
  {
    if |tenants| == 0 then []
    else
      var last := |tenants| - 1;
      RemoveTenant(tenants[..last], index) + (if last != index then [tenants[last]] else [])
  }

  /** `calculateNOI` reads an amount as `parseFloat(s.replace(/,/g, "") || "0")`;
      None stands for NaN. */
  function ParsedAmount(s: string): Option<real> {
    var t := RemoveCommas(s);
    ParseFloat(if t == "" then "0" else t)
  }

  /** Digits with thousands separators read as the number they spell. */
  lemma AmountIgnoresCommas(s: string)
    requires |RemoveCommas(s)| >= 1 && AllDigits(RemoveCommas(s))
    ensures ParsedAmount(s) == Some(DigitsValue(RemoveCommas(s)) as real)
  {
    ParseDigits(RemoveCommas(s));
  }

  /** An empty amount counts as 0, so it never lets NOI be calculated. */
  lemma EmptyAmountIsZero()
    ensures ParsedAmount("") == Some(0.0)
  {
    ParseDigits("0");
  }

  /** Whether `calculateNOI` sets NOI, and to what: both amounts positive. */
  function CalculatedNoi(income: string, expenses: string): (noi: Option<string>)
    ensures noi.Some? <==>
      ParsedAmount(income).Some? && ParsedAmount(income).value > 0.0
      && ParsedAmount(expenses).Some? && ParsedAmount(expenses).value > 0.0
  {
    match (ParsedAmount(income), ParsedAmount(expenses))
    case (Some(i), Some(e)) => if i > 0.0 && e > 0.0 then Some(ToFixed(i - e, 2)) else None
    case _ => None
  }

  /** The NOI text reads back as income minus expenses, to the cent. */
  lemma CalculatedNoiValue(income: string, expenses: string)
    requires CalculatedNoi(income, expenses).Some?
    ensures ParseFloat(CalculatedNoi(income, expenses).value) ==
      Some(Rounded(ParsedAmount(income).value - ParsedAmount(expenses).value, 2))
  {
    ParseToFixed(ParsedAmount(income).value - ParsedAmount(expenses).value, 2);
  }

  /** The browser's constraint validation: the income-producing form renders
      the income, expenses and occupancy inputs `required`, and stops the
      submit while one of them is empty; the simpler form has none. */
  predicate FiguresBlocked(incomeProducing: bool, income: Value, expenses: Value, occupancy: Value) {
    incomeProducing && (ValueMissing(income) || ValueMissing(expenses) || ValueMissing(occupancy))
  }

  /** The object `handleSubmit` builds: the performance figures only for an
      income-producing property, the tenants only when there are some, and
      each improvements text only when it is truthy. */
  function Submitted(incomeProducing: bool, income: Value, expenses: Value, noi: Value, occupancy: Value,
                     tenants: seq<Tenant>, recent: Value, planned: Value): (data: Record)
    ensures "annualGrossIncome" in data <==> incomeProducing
    ensures "annualOperatingExpenses" in data <==> incomeProducing
    ensures "annualNOI" in data <==> incomeProducing
    ensures "occupancy" in data <==> incomeProducing
    ensures "majorTenants" in data <==> incomeProducing && |tenants| > 0
    ensures "recentImprovements" in data <==> !Falsy(recent)
    ensures "plannedImprovements" in data <==> !Falsy(planned)
    ensures incomeProducing ==> data["annualGrossIncome"] == income && data["annualOperatingExpenses"] == expenses
    ensures incomeProducing ==> data["annualNOI"] == noi && data["occupancy"] == occupancy
    ensures incomeProducing && |tenants| > 0 ==> data["majorTenants"] == TenantsValue(tenants)
    ensures !Falsy(recent) ==> data["recentImprovements"] == recent
    ensures !Falsy(planned) ==> data["plannedImprovements"] == planned
    ensures data.Keys <= {"annualGrossIncome", "annualOperatingExpenses", "annualNOI", "occupancy",
                          "majorTenants", "recentImprovements", "plannedImprovements"}
  {
    var figures: Record := if incomeProducing then
      map["annualGrossIncome" := income, "annualOperatingExpenses" := expenses,
          "annualNOI" := noi, "occupancy" := occupancy]
    else map[];
    var withTenants := if incomeProducing && |tenants| > 0 then figures["majorTenants" := TenantsValue(tenants)] else figures;
    var withRecent := if !Falsy(recent) then withTenants["recentImprovements" := recent] else withTenants;
    if !Falsy(planned) then withRecent["plannedImprovements" := planned] else withRecent
  }

  /** The submitted object has no `loanSpecifics` key. */
  lemma NoLoanSpecifics(incomeProducing: bool, income: Value, expenses: Value, noi: Value, occupancy: Value,
                        tenants: seq<Tenant>, recent: Value, planned: Value)
    ensures "loanSpecifics" !in Submitted(incomeProducing, income, expenses, noi, occupancy, tenants, recent, planned)
  {
  }

  /** A `loanSpecifics.` path reads undefined where there is no `loanSpecifics`. */
  lemma LoanSpecificsPathUndefined(data: Value, inner: string)
    requires data.Obj? && "loanSpecifics" !in data.fields
    ensures ValueAtPath(data, "loanSpecifics." + inner) == Undefined
  {
    var path := "loanSpecifics." + inner;
    assert path == "loanSpecifics" + ['.'] + inner;
    assert '.' !in "loanSpecifics";
    SplitAtFirst("loanSpecifics", inner, '.');
    var keys := Split(path, '.');
    assert keys[..1] == ["loanSpecifics"];
    assert Walk(data, keys[..1]) == Walk(Get(data, "loanSpecifics"), []);
    WalkStopsAtNullish(data, keys, 1);
  }

  /** An entry whose condition holds and whose path reads undefined is reported. */
  lemma ReportedWhenUndefined(data: Value, id: FieldId)
    requires ValueAtPath(data, DataPath(id)) == Undefined && Holds(ConditionOf(id), data)
    ensures Reported(id, data)
  {
    assert IsFieldEmpty(Undefined);
  }

  /** Without `loanSpecifics`, the income or the expense path reads
      undefined, and is reported for an income-producing property. */
  lemma IncomeFigureUnseen(data: Value, id: FieldId)
    requires data.Obj? && "loanSpecifics" !in data.fields
    requires id == AnnualGrossIncome || id == AnnualOperatingExpenses
    ensures ValueAtPath(data, DataPath(id)) == Undefined
    ensures Holds(IncomeProducing, data) ==> Reported(id, data)
  {
    assert UnderLoanSpecifics(id) && ConditionOf(id) == IncomeProducing;
    LoanSpecificsPathUndefined(data, FieldName(id));
    if Holds(IncomeProducing, data) {
      ReportedWhenUndefined(data, id);
    }
  }

  /** The step-5 validator looks for the income and the expenses under
      `loanSpecifics`, a key this step never writes: merged into any
      application that lacks it, the figures stay invisible to the
      validator, which reports them for an income-producing property. */
  lemma FiguresMissedByValidator(app: Record, incomeProducing: bool, income: Value, expenses: Value,
                                 noi: Value, occupancy: Value, tenants: seq<Tenant>, recent: Value, planned: Value)
    requires "loanSpecifics" !in app
    ensures var data := Obj(app + Submitted(incomeProducing, income, expenses, noi, occupancy, tenants, recent, planned));
      ValueAtPath(data, DataPath(AnnualGrossIncome)) == Undefined
      && ValueAtPath(data, DataPath(AnnualOperatingExpenses)) == Undefined
      && (Holds(IncomeProducing, data) ==> Reported(AnnualGrossIncome, data) && Reported(AnnualOperatingExpenses, data))
  {
    var merged := app + Submitted(incomeProducing, income, expenses, noi, occupancy, tenants, recent, planned);
    NoLoanSpecifics(incomeProducing, income, expenses, noi, occupancy, tenants, recent, planned);
    assert "loanSpecifics" !in merged;
    IncomeFigureUnseen(Obj(merged), AnnualGrossIncome);
    IncomeFigureUnseen(Obj(merged), AnnualOperatingExpenses);
  }

  /** The text inputs of the form. */
  datatype TextInput = GrossIncome | OperatingExpenses | Noi | OccupancyRate | RecentImprovements | PlannedImprovements

  /** The form's state: one field per `useState` hook, and the two values it
      reads from `initialData` once. */
  class PropertyPerformanceForm {
    const propertyType: Value
    const loanType: Value
    var annualGrossIncome: Value
    var annualOperatingExpenses: Value
    var annualNOI: Value
    var occupancyRate: Value
    var majorTenants: seq<Tenant>
    var recentImprovements: Value
    var plannedImprovements: Value

    constructor(initialData: Value)
      ensures propertyType == Or(Get(initialData, "propertyType"), Str(""))
      ensures loanType == Or(Get(initialData, "loanType"), Str(""))
      ensures annualGrossIncome == Or(Get(initialData, "annualGrossIncome"), Str(""))
      ensures annualOperatingExpenses == Or(Get(initialData, "annualOperatingExpenses"), Str(""))
      ensures annualNOI == Or(Get(initialData, "annualNOI"), Str(""))
      ensures occupancyRate == Or(Get(initialData, "occupancy"), Str(""))
      ensures majorTenants == InitialTenants(initialData)
      ensures recentImprovements == Or(Get(initialData, "recentImprovements"), Str(""))
      ensures plannedImprovements == Or(Get(initialData, "plannedImprovements"), Str(""))
      ensures IsIncomeProducing() <==> Holds(IncomeProducing, initialData)
    {
      propertyType := Or(Get(initialData, "propertyType"), Str(""));
      loanType := Or(Get(initialData, "loanType"), Str(""));
      annualGrossIncome := Or(Get(initialData, "annualGrossIncome"), Str(""));
      annualOperatingExpenses := Or(Get(initialData, "annualOperatingExpenses"), Str(""));
      annualNOI := Or(Get(initialData, "annualNOI"), Str(""));
      occupancyRate := Or(Get(initialData, "occupancy"), Str(""));
      majorTenants := InitialTenants(initialData);
      recentImprovements := Or(Get(initialData, "recentImprovements"), Str(""));
      plannedImprovements := Or(Get(initialData, "plannedImprovements"), Str(""));
    }

    /** `isIncomeProducing`, the step-5 validator's rule. */
    predicate IsIncomeProducing() {
      FormValidation.IsIncomeProducing(propertyType, loanType)
    }

    /** An input's `onChange`: only that input changes. */
    method Edit(input: TextInput, value: string)
      modifies this
      ensures annualGrossIncome == if input == GrossIncome then Str(value) else old(annualGrossIncome)
      ensures annualOperatingExpenses == if input == OperatingExpenses then Str(value) else old(annualOperatingExpenses)
      ensures annualNOI == if input == Noi then Str(value) else old(annualNOI)
      ensures occupancyRate == if input == OccupancyRate then Str(value) else old(occupancyRate)
      ensures recentImprovements == if input == RecentImprovements then Str(value) else old(recentImprovements)
      ensures plannedImprovements == if input == PlannedImprovements then Str(value) else old(plannedImprovements)
      ensures majorTenants == old(majorTenants)
    {
      match input
      case GrossIncome => annualGrossIncome := Str(value);
      case OperatingExpenses => annualOperatingExpenses := Str(value);
      case Noi => annualNOI := Str(value);
      case OccupancyRate => occupancyRate := Str(value);
      case RecentImprovements => recentImprovements := Str(value);
      case PlannedImprovements => plannedImprovements := Str(value);
    }

    /** `calculateNOI`, run when the income or the expenses input loses focus:
        NOI becomes income minus expenses with two decimals when both are
        positive, and stays as it was otherwise. */
    method CalculateNoi()
      requires annualGrossIncome.Str? && annualOperatingExpenses.Str?
      modifies this
      ensures annualGrossIncome == old(annualGrossIncome) && annualOperatingExpenses == old(annualOperatingExpenses)
      ensures CalculatedNoi(annualGrossIncome.s, annualOperatingExpenses.s).Some? ==>
        annualNOI == Str(CalculatedNoi(annualGrossIncome.s, annualOperatingExpenses.s).value)
      ensures CalculatedNoi(annualGrossIncome.s, annualOperatingExpenses.s).None? ==> annualNOI == old(annualNOI)
      ensures occupancyRate == old(occupancyRate) && majorTenants == old(majorTenants)
      ensures recentImprovements == old(recentImprovements) && plannedImprovements == old(plannedImprovements)
    {
      var income := ParsedAmount(annualGrossIncome.s);
      var expenses := ParsedAmount(annualOperatingExpenses.s);
      if income.Some? && expenses.Some? && income.value > 0.0 && expenses.value > 0.0 {
        var noi := income.value - expenses.value;
        annualNOI := Str(ToFixed(noi, 2));
      }
    }

    /** `addTenant` */
    method AddTenantClicked()
      modifies this
      ensures majorTenants == AddTenant(old(majorTenants))
      ensures annualGrossIncome == old(annualGrossIncome) && annualOperatingExpenses == old(annualOperatingExpenses)
      ensures annualNOI == old(annualNOI) && occupancyRate == old(occupancyRate)
      ensures recentImprovements == old(recentImprovements) && plannedImprovements == old(plannedImprovements)
    {
      majorTenants := AddTenant(majorTenants);
    }

    /** `removeTenant` */
    method RemoveTenantClicked(index: int)
      modifies this
      ensures majorTenants == RemoveTenant(old(majorTenants), index)
      ensures annualGrossIncome == old(annualGrossIncome) && annualOperatingExpenses == old(annualOperatingExpenses)
      ensures annualNOI == old(annualNOI) && occupancyRate == old(occupancyRate)
      ensures recentImprovements == old(recentImprovements) && plannedImprovements == old(plannedImprovements)
    {
      majorTenants := RemoveTenant(majorTenants, index);
    }

    /** `updateTenant`: a copy of the list with one field of one tenant
        replaced. */
    method UpdateTenant(index: int, field: TenantField, value: string)
      requires 0 <= index < |majorTenants|
      modifies this
      ensures |majorTenants| == |old(majorTenants)|
      ensures FieldOf(majorTenants[index], field) == Str(value)
      ensures forall other: TenantField | other != field ::
        FieldOf(majorTenants[index], other) == FieldOf(old(majorTenants)[index], other)
      ensures forall i | 0 <= i < |majorTenants| && i != index :: majorTenants[i] == old(majorTenants)[i]
      ensures annualGrossIncome == old(annualGrossIncome) && annualOperatingExpenses == old(annualOperatingExpenses)
      ensures annualNOI == old(annualNOI) && occupancyRate == old(occupancyRate)
      ensures recentImprovements == old(recentImprovements) && plannedImprovements == old(plannedImprovements)
    {
      var updated := majorTenants;
      updated := updated[index := SetField(updated[index], field, value)];
      majorTenants := updated;
    }

    /** `handleSubmit`: `data` filled one conditional assignment at a time,
        run only when the browser lets the submit through. */
    method HandleSubmit() returns (data: Record)
      requires !FiguresBlocked(IsIncomeProducing(), annualGrossIncome, annualOperatingExpenses, occupancyRate)
      ensures data == Submitted(IsIncomeProducing(), annualGrossIncome, annualOperatingExpenses, annualNOI,
                                occupancyRate, majorTenants, recentImprovements, plannedImprovements)
    {
      data := map[];
      if IsIncomeProducing() {
        data := data["annualGrossIncome" := annualGrossIncome];
        data := data["annualOperatingExpenses" := annualOperatingExpenses];
        data := data["annualNOI" := annualNOI];
        data := data["occupancy" := occupancyRate];
        if |majorTenants| > 0 {
          data := data["majorTenants" := TenantsValue(majorTenants)];
        }
      }
      if !Falsy(recentImprovements) {
        data := data["recentImprovements" := recentImprovements];
      }
      if !Falsy(plannedImprovements) {
        data := data["plannedImprovements" := plannedImprovements];
      }
    }
  }

  /** An income-producing submit the browser lets through carries the income,
      the expenses and the occupancy, none of them empty. */
  lemma UnblockedSubmitFigures(incomeProducing: bool, income: Value, expenses: Value, noi: Value, occupancy: Value,
                               tenants: seq<Tenant>, recent: Value, planned: Value)
    requires incomeProducing && !FiguresBlocked(incomeProducing, income, expenses, occupancy)
    ensures var data := Submitted(incomeProducing, income, expenses, noi, occupancy, tenants, recent, planned);
      "annualGrossIncome" in data && !ValueMissing(data["annualGrossIncome"])
      && "annualOperatingExpenses" in data && !ValueMissing(data["annualOperatingExpenses"])
      && "occupancy" in data && !ValueMissing(data["occupancy"])
  {
  }

  /** Land, owner-occupied property or a construction loan submits no
      figures and no tenants, whatever the form holds. */
  lemma NonIncomeProducingSubmitsNoFigures(initialData: Value, income: Value, expenses: Value, noi: Value,
                                           occupancy: Value, tenants: seq<Tenant>, recent: Value, planned: Value)
    requires Get(initialData, "propertyType") in {Str("land"), Str("owner-occupied")}
      || Get(initialData, "loanType") == Str("construction")
    ensures var data := Submitted(Holds(IncomeProducing, initialData), income, expenses, noi, occupancy, tenants, recent, planned);
      data.Keys <= {"recentImprovements", "plannedImprovements"}
  {
    NotIncomeProducing(initialData);
  }
}

=== FILE: quick_start.dfy ===
/**
 * The first wizard step (client/src/components/QuickStartForm.tsx): four
 * state fields seeded from `initialData`, the loan types offered, the
 * payload handed to `onContinue`, and when Continue is disabled.
 */
module QuickStart {
  import opened JsValue

  /** An entry of `loanTypes` (its icon left out). */
  datatype LoanTypeOption = LoanTypeOption(value: string, title: string, description: string)

  const LoanTypeOptions: seq<LoanTypeOption> := [
    LoanTypeOption("permanent-acquisition", "Permanent Acquisition", "Long-term financing for property purchase"),
    LoanTypeOption("permanent-refinance", "Permanent Refinance", "Refinance existing permanent loan"),
    LoanTypeOption("bridge-acquisition", "Bridge Acquisition", "Short-term financing for property purchase"),
    LoanTypeOption("bridge-refinance", "Bridge Refinance", "Short-term refinance with exit strategy"),
    LoanTypeOption("construction", "Construction", "Financing for new construction projects")
  ]

  /** The values a user can pick as the loan type. */
  function OfferedLoanTypes(): (values: seq<string>)
    ensures |values| == |LoanTypeOptions|
    ensures forall i | 0 <= i < |values| :: values[i] == LoanTypeOptions[i].value
  {
    seq(|LoanTypeOptions|, i requires 0 <= i < |LoanTypeOptions| => LoanTypeOptions[i].value)
  }

  /** Exactly five loan types are offered, in this order. */
  lemma FiveLoanTypes()
    ensures OfferedLoanTypes() == ["permanent-acquisition", "permanent-refinance",
                                   "bridge-acquisition", "bridge-refinance", "construction"]
  {
    var values := OfferedLoanTypes();
    assert values[0] == "permanent-acquisition" && values[1] == "permanent-refinance";
    assert values[2] == "bridge-acquisition" && values[3] == "bridge-refinance";
    assert values[4] == "construction";
  }

  /** `initialData?.[key] || ""` */
  function Seed(initialData: Value, key: string): Value {
    Or(Get(initialData, key), Str(""))
  }

  /** The object `handleSubmit` hands to `onContinue`. */
  function Payload(loanType: Value, loanAmount: Value, city: Value, state: Value): (data: Record)
    ensures data.Keys == {"loanType", "loanAmount", "propertyCity", "propertyState"}
    ensures data["loanType"] == loanType && data["loanAmount"] == loanAmount
    ensures data["propertyCity"] == city && data["propertyState"] == state
  {
    map["loanType" := loanType, "loanAmount" := loanAmount, "propertyCity" := city, "propertyState" := state]
  }

  /** Submitting an untouched form gives back each truthy initial value, and
      "" for each falsy or missing one. */
  lemma UntouchedRoundTrip(initialData: Value, key: string)
    requires key in {"loanType", "loanAmount", "propertyCity", "propertyState"}
    ensures var data := Payload(Seed(initialData, "loanType"), Seed(initialData, "loanAmount"),
                                Seed(initialData, "propertyCity"), Seed(initialData, "propertyState"));
      key in data
      && (!Falsy(Get(initialData, key)) ==> data[key] == Get(initialData, key))
      && (Falsy(Get(initialData, key)) ==> data[key] == Str(""))
  {
  }

  /** The disabled state of the Continue button. */
  predicate ContinueDisabled(loanType: Value, loanAmount: Value, city: Value, state: Value) {
    Falsy(loanType) || Falsy(loanAmount) || Falsy(city) || Falsy(state)
  }

  /** Continue is enabled exactly when every payload value is truthy. */
  lemma ContinueEnabledIff(loanType: Value, loanAmount: Value, city: Value, state: Value)
    ensures !ContinueDisabled(loanType, loanAmount, city, state) <==>
      forall k | k in Payload(loanType, loanAmount, city, state) ::
        !Falsy(Payload(loanType, loanAmount, city, state)[k])
  {
    var data := Payload(loanType, loanAmount, city, state);
    if ContinueDisabled(loanType, loanAmount, city, state) {
      if Falsy(loanType) { assert Falsy(data["loanType"]); }
      else if Falsy(loanAmount) { assert Falsy(data["loanAmount"]); }
      else if Falsy(city) { assert Falsy(data["propertyCity"]); }
      else { assert Falsy(data["propertyState"]); }
    }
  }

  /** The form's state: one field per `useState` hook. */
  class QuickStartForm {
    var loanType: Value
    var loanAmount: Value
    var city: Value
    var state: Value

    constructor(initialData: Value)
      ensures loanType == Seed(initialData, "loanType") && loanAmount == Seed(initialData, "loanAmount")
      ensures city == Seed(initialData, "propertyCity") && state == Seed(initialData, "propertyState")
    {
      loanType := Seed(initialData, "loanType");
      loanAmount := Seed(initialData, "loanAmount");
      city := Seed(initialData, "propertyCity");
      state := Seed(initialData, "propertyState");
    }

    method SetLoanType(v: string)
      modifies this
      ensures loanType == Str(v)
      ensures loanAmount == old(loanAmount) && city == old(city) && state == old(state)
    {
      loanType := Str(v);
    }

    method SetLoanAmount(v: string)
      modifies this
      ensures loanAmount == Str(v)
      ensures loanType == old(loanType) && city == old(city) && state == old(state)
    {
      loanAmount := Str(v);
    }

    method SetCity(v: string)
      modifies this
      ensures city == Str(v)
      ensures loanType == old(loanType) && loanAmount == old(loanAmount) && state == old(state)
    {
      city := Str(v);
    }

    method SetState(v: string)
      modifies this
      ensures state == Str(v)
      ensures loanType == old(loanType) && loanAmount == old(loanAmount) && city == old(city)
    {
      state := Str(v);
    }

    /** `handleSubmit`: the payload, with the city and state renamed. */
    method HandleSubmit() returns (data: Record)
      ensures data == Payload(loanType, loanAmount, city, state)
      ensures !ContinueDisabled(loanType, loanAmount, city, state) ==> forall k | k in data :: !Falsy(data[k])
    {
      data := map["loanType" := loanType, "loanAmount" := loanAmount, "propertyCity" := city, "propertyState" := state];
      ContinueEnabledIff(loanType, loanAmount, city, state);
    }

    predicate IsContinueDisabled()
      reads this
    {
      ContinueDisabled(loanType, loanAmount, city, state)
    }
  }
}

=== FILE: review_submit.dfy ===
/**
 * The review step (client/src/components/ReviewSubmitForm.tsx): everything
 * it shows is derived from the `data` prop — the missing-information list
 * that disables Submit, the status of the LTV and DSCR cards, the income
 * figures with their fallback, and the display formatting of loan types,
 * property types and amounts.
 */
module ReviewSubmit {
  import opened Wrappers
  import opened JsValue
  import opened JsNumber
  import opened FormValidation
  import Schema
  import PropertyPerformance

  /** The `data` prop, `{}` when it is not supplied. */
  function DataProp(data: Value): Value {
    if data.Undefined? then Obj(map[]) else data
  }

  /** `data.loanSpecifics || {}` */
  function LoanSpecificsOf(data: Value): Value {
    Or(Get(data, "loanSpecifics"), Obj(map[]))
  }

  /** `loanSpecifics.annualGrossIncome || data.annualGrossIncome` */
  function GrossIncome(data: Value): (income: Value)
    ensures !Falsy(Get(Get(data, "loanSpecifics"), "annualGrossIncome")) ==>
      income == Get(Get(data, "loanSpecifics"), "annualGrossIncome")
    ensures Falsy(Get(Get(data, "loanSpecifics"), "annualGrossIncome")) ==> income == Get(data, "annualGrossIncome")
  {
    Or(Get(LoanSpecificsOf(data), "annualGrossIncome"), Get(data, "annualGrossIncome"))
  }

  /** `loanSpecifics.annualOperatingExpenses || data.annualOperatingExpenses` */
  function OperatingExpenses(data: Value): (expenses: Value)
    ensures !Falsy(Get(Get(data, "loanSpecifics"), "annualOperatingExpenses")) ==>
      expenses == Get(Get(data, "loanSpecifics"), "annualOperatingExpenses")
    ensures Falsy(Get(Get(data, "loanSpecifics"), "annualOperatingExpenses")) ==>
      expenses == Get(data, "annualOperatingExpenses")
  {
    Or(Get(LoanSpecificsOf(data), "annualOperatingExpenses"), Get(data, "annualOperatingExpenses"))
  }

  /** Where the step-5 validator finds nothing, the review still shows the
      figures the income step submitted, through the top-level fallback. */
  lemma ReviewShowsSubmittedFigures(app: Record, income: Value, expenses: Value, noi: Value, occupancy: Value,
                                    tenants: seq<PropertyPerformance.Tenant>, recent: Value, planned: Value)
    requires "loanSpecifics" !in app
    ensures var data := Obj(app + PropertyPerformance.Submitted(true, income, expenses, noi, occupancy, tenants, recent, planned));
      GrossIncome(data) == income && OperatingExpenses(data) == expenses
  {
    PropertyPerformance.NoLoanSpecifics(true, income, expenses, noi, occupancy, tenants, recent, planned);
  }

  /** The three labels, in the order they are checked. */
  const MissingLabels: seq<string> := ["Loan Amount", "Property Type", "Property Value"]

  /** The labels of the three checks that failed, in the order checked. */
  function Chosen(amount: bool, propertyType: bool, value: bool): seq<string> {
    (if amount then ["Loan Amount"] else []) + (if propertyType then ["Property Type"] else [])
    + (if value then ["Property Value"] else [])
  }

  /** A label is listed exactly when its check failed. */
  lemma ChosenLabels(a: bool, b: bool, c: bool)
    ensures "Loan Amount" in Chosen(a, b, c) <==> a
    ensures "Property Type" in Chosen(a, b, c) <==> b
    ensures "Property Value" in Chosen(a, b, c) <==> c
  {
    assert "Loan Amount"[0] != "Property Type"[0] && "Loan Amount"[0] != "Property Value"[0];
    assert "Property Type"[9] != "Property Value"[9];
  }

  /** The listed labels keep the order of the full list. */
  lemma ChosenInOrder(a: bool, b: bool, c: bool)
    ensures IsSubsequence(Chosen(a, b, c), MissingLabels)
  {
    var first: seq<string> := if a then ["Loan Amount"] else [];
    var second: seq<string> := if b then ["Property Type"] else [];
    assert IsSubsequence([], MissingLabels[..0]);
    SubsequenceExtend([], MissingLabels[..0], "Loan Amount", a);
    assert MissingLabels[..0] + ["Loan Amount"] == MissingLabels[..1];
    assert [] + first == first;
    SubsequenceExtend(first, MissingLabels[..1], "Property Type", b);
    assert MissingLabels[..1] + ["Property Type"] == MissingLabels[..2];
    SubsequenceExtend(first + second, MissingLabels[..2], "Property Value", c);
    assert MissingLabels[..2] + ["Property Value"] == MissingLabels;
  }

  /** `missingFields`: a label for each of the loan amount, the property type
      and the property value that is falsy. */
  function MissingFields(data: Value): (missing: seq<string>)
    ensures "Loan Amount" in missing <==> Falsy(Get(data, "loanAmount"))
    ensures "Property Type" in missing <==> Falsy(Get(data, "propertyType"))
    ensures "Property Value" in missing <==> Falsy(Get(LoanSpecificsOf(data), "propertyValue"))
    ensures IsSubsequence(missing, MissingLabels)
  {
    var amount, propertyType := Falsy(Get(data, "loanAmount")), Falsy(Get(data, "propertyType"));
    var value := Falsy(Get(LoanSpecificsOf(data), "propertyValue"));
    ChosenLabels(amount, propertyType, value);
    ChosenInOrder(amount, propertyType, value);
    Chosen(amount, propertyType, value)
  }

  /** The Submit button's `disabled`. */
  predicate SubmitDisabled(data: Value) {
    |MissingFields(data)| > 0
  }

  /** The wizard page mounts the review step without `data`, so all three
      required values are listed as missing and Submit stays disabled. */
  lemma ReviewWithoutData()
    ensures var missing := MissingFields(DataProp(Undefined));
      "Loan Amount" in missing && "Property Type" in missing && "Property Value" in missing
    ensures SubmitDisabled(DataProp(Undefined))
  {
    var data := DataProp(Undefined);
    assert Get(data, "loanAmount") == Undefined;
    assert Get(data, "propertyType") == Undefined;
    assert Get(LoanSpecificsOf(data), "propertyValue") == Undefined;
    assert "Loan Amount" in MissingFields(data);
  }

  /** Submit is enabled exactly when the loan amount, the property type and
      the property value are all truthy. */
  lemma SubmitEnabledIff(data: Value)
    ensures !SubmitDisabled(data) <==>
      !Falsy(Get(data, "loanAmount")) && !Falsy(Get(data, "propertyType"))
      && !Falsy(Get(LoanSpecificsOf(data), "propertyValue"))
  {
    var missing := MissingFields(data);
    if |missing| > 0 {
      assert missing[0] in missing;
      assert missing[0] in MissingLabels by { SubsequenceMembers(missing, MissingLabels, missing[0]); }
    }
  }

  /** Every element of a subsequence is an element of the sequence. */
  lemma {:induction false} SubsequenceMembers<T>(sub: seq<T>, s: seq<T>, x: T)
    requires IsSubsequence(sub, s) && x in sub
    ensures x in s
    decreases |s|
  {
    if |s| > 0 {
      if |sub| > 0 && sub[|sub| - 1] == s[|s| - 1] {
        if x != s[|s| - 1] {
          assert sub == sub[..|sub| - 1] + [sub[|sub| - 1]];
          SubsequenceMembers(sub[..|sub| - 1], s[..|s| - 1], x);
        }
      } else {
        SubsequenceMembers(sub, s[..|s| - 1], x);
      }
      assert s == s[..|s| - 1] + [s[|s| - 1]];
    }
  }

  /** The `status` of a metric card. */
  datatype MetricStatus = Good | Neutral | Warning

  /** `data.calculatedX ? parseFloat(data.calculatedX) : null`, with NaN as
      None. */
  function Metric(data: Value, key: string): Option<real> {
    if Falsy(Get(data, key)) then None else ParseNumber(Get(data, key))
  }

  /** `ltvStatus`: the band of a truthy LTV, neutral for an absent, zero or
      unparsable one. */
  function LtvStatus(data: Value): (status: MetricStatus)
    ensures status == Good <==>
      (Metric(data, "calculatedLtv").Some? && Metric(data, "calculatedLtv").value != 0.0
       && Metric(data, "calculatedLtv").value <= 75.0)
    ensures status == Warning <==> Metric(data, "calculatedLtv").Some? && Metric(data, "calculatedLtv").value > 85.0
    ensures Metric(data, "calculatedLtv").None? ==> status == Neutral
  {
    match Metric(data, "calculatedLtv")
    case None => Neutral
    case Some(ltv) =>
      if ltv == 0.0 then Neutral
      else if ltv <= 75.0 then Good
      else if ltv <= 85.0 then Neutral
      else Warning
  }

  /** `dscrStatus`: the band of a truthy DSCR, neutral for an absent, zero or
      unparsable one. */
  function DscrStatus(data: Value): (status: MetricStatus)
    ensures status == Good <==> Metric(data, "calculatedDscr").Some? && Metric(data, "calculatedDscr").value >= 1.25
    ensures status == Warning <==>
      (Metric(data, "calculatedDscr").Some? && Metric(data, "calculatedDscr").value != 0.0
       && Metric(data, "calculatedDscr").value < 1.1)
    ensures Metric(data, "calculatedDscr").None? ==> status == Neutral
  {
    match Metric(data, "calculatedDscr")
    case None => Neutral
    case Some(dscr) =>
      if dscr == 0.0 then Neutral
      else if dscr >= 1.25 then Good
      else if dscr >= 1.1 then Neutral
      else Warning
  }

  /** Raising a truthy LTV never improves its status, and raising a truthy
      DSCR never worsens it. */
  lemma StatusBandsMonotone(low: real, high: real)
    requires low <= high && low != 0.0 && high != 0.0
    ensures var lo, hi := Obj(map["calculatedLtv" := Num(low)]), Obj(map["calculatedLtv" := Num(high)]);
      (LtvStatus(hi) == Good ==> LtvStatus(lo) == Good) && (LtvStatus(lo) == Warning ==> LtvStatus(hi) == Warning)
    ensures var lo, hi := Obj(map["calculatedDscr" := Num(low)]), Obj(map["calculatedDscr" := Num(high)]);
      (DscrStatus(lo) == Good ==> DscrStatus(hi) == Good) && (DscrStatus(hi) == Warning ==> DscrStatus(lo) == Warning)
  {
  }

  /** Whether any metric card is drawn. */
  predicate MetricCardsShown(data: Value) {
    !Falsy(Get(data, "calculatedLtv")) || !Falsy(Get(data, "calculatedDscr"))
    || !Falsy(Get(data, "calculatedMonthlyInterest"))
  }

  /** The application table has no `calculated…` columns. */
  lemma NoCalculatedColumns()
    ensures Schema.ColumnOf(Schema.LoanApplications, "calculatedLtv").None?
    ensures Schema.ColumnOf(Schema.LoanApplications, "calculatedDscr").None?
    ensures Schema.ColumnOf(Schema.LoanApplications, "calculatedMonthlyInterest").None?
  {
  }

  /** The server stores the metrics as `ltv`, `dscr` and `monthlyInterest`,
      while this form reads `calculatedLtv`, `calculatedDscr` and
      `calculatedMonthlyInterest`: for any stored application no metric card
      is drawn and both statuses are neutral. */
  lemma StoredApplicationShowsNoMetrics(row: Record)
    requires Schema.RowFits(Schema.LoanApplications, row)
    ensures !MetricCardsShown(Obj(row))
    ensures LtvStatus(Obj(row)) == Neutral && DscrStatus(Obj(row)) == Neutral
  {
    NoCalculatedColumns();
    assert "calculatedLtv" !in row && "calculatedDscr" !in row && "calculatedMonthlyInterest" !in row;
  }

  /** `formatLoanType`: `typeMap[type] || type`. */
  function FormatLoanType(loanType: string): (display: string)
    ensures display == loanType <==>
      loanType !in {"permanent-acquisition", "permanent-refinance", "bridge-acquisition", "bridge-refinance", "construction"}
  {
    match loanType
    case "permanent-acquisition" => "Permanent Acquisition"
    case "permanent-refinance" => "Permanent Refinance"
    case "bridge-acquisition" => "Bridge Acquisition"
    case "bridge-refinance" => "Bridge Refinance"
    case "construction" => "Construction"
    case _ => loanType
  }

  /** `formatPropertyType`: `typeMap[type] || type`. */
  function FormatPropertyType(propertyType: string): (display: string)
    ensures display == propertyType <==>
      propertyType !in {"multifamily", "office", "retail", "industrial", "mixed-use", "self-storage", "land"}
  {
    match propertyType
    case "multifamily" => "Multifamily"
    case "office" => "Office"
    case "retail" => "Retail"
    case "industrial" => "Industrial"
    case "mixed-use" => "Mixed Use"
    case "self-storage" => "Self Storage"
    case "land" => "Land"
    case _ => propertyType
  }

  /** `parseFloat(String(value).replace(/,/g, ""))`; None stands for NaN. A
      number's text holds no comma and reads back as the number; a date's
      text begins with the weekday's name. `numberText` and `dateText` give
      the texts of the numbers and dates inside an array. */
  function CurrencyNumber(v: Value, numberText: real -> string, dateText: int -> string): Option<real> {
    match v
    case Num(n) => Some(n)
    case Date(_) => None
    case _ => ParseFloat(RemoveCommas(Text(v, numberText, dateText)))
  }

  /** `formatCurrency`; `usd` stands for the whole-dollar `Intl.NumberFormat`
      formatter. */
  function FormatCurrency(v: Value, usd: real -> string, numberText: real -> string, dateText: int -> string)
    : (text: string)
    ensures CurrencyNumber(v, numberText, dateText).None? ==> text == "$0"
    ensures CurrencyNumber(v, numberText, dateText).Some? ==>
      text == usd(CurrencyNumber(v, numberText, dateText).value)
  {
    match CurrencyNumber(v, numberText, dateText)
    case None => "$0"
    case Some(x) => usd(x)
  }

  /** An amount typed with thousands separators is formatted as the number
      it spells, and so is a one-element array holding it. */
  lemma CurrencyOfText(s: string, usd: real -> string, numberText: real -> string, dateText: int -> string)
    requires |RemoveCommas(s)| >= 1 && AllDigits(RemoveCommas(s))
    ensures FormatCurrency(Str(s), usd, numberText, dateText) == usd(DigitsValue(RemoveCommas(s)) as real)
    ensures FormatCurrency(Arr([Str(s)]), usd, numberText, dateText) == usd(DigitsValue(RemoveCommas(s)) as real)
  {
    ParseDigits(RemoveCommas(s));
    assert Text(Str(s), numberText, dateText) == s;
    assert CurrencyNumber(Str(s), numberText, dateText) == ParseFloat(RemoveCommas(s));
    SingleTextElement(s, numberText, dateText);
    assert CurrencyNumber(Arr([Str(s)]), numberText, dateText) == ParseFloat(RemoveCommas(s));
  }

  /** A missing or empty amount is shown as "$0". */
  lemma CurrencyOfNothing(usd: real -> string, numberText: real -> string, dateText: int -> string)
    ensures FormatCurrency(Undefined, usd, numberText, dateText) == "$0"
    ensures FormatCurrency(Str(""), usd, numberText, dateText) == "$0"
  {
    assert Text(Str(""), numberText, dateText) == "";
    assert RemoveCommas("") == "";
    assert TrimStart("") == "";
    assert DigitRun("") == 0;
    assert Text(Undefined, numberText, dateText) == "undefined";
    UndefinedText();
  }

  lemma SingleTextElement(s: string, numberText: real -> string, dateText: int -> string)
    ensures Text(Arr([Str(s)]), numberText, dateText) == s
  {
    var a := Arr([Str(s)]);
    assert a.items[0] == Str(s);
    assert ElementsText(a, 1, numberText, dateText) == "";
    assert ElementsText(a, 0, numberText, dateText) == "" + s + "";
  }

  /** The text "undefined" does not read as a number. */
  lemma UndefinedText()
    ensures ParseFloat(RemoveCommas("undefined")) == None
  {
    var u := "undefined";
    assert RemoveCommas(u) == u by {
      RemoveCommasNoComma(u);
    }
    assert !IsJsWhitespace(u[0]);
    assert TrimStart(u) == u;
    assert DigitRun(u) == 0;
  }
}

=== FILE: routes.dfy ===
/**
 * The server's request handlers for loan applications and their documents.
 * Each handler reads the store, decides the response in a fixed order
 * (404 for a missing row, 403 for another user's row, 400 for a refused
 * body, then the write) and writes through `DatabaseStorage`.
 *
 * The authenticated user, generated keys, the clock and the outcomes of the
 * object-storage calls are parameters. A database refusal is the handler's
 * 500 response.
 */
module Routes {
  import opened Wrappers
  import opened JsValue
  import opened JsNumber
  import opened Schema
  import opened Storage
  import opened Metrics

  /** An HTTP response: the status code and the JSON body. */
  datatype Reply = Reply(status: nat, body: Value)

  function Message(status: nat, text: string): Reply {
    Reply(status, Obj(map["message" := Str(text)]))
  }

  /** `application.userId === req.user.claims.sub` */
  predicate Owns(row: Record, user: string) {
    HasValue(row, "userId", Str(user))
  }

  function RowsJson(rows: seq<Record>): (items: seq<Value>)
    ensures |items| == |rows|
    ensures forall i | 0 <= i < |rows| :: items[i] == Obj(rows[i])
  {
    seq(|rows|, i requires 0 <= i < |rows| => Obj(rows[i]))
  }

  /** The JSON list of selected rows holds those rows and no others. */
  lemma RowsJsonMembers(rows: seq<Record>, table: map<string, Record>, col: string, v: Value)
    requires forall x | x in rows :: x in table.Values && HasValue(x, col, v)
    ensures forall item | item in RowsJson(rows) :: item.Obj? && item.fields in table.Values && HasValue(item.fields, col, v)
    ensures forall x | x in rows :: Obj(x) in RowsJson(rows)
  {
    var items := RowsJson(rows);
    forall item | item in items ensures item.Obj? && item.fields in table.Values && HasValue(item.fields, col, v) {
      var i :| 0 <= i < |rows| && items[i] == item;
      assert rows[i] in rows;
    }
    forall x | x in rows ensures Obj(x) in items {
      var i :| 0 <= i < |rows| && rows[i] == x;
      assert items[i] == Obj(x);
    }
  }

  // ------------------------------------------------------- applications

  /** The body the create handler validates: the client's fields with the
      signed-in user as `userId`, whatever the client sent there. */
  function CreateCandidate(body: Record, user: string): Record {
    body["userId" := Str(user)]
  }

  /** The values the create handler inserts: the validated body with the
      computed metrics over it. */
  function CreateValues(body: Record, user: string, pow: Pow): Record
    requires PowGrows(pow)
  {
    CreateCandidate(body, user) + LoanMetrics(CreateCandidate(body, user), pow)
  }

  /** The values the update handler writes: the validated changes with the
      metrics computed over the stored row merged with those changes. */
  function PatchValues(existing: Record, body: Record, pow: Pow): Record
    requires PowGrows(pow)
  {
    body + LoanMetrics(existing + body, pow)
  }

  /** The metrics are insert keys of the application schema. */
  lemma MetricsInsertable(data: Record, pow: Pow)
    requires PowGrows(pow)
    ensures forall k | k in LoanMetrics(data, pow) :: InsertKey(LoanApplications, k)
  {
    MetricKeys(data, pow);
    ApplicationInsertKeys();
  }

  /** What the create handler inserts: the signed-in user, each computed
      metric in place of any client value, and every other field as sent. */
  lemma CreateValuesMeaning(body: Record, user: string, pow: Pow, k: string)
    requires PowGrows(pow)
    ensures "userId" in CreateValues(body, user, pow)
      && CreateValues(body, user, pow)["userId"] == Str(user)
    ensures k in LoanMetrics(CreateCandidate(body, user), pow) ==>
      k in CreateValues(body, user, pow)
      && CreateValues(body, user, pow)[k] == LoanMetrics(CreateCandidate(body, user), pow)[k]
    ensures k !in LoanMetrics(CreateCandidate(body, user), pow) && k != "userId" ==>
      (k in CreateValues(body, user, pow) <==> k in body)
      && (k in body ==> CreateValues(body, user, pow)[k] == body[k])
  {
    MetricKeys(CreateCandidate(body, user), pow);
  }

  /** The update handler writes the client's changes and the metrics, and
      nothing else of the stored row; the metrics see the stored row
      overlaid with the changes. */
  lemma PatchValuesMeaning(existing: Record, body: Record, pow: Pow, k: string)
    requires PowGrows(pow)
    ensures k in PatchValues(existing, body, pow) <==> k in body || k in LoanMetrics(existing + body, pow)
    ensures k in LoanMetrics(existing + body, pow) ==>
      PatchValues(existing, body, pow)[k] == LoanMetrics(existing + body, pow)[k]
    ensures k in body && k !in LoanMetrics(existing + body, pow) ==>
      PatchValues(existing, body, pow)[k] == body[k]
  {
  }

  /** A row with a value its column does not take is refused. */
  lemma ColumnRefuses(t: Table, row: Record, k: string)
    requires k in row && ColumnOf(t, k).Some?
    requires !StoredFits(ColumnOf(t, k).value.kind, row[k])
    ensures !RowFits(t, row)
  {
  }

  /** The LTV text of a positive amount and value is already what a
      numeric(5, 2) column keeps. */
  lemma LtvTextKept(a: real, v: real)
    requires a > 0.0 && v > 0.0
    ensures var m := Str(ToFixed(LtvPercent(a, v), 2)); StoredValue(Numeric(5, 2), m) == m
  {
    assert a / v > 0.0;
    FixedTextKept(LtvPercent(a, v), 5, 2);
  }

  /** The DSCR text, a ratio or "Infinity", is kept as it is by a
      numeric(5, 2) column. */
  lemma DscrTextKept(noi: real, a: real, r: real, n: real, pow: Pow)
    requires PowGrows(pow) && noi > 0.0 && a > 0.0 && r > 0.0 && n > 0.0
    ensures var m := Str(DscrText(noi, a, r, n, pow)); StoredValue(Numeric(5, 2), m) == m
  {
    var service := MonthlyPayment(a, r, n, pow) * 12.0;
    if service == 0.0 {
      InfinityDoesNotFit(5, 2);
    } else {
      PaymentNonNegative(a, r, n, pow);
      assert noi / service > 0.0;
      FixedTextKept(noi / service, 5, 2);
    }
  }

  /** Each computed metric is already what its column keeps. */
  lemma LtvKept(data: Record, pow: Pow)
    requires PowGrows(pow) && "ltv" in LoanMetrics(data, pow)
    ensures StoredValue(Numeric(5, 2), LoanMetrics(data, pow)["ltv"]) == LoanMetrics(data, pow)["ltv"]
  {
    LtvEntry(data, pow);
    var i := ReadInputs(data);
    LtvTextKept(i.loanAmount.value, i.propertyValue.value);
  }

  lemma InterestKept(data: Record, pow: Pow)
    requires PowGrows(pow) && "monthlyInterest" in LoanMetrics(data, pow)
    ensures StoredValue(Numeric(12, 2), LoanMetrics(data, pow)["monthlyInterest"])
      == LoanMetrics(data, pow)["monthlyInterest"]
  {
    InterestEntry(data, pow);
    var i := ReadInputs(data);
    FixedTextKept(FirstMonthInterest(i.loanAmount.value, i.interestRate.value), 12, 2);
  }

  lemma DscrKept(data: Record, pow: Pow)
    requires PowGrows(pow) && "dscr" in LoanMetrics(data, pow)
    ensures StoredValue(Numeric(5, 2), LoanMetrics(data, pow)["dscr"]) == LoanMetrics(data, pow)["dscr"]
  {
    DscrRule(data, pow);
    var i := ReadInputs(data);
    DscrTextKept(i.annualNOI.value, i.loanAmount.value, i.interestRate.value, i.loanTermYears.value, pow);
  }

  /** The column of scale 2 that holds metric k keeps the metric as it is,
      so the inserted row holds the text the metrics computed. */
  lemma MetricInRow(body: Record, user: string, pow: Pow, id: string, now: int, k: string, kind: Kind)
    requires PowGrows(pow)
    requires k in LoanMetrics(CreateCandidate(body, user), pow)
    requires ColumnOf(LoanApplications, k) == Some(Column(kind, false, NoDefault))
    requires StoredValue(kind, LoanMetrics(CreateCandidate(body, user), pow)[k])
      == LoanMetrics(CreateCandidate(body, user), pow)[k]
    ensures var row := InsertRow(LoanApplications, CreateValues(body, user, pow), id, now);
      k in row && row[k] == LoanMetrics(CreateCandidate(body, user), pow)[k]
  {
    CreateValuesMeaning(body, user, pow, k);
    MetricKeys(CreateCandidate(body, user), pow);
    InsertRowMeaning(LoanApplications, CreateValues(body, user, pow), id, now, k);
  }

  /** A computed metric reaches the inserted row unchanged: it is `toFixed(2)`
      text of a positive number, already at its column's scale, or
      "Infinity", which the column refuses as it is. */
  lemma MetricInserted(body: Record, user: string, pow: Pow, id: string, now: int, k: string)
    requires PowGrows(pow)
    requires k in LoanMetrics(CreateCandidate(body, user), pow)
    ensures var row := InsertRow(LoanApplications, CreateValues(body, user, pow), id, now);
      k in row && row[k] == LoanMetrics(CreateCandidate(body, user), pow)[k]
  {
    var c := CreateCandidate(body, user);
    MetricKeys(c, pow);
    RatioColumns();
    if k == "ltv" {
      LtvKept(c, pow);
      MetricInRow(body, user, pow, id, now, "ltv", Numeric(5, 2));
    } else if k == "monthlyInterest" {
      InterestKept(c, pow);
      MetricInRow(body, user, pow, id, now, "monthlyInterest", Numeric(12, 2));
    } else {
      DscrKept(c, pow);
      MetricInRow(body, user, pow, id, now, "dscr", Numeric(5, 2));
    }
  }

  /** Text `toFixed(2)` printed for a number that rounds to 1000 or more
      does not fit numeric(5, 2). */
  lemma FixedTextTooWide(x: real)
    requires Rounded(x, 2) >= 1000.0
    ensures !StoredFits(Numeric(5, 2), Str(ToFixed(x, 2)))
  {
    FixedTextFits(x, 5, 2);
    assert Pow10(3) == 1000;
  }

  /** An LTV that rounds to 1000% or more does not fit `ltv`'s
      numeric(5, 2): the database refuses the new application. */
  lemma OversizedLtvRefused(body: Record, user: string, pow: Pow, id: string, now: int)
    requires PowGrows(pow)
    requires var i := ReadInputs(CreateCandidate(body, user));
      Positive(i.loanAmount) && Positive(i.propertyValue)
      && Rounded(LtvPercent(i.loanAmount.value, i.propertyValue.value), 2) >= 1000.0
    ensures !RowFits(LoanApplications, InsertRow(LoanApplications, CreateValues(body, user, pow), id, now))
  {
    var c := CreateCandidate(body, user);
    var i := ReadInputs(c);
    LtvEntry(c, pow);
    MetricInserted(body, user, pow, id, now, "ltv");
    var x := LtvPercent(i.loanAmount.value, i.propertyValue.value);
    FixedTextTooWide(x);
    var row := InsertRow(LoanApplications, CreateValues(body, user, pow), id, now);
    RatioColumns();
    ColumnRefuses(LoanApplications, row, "ltv");
  }

  /** A payment that rounds to zero cents makes DSCR "Infinity", which no
      numeric(5, 2) column takes: the database refuses the new application. */
  lemma InfiniteDscrRefused(body: Record, user: string, pow: Pow, id: string, now: int)
    requires PowGrows(pow)
    requires var i := ReadInputs(CreateCandidate(body, user));
      Positive(i.annualNOI) && Positive(i.loanAmount) && Positive(i.interestRate) && Positive(i.loanTermYears)
      && MonthlyPayment(i.loanAmount.value, i.interestRate.value, i.loanTermYears.value, pow) == 0.0
    ensures !RowFits(LoanApplications, InsertRow(LoanApplications, CreateValues(body, user, pow), id, now))
  {
    var c := CreateCandidate(body, user);
    DscrRule(c, pow);
    MetricInserted(body, user, pow, id, now, "dscr");
    InfinityDoesNotFit(5, 2);
    RatioColumns();
    ColumnRefuses(LoanApplications, InsertRow(LoanApplications, CreateValues(body, user, pow), id, now), "dscr");
  }

  /** POST /api/applications */
  method PostApplication(store: DatabaseStorage, user: string, body: Record, id: string, now: int, pow: Pow)
    returns (reply: Reply)
    requires store.Valid() && PowGrows(pow)
    modifies store
    ensures store.Valid()
    ensures !InsertSchemaAccepts(LoanApplications, CreateCandidate(body, user), false) ==>
      reply == Message(400, "Invalid request data") && unchanged(store)
    ensures InsertSchemaAccepts(LoanApplications, CreateCandidate(body, user), false) ==>
      var row := InsertRow(LoanApplications, CreateValues(body, user, pow), id, now);
      if id !in old(store.applications) && RowFits(LoanApplications, row)
      then reply == Reply(200, Obj(row))
        && store.applications == old(store.applications)[id := row] && store.documents == old(store.documents)
      else reply == Message(500, "Failed to create application") && unchanged(store)
  {
    var candidate := body["userId" := Str(user)];
    if !InsertSchemaAccepts(LoanApplications, candidate, false) {
      return Message(400, "Invalid request data");
    }
    var calculatedMetrics := CalculateLoanMetrics(candidate, pow);
    var applicationData := candidate + calculatedMetrics;
    MetricsInsertable(candidate, pow);
    var created := store.CreateApplication(applicationData, id, now);
    match created
    case Ok(row) => reply := Reply(200, Obj(row));
    case Err(_) => reply := Message(500, "Failed to create application");
  }

  /** GET /api/applications */
  method GetApplications(store: DatabaseStorage, user: string) returns (reply: Reply)
    requires store.Valid()
    ensures reply.status == 200 && reply.body.Arr?
    ensures |reply.body.items| == |Matching(store.applications, "userId", Str(user))|
    ensures forall v | v in reply.body.items :: v.Obj? && v.fields in store.applications.Values && Owns(v.fields, user)
    ensures forall k | k in store.applications && Owns(store.applications[k], user) ::
      Obj(store.applications[k]) in reply.body.items
    ensures forall i, j | 0 <= i < j < |reply.body.items| ::
      reply.body.items[i].Obj? && reply.body.items[j].Obj?
      && TimeOf(reply.body.items[i].fields, "updatedAt") >= TimeOf(reply.body.items[j].fields, "updatedAt")
  {
    var rows := store.GetUserApplications(user);
    RowsJsonMembers(rows, store.applications, "userId", Str(user));
    reply := Reply(200, Arr(RowsJson(rows)));
  }

  /** GET /api/applications/:id */
  method GetApplication(store: DatabaseStorage, appId: string, user: string) returns (reply: Reply)
    requires store.Valid()
    ensures appId !in store.applications ==> reply == Message(404, "Application not found")
    ensures appId in store.applications && !Owns(store.applications[appId], user) ==> reply == Message(403, "Forbidden")
    ensures appId in store.applications && Owns(store.applications[appId], user) ==>
      reply == Reply(200, Obj(store.applications[appId]))
  {
    var application := store.GetApplication(appId);
    if application.None? {
      return Message(404, "Application not found");
    }
    if !Owns(application.value, user) {
      return Message(403, "Forbidden");
    }
    reply := Reply(200, Obj(application.value));
  }

  /** PATCH /api/applications/:id */
  method PatchApplication(store: DatabaseStorage, appId: string, user: string, body: Record, now: int, pow: Pow)
    returns (reply: Reply)
    requires store.Valid() && PowGrows(pow)
    modifies store
    ensures store.Valid()
    ensures appId !in old(store.applications) ==>
      reply == Message(404, "Application not found") && unchanged(store)
    ensures appId in old(store.applications) && !Owns(old(store.applications)[appId], user) ==>
      reply == Message(403, "Forbidden") && unchanged(store)
    ensures (appId in old(store.applications) && Owns(old(store.applications)[appId], user)
             && ("userId" in body || !InsertSchemaAccepts(LoanApplications, body, true))) ==>
      reply == Message(400, "Invalid request data") && unchanged(store)
    ensures (appId in old(store.applications) && Owns(old(store.applications)[appId], user)
             && "userId" !in body && InsertSchemaAccepts(LoanApplications, body, true)) ==>
      var existing := old(store.applications)[appId];
      var row := UpdateRow(LoanApplications, existing, PatchValues(existing, body, pow)["updatedAt" := Date(now)]);
      if RowFits(LoanApplications, row)
      then reply == Reply(200, Obj(row))
        && store.applications == old(store.applications)[appId := row] && store.documents == old(store.documents)
      else reply == Message(500, "Failed to update application") && unchanged(store)
  {
    var application := store.GetApplication(appId);
    if application.None? {
      return Message(404, "Application not found");
    }
    if !Owns(application.value, user) {
      return Message(403, "Forbidden");
    }
    if "userId" in body {
      return Message(400, "Invalid request data");
    }
    if !InsertSchemaAccepts(LoanApplications, body, true) {
      return Message(400, "Invalid request data");
    }
    var mergedData := application.value + body;
    var calculatedMetrics := CalculateLoanMetrics(mergedData, pow);
    var updateData := body + calculatedMetrics;
    MetricsInsertable(mergedData, pow);
    var updated := store.UpdateApplication(appId, updateData, now);
    match updated
    case Ok(Some(row)) => reply := Reply(200, Obj(row));
    case Ok(None) => assert false;
    case Err(_) => reply := Message(500, "Failed to update application");
  }

  /** DELETE /api/applications/:id */
  method DeleteApplication(store: DatabaseStorage, appId: string, user: string) returns (reply: Reply)
    requires store.Valid()
    modifies store
    ensures store.Valid()
    ensures appId !in old(store.applications) ==>
      reply == Message(404, "Application not found") && unchanged(store)
    ensures appId in old(store.applications) && !Owns(old(store.applications)[appId], user) ==>
      reply == Message(403, "Forbidden") && unchanged(store)
    ensures appId in old(store.applications) && Owns(old(store.applications)[appId], user) ==>
      reply == Message(200, "Application deleted successfully")
      && store.applications == old(store.applications) - {appId}
      && store.documents == WithoutDocumentsOf(old(store.documents), appId)
  {
    var application := store.GetApplication(appId);
    if application.None? {
      return Message(404, "Application not found");
    }
    if !Owns(application.value, user) {
      return Message(403, "Forbidden");
    }
    store.DeleteApplication(appId);
    reply := Message(200, "Application deleted successfully");
  }

  // ---------------------------------------------------------- documents

  /** The file multer hands over: its original name, MIME type and size in
      bytes. */
  datatype Upload = Upload(originalName: string, mimetype: string, size: nat)

  /** `file.mimetype.split("/")[1]`: undefined when there is no slash. */
  function FileTypeOf(mimetype: string): Value {
    var parts := Split(mimetype, '/');
    if |parts| > 1 then Str(parts[1]) else Undefined
  }

  /** `${(file.size / 1024).toFixed(1)} KB` */
  function FileSizeText(size: nat): string {
    ToFixed(size as real / 1024.0, 1) + " KB"
  }

  /** `${privateDir}/${applicationId}/${Date.now()}-${originalname}` */
  function PrivatePath(privateDir: string, appId: string, now: nat, originalName: string): string {
    privateDir + "/" + appId + "/" + NatToString(now) + "-" + originalName
  }

  /** The document the upload handler builds: the owner, name, type and a
      status of "uploaded" or "pending", then each optional field only when
      it has a value. */
  function DocumentData(appId: string, user: string, name: Value, docType: Value,
                        file: Option<Upload>, storagePath: Option<string>, now: int): Record
  {
    var required := map["applicationId" := Str(appId), "userId" := Str(user), "name" := name,
      "type" := docType, "status" := Str(if file.Some? then "uploaded" else "pending")];
    var withType := if file.Some? && file.value.mimetype != ""
      then required["fileType" := FileTypeOf(file.value.mimetype)] else required;
    var withSize := if file.Some? && file.value.size != 0
      then withType["fileSize" := Str(FileSizeText(file.value.size))] else withType;
    var withPath := if storagePath.Some? && storagePath.value != ""
      then withSize["storagePath" := Str(storagePath.value)] else withSize;
    if file.Some? then withPath["uploadedAt" := Date(now)] else withPath
  }

  /** The built document is "uploaded", with an upload time, exactly when a
      file came with the request, and "pending" otherwise. */
  lemma DocumentDataMeaning(appId: string, user: string, name: Value, docType: Value,
                            file: Option<Upload>, storagePath: Option<string>, now: int)
    ensures var d := DocumentData(appId, user, name, docType, file, storagePath, now);
      "status" in d && (d["status"] == Str("uploaded") <==> file.Some?)
      && (d["status"] == Str("pending") <==> file.None?)
      && ("uploadedAt" in d <==> file.Some?)
  {
    var required := map["applicationId" := Str(appId), "userId" := Str(user), "name" := name,
      "type" := docType, "status" := Str(if file.Some? then "uploaded" else "pending")];
    var d := DocumentData(appId, user, name, docType, file, storagePath, now);
    assert "uploadedAt" !in required;
    assert "status" in d && d["status"] == required["status"];
  }

  /** The built document keeps the application, owner, name and type it was
      given. */
  lemma DocumentDataKeeps(appId: string, user: string, name: Value, docType: Value,
                          file: Option<Upload>, storagePath: Option<string>, now: int)
    ensures var d := DocumentData(appId, user, name, docType, file, storagePath, now);
      "applicationId" in d && d["applicationId"] == Str(appId) && "userId" in d && d["userId"] == Str(user)
      && "name" in d && d["name"] == name && "type" in d && d["type"] == docType
  {
    var added := {"fileType", "fileSize", "storagePath", "uploadedAt"};
    assert "applicationId" !in added && "userId" !in added && "name" !in added && "type" !in added;
  }

  /** The built document carries a storage path exactly when a non-empty
      one was given. */
  lemma DocumentDataStoragePath(appId: string, user: string, name: Value, docType: Value,
                                file: Option<Upload>, storagePath: Option<string>, now: int)
    ensures "storagePath" in DocumentData(appId, user, name, docType, file, storagePath, now) <==>
      storagePath.Some? && storagePath.value != ""
  {
    var required := map["applicationId" := Str(appId), "userId" := Str(user), "name" := name,
      "type" := docType, "status" := Str(if file.Some? then "uploaded" else "pending")];
    assert "storagePath" !in required;
  }

  /** The built document uses only keys the document schema takes. */
  lemma DocumentDataKeys(appId: string, user: string, name: Value, docType: Value,
                         file: Option<Upload>, storagePath: Option<string>, now: int)
    ensures forall k | k in DocumentData(appId, user, name, docType, file, storagePath, now) :: InsertKey(Documents, k)
  {
    var d := DocumentData(appId, user, name, docType, file, storagePath, now);
    assert d.Keys <= {"applicationId", "userId", "name", "type", "status", "fileType", "fileSize",
      "storagePath", "uploadedAt"};
    forall k | k in d ensures InsertKey(Documents, k) {
      DocumentInsertKeys(k);
    }
  }

  /** Builds the document row to insert, field by field. */
  method BuildDocumentData(appId: string, user: string, name: Value, docType: Value,
                           file: Option<Upload>, storagePath: Option<string>, now: int)
    returns (documentData: Record)
    ensures documentData == DocumentData(appId, user, name, docType, file, storagePath, now)
  {
    documentData := map["applicationId" := Str(appId), "userId" := Str(user), "name" := name,
      "type" := docType, "status" := Str(if file.Some? then "uploaded" else "pending")];
    if file.Some? && file.value.mimetype != "" {
      documentData := documentData["fileType" := FileTypeOf(file.value.mimetype)];
    }
    if file.Some? && file.value.size != 0 {
      documentData := documentData["fileSize" := Str(FileSizeText(file.value.size))];
    }
    if storagePath.Some? && storagePath.value != "" {
      documentData := documentData["storagePath" := Str(storagePath.value)];
    }
    // `storageUrl` is never set: the handler leaves it null.
    if file.Some? {
      documentData := documentData["uploadedAt" := Date(now)];
    }
  }

  /** Where the upload handler stores a file: nowhere without a file. */
  function UploadPath(privateDir: string, appId: string, now: nat, file: Option<Upload>): Option<string> {
    if file.Some? then Some(PrivatePath(privateDir, appId, now, file.value.originalName)) else None
  }

  /** The document the upload handler builds from a request. */
  function RequestDocument(appId: string, user: string, body: Record, file: Option<Upload>,
                           privateDir: string, now: nat): Record {
    DocumentData(appId, user, Get(Obj(body), "name"), Get(Obj(body), "type"), file,
      UploadPath(privateDir, appId, now, file), now)
  }

  /** The row inserted for a built document belongs to its application. */
  lemma DocumentParent(appId: string, user: string, name: Value, docType: Value,
                       file: Option<Upload>, storagePath: Option<string>, docId: string, now: int)
    ensures ParentOf(InsertRow(Documents, DocumentData(appId, user, name, docType, file, storagePath, now), docId, now)) == appId
  {
    var data := DocumentData(appId, user, name, docType, file, storagePath, now);
    DocumentDataKeeps(appId, user, name, docType, file, storagePath, now);
    assert ColumnOf(Documents, "applicationId").Some?;
    InsertRowMeaning(Documents, data, docId, now, "applicationId");
  }

  /** POST /api/applications/:id/documents. `privateDir` is the configured
      private directory ("" when unset); `uploadOk` is whether the object
      store took the file. */
  method PostDocument(store: DatabaseStorage, appId: string, user: string, body: Record,
                      file: Option<Upload>, privateDir: string, uploadOk: bool,
                      docId: string, now: nat)
    returns (reply: Reply)
    requires store.Valid()
    modifies store
    ensures store.Valid()
    ensures appId !in old(store.applications) ==>
      reply == Message(404, "Application not found") && unchanged(store)
    ensures appId in old(store.applications) && !Owns(old(store.applications)[appId], user) ==>
      reply == Message(403, "Forbidden") && unchanged(store)
    ensures (appId in old(store.applications) && Owns(old(store.applications)[appId], user)
             && (Falsy(Get(Obj(body), "name")) || Falsy(Get(Obj(body), "type")))) ==>
      reply == Message(400, "Document name and type are required") && unchanged(store)
    ensures (appId in old(store.applications) && Owns(old(store.applications)[appId], user)
             && !Falsy(Get(Obj(body), "name")) && !Falsy(Get(Obj(body), "type"))) ==>
      if file.Some? && privateDir == "" then
        reply == Message(500, "Object storage is not configured") && unchanged(store)
      else if file.Some? && !uploadOk then
        reply == Message(500, "Failed to upload file to storage") && unchanged(store)
      else
        var data := RequestDocument(appId, user, body, file, privateDir, now);
        if !InsertSchemaAccepts(Documents, data, false) then
          reply == Message(400, "Invalid document data") && unchanged(store)
        else
          var row := InsertRow(Documents, data, docId, now);
          if docId !in old(store.documents) && RowFits(Documents, row)
          then reply == Reply(200, Obj(row))
            && store.documents == old(store.documents)[docId := row] && store.applications == old(store.applications)
          else reply == Message(500, "Failed to upload document") && unchanged(store)
  {
    var application := store.GetApplication(appId);
    if application.None? {
      return Message(404, "Application not found");
    }
    if !Owns(application.value, user) {
      return Message(403, "Forbidden");
    }
    var name := Get(Obj(body), "name");
    var docType := Get(Obj(body), "type");
    if Falsy(name) || Falsy(docType) {
      return Message(400, "Document name and type are required");
    }
    var storagePath: Option<string> := None;
    if file.Some? {
      if privateDir == "" {
        return Message(500, "Object storage is not configured");
      }
      var privatePath := PrivatePath(privateDir, appId, now, file.value.originalName);
      if !uploadOk {
        return Message(500, "Failed to upload file to storage");
      }
      storagePath := Some(privatePath);
    }
    assert storagePath == UploadPath(privateDir, appId, now, file);
    var documentData := BuildDocumentData(appId, user, name, docType, file, storagePath, now);
    if !InsertSchemaAccepts(Documents, documentData, false) {
      return Message(400, "Invalid document data");
    }
    DocumentParent(appId, user, name, docType, file, storagePath, docId, now);
    var created := store.CreateDocument(documentData, docId, now);
    match created
    case Ok(row) => reply := Reply(200, Obj(row));
    case Err(_) => reply := Message(500, "Failed to upload document");
  }

  /** GET /api/applications/:id/documents */
  method GetDocuments(store: DatabaseStorage, appId: string, user: string) returns (reply: Reply)
    requires store.Valid()
    ensures appId !in store.applications ==> reply == Message(404, "Application not found")
    ensures appId in store.applications && !Owns(store.applications[appId], user) ==> reply == Message(403, "Forbidden")
    ensures appId in store.applications && Owns(store.applications[appId], user) ==>
      reply.status == 200 && reply.body.Arr?
      && |reply.body.items| == |Matching(store.documents, "applicationId", Str(appId))|
      && (forall v | v in reply.body.items :: v.Obj? && v.fields in store.documents.Values
            && HasValue(v.fields, "applicationId", Str(appId)))
      && (forall k | k in store.documents && HasValue(store.documents[k], "applicationId", Str(appId)) ::
            Obj(store.documents[k]) in reply.body.items)
      && (forall i, j | 0 <= i < j < |reply.body.items| ::
            reply.body.items[i].Obj? && reply.body.items[j].Obj?
            && TimeOf(reply.body.items[i].fields, "createdAt") >= TimeOf(reply.body.items[j].fields, "createdAt"))
  {
    var application := store.GetApplication(appId);
    if application.None? {
      return Message(404, "Application not found");
    }
    if !Owns(application.value, user) {
      return Message(403, "Forbidden");
    }
    var rows := store.GetApplicationDocuments(appId);
    RowsJsonMembers(rows, store.documents, "applicationId", Str(appId));
    reply := Reply(200, Arr(RowsJson(rows)));
  }

  /** DELETE /api/documents/:id. `deleteOk` is whether the object store
      removed the file. The file goes first; the row only after it. */
  method DeleteDocument(store: DatabaseStorage, docId: string, user: string, deleteOk: bool) returns (reply: Reply)
    requires store.Valid()
    modifies store
    ensures store.Valid()
    ensures docId !in old(store.documents) ==>
      reply == Message(404, "Document not found") && unchanged(store)
    ensures docId in old(store.documents) && !Owns(old(store.documents)[docId], user) ==>
      reply == Message(403, "Forbidden") && unchanged(store)
    ensures (docId in old(store.documents) && Owns(old(store.documents)[docId], user)
             && !Falsy(Get(Obj(old(store.documents)[docId]), "storagePath")) && !deleteOk) ==>
      reply == Message(500, "Failed to delete file from storage") && unchanged(store)
    ensures (docId in old(store.documents) && Owns(old(store.documents)[docId], user)
             && (Falsy(Get(Obj(old(store.documents)[docId]), "storagePath")) || deleteOk)) ==>
      reply == Message(200, "Document deleted successfully")
      && store.documents == old(store.documents) - {docId} && store.applications == old(store.applications)
  {
    var document := store.GetDocumentById(docId);
    if document.None? {
      return Message(404, "Document not found");
    }
    if !Owns(document.value, user) {
      return Message(403, "Forbidden");
    }
    if !Falsy(Get(Obj(document.value), "storagePath")) {
      if !deleteOk {
        return Message(500, "Failed to delete file from storage");
      }
    }
    store.DeleteDocument(docId);
    reply := Message(200, "Document deleted successfully");
  }
}

=== FILE: schema.dfy ===
/**
 * The two tables the loan wizard stores (`loan_applications` and `documents`):
 * their columns, defaults and constraints, the insert schemas derived from
 * them, and what the database does with a row written to them.
 *
 * A row is a record keyed by the column's property name; a column holding
 * SQL NULL is absent from the record.
 */
module Schema {
  import opened Wrappers
  import opened JsValue
  import opened JsNumber

  datatype Table = LoanApplications | Documents

  /** The SQL type of a column as the application sees it. */
  datatype Kind =
    | Text                                   // varchar, text
    | Numeric(precision: nat, scale: nat)    // decimal(p, s), read and written as text
    | Boolean
    | Json                                   // jsonb
    | Timestamp

  /** A column default: none, a constant, the current time or a fresh UUID. */
  datatype Default = NoDefault | Constant(v: Value) | Now | RandomId

  datatype Column = Column(kind: Kind, notNull: bool, default: Default)

  /** The columns of `loan_applications`. */
  function ApplicationColumn(name: string): Option<Column> {
    match name
    case "id" => Some(Column(Text, true, RandomId))
    case "userId" => Some(Column(Text, true, NoDefault))
    case "createdAt" => Some(Column(Timestamp, false, Now))
    case "updatedAt" => Some(Column(Timestamp, false, Now))
    case "status" => Some(Column(Text, true, Constant(Str("draft"))))
    case "ltv" => Some(Column(Numeric(5, 2), false, NoDefault))
    case "dscr" => Some(Column(Numeric(5, 2), false, NoDefault))
    case "monthlyInterest" => Some(Column(Numeric(12, 2), false, NoDefault))
    case "loanType" => Some(Column(Text, true, NoDefault))
    case "loanAmount" => Some(Column(Numeric(15, 2), false, NoDefault))
    case "propertyCity" => Some(Column(Text, false, NoDefault))
    case "propertyState" => Some(Column(Text, false, NoDefault))
    case "propertyName" => Some(Column(Text, false, NoDefault))
    case "propertyAddress" => Some(Column(Text, false, NoDefault))
    case "propertyType" => Some(Column(Text, false, NoDefault))
    case "squareFootage" => Some(Column(Text, false, NoDefault))
    case "units" => Some(Column(Text, false, NoDefault))
    case "yearBuilt" => Some(Column(Text, false, NoDefault))
    case "occupancy" => Some(Column(Numeric(5, 2), false, NoDefault))
    case "entityName" => Some(Column(Text, false, NoDefault))
    case "borrowerType" => Some(Column(Text, false, NoDefault))
    case "contactEmail" => Some(Column(Text, false, NoDefault))
    case "contactPhone" => Some(Column(Text, false, NoDefault))
    case "yearsExperience" => Some(Column(Text, false, NoDefault))
    case "projectsCompleted" => Some(Column(Text, false, NoDefault))
    case "loanSpecifics" => Some(Column(Json, false, NoDefault))
    case "netWorth" => Some(Column(Numeric(15, 2), false, NoDefault))
    case "liquidAssets" => Some(Column(Numeric(15, 2), false, NoDefault))
    case "downPaymentSource" => Some(Column(Text, false, NoDefault))
    case "creditScore" => Some(Column(Text, false, NoDefault))
    case "hasBankruptcy" => Some(Column(Boolean, false, Constant(Bool(false))))
    case "authorizeCreditPull" => Some(Column(Boolean, false, Constant(Bool(false))))
    case "annualNOI" => Some(Column(Numeric(15, 2), false, NoDefault))
    case "isIncomeProducing" => Some(Column(Boolean, false, Constant(Bool(true))))
    case "propertyManagement" => Some(Column(Text, false, NoDefault))
    case "currentStep" => Some(Column(Text, false, Constant(Str("quick-start"))))
    case _ => None
  }

  /** The columns of `documents`. */
  function DocumentColumn(name: string): Option<Column> {
    match name
    case "id" => Some(Column(Text, true, RandomId))
    case "applicationId" => Some(Column(Text, true, NoDefault))
    case "userId" => Some(Column(Text, true, NoDefault))
    case "createdAt" => Some(Column(Timestamp, false, Now))
    case "status" => Some(Column(Text, true, Constant(Str("pending"))))
    case "storagePath" => Some(Column(Text, false, NoDefault))
    case "name" => Some(Column(Text, true, NoDefault))
    case "type" => Some(Column(Text, true, NoDefault))
    case "fileType" => Some(Column(Text, false, NoDefault))
    case "fileSize" => Some(Column(Text, false, NoDefault))
    case "storageUrl" => Some(Column(Text, false, NoDefault))
    case "uploadedAt" => Some(Column(Timestamp, false, NoDefault))
    case _ => None
  }

  function ColumnOf(t: Table, name: string): Option<Column> {
    match t
    case LoanApplications => ApplicationColumn(name)
    case Documents => DocumentColumn(name)
  }

  /** `ltv` and `dscr` are numeric(5, 2) and `monthlyInterest` numeric(12, 2),
      all nullable, with no default. */
  lemma RatioColumns()
    ensures ColumnOf(LoanApplications, "ltv") == Some(Column(Numeric(5, 2), false, NoDefault))
    ensures ColumnOf(LoanApplications, "dscr") == Some(Column(Numeric(5, 2), false, NoDefault))
    ensures ColumnOf(LoanApplications, "monthlyInterest") == Some(Column(Numeric(12, 2), false, NoDefault))
  {
  }

  /** The columns the insert schema leaves out. */
  function Omitted(t: Table): set<string> {
    match t
    case LoanApplications => {"id", "createdAt", "updatedAt"}
    case Documents => {"id", "createdAt"}
  }

  /** A key the insert schema knows. */
  predicate InsertKey(t: Table, k: string) {
    ColumnOf(t, k).Some? && k !in Omitted(t)
  }

  /** The columns declared `notNull` (the primary key included). */
  function NotNullColumns(t: Table): set<string> {
    match t
    case LoanApplications => {"id", "userId", "loanType", "status"}
    case Documents => {"id", "applicationId", "userId", "name", "type", "status"}
  }

  /** The columns with a default. */
  function DefaultedColumns(t: Table): set<string> {
    match t
    case LoanApplications =>
      {"id", "hasBankruptcy", "authorizeCreditPull", "isIncomeProducing", "status",
       "currentStep", "createdAt", "updatedAt"}
    case Documents => {"id", "status", "createdAt"}
  }

  /** The keys an insert must supply: not-null columns without a default. */
  function RequiredKeys(t: Table): set<string> {
    match t
    case LoanApplications => {"userId", "loanType"}
    case Documents => {"applicationId", "userId", "name", "type"}
  }

  lemma NotNullColumnsExact(t: Table, k: string)
    ensures k in NotNullColumns(t) <==> ColumnOf(t, k).Some? && ColumnOf(t, k).value.notNull
  {
  }

  lemma DefaultedColumnsExact(t: Table, k: string)
    ensures k in DefaultedColumns(t) <==> ColumnOf(t, k).Some? && ColumnOf(t, k).value.default != NoDefault
  {
  }

  /** The required keys are exactly the not-null columns without a default. */
  lemma RequiredKeysExact(t: Table, k: string)
    ensures k in RequiredKeys(t) <==> k in NotNullColumns(t) && k !in DefaultedColumns(t)
  {
  }

  // ------------------------------------------------------- insert schemas

  /** The JSON values a `jsonb` column's schema accepts. */
  predicate IsJson(v: Value) {
    match v
    case Undefined => false
    case Date(_) => false
    case Arr(items) => forall i | 0 <= i < |items| :: IsJson(items[i])
    case Obj(fields) => forall k | k in fields :: IsJson(fields[k])
    case _ => true
  }

  /** The value schema for a column kind: decimals travel as strings. */
  predicate KindAccepts(kind: Kind, v: Value) {
    match kind
    case Text => v.Str?
    case Numeric(_, _) => v.Str?
    case Boolean => v.Bool?
    case Json => IsJson(v)
    case Timestamp => v.Date?
  }

  /** One property of the insert schema: nullable unless not-null, optional
      when nullable, defaulted, or the schema is partial. */
  predicate SchemaAccepts(c: Column, v: Value, partial: bool) {
    if v.Undefined? then partial || !c.notNull || c.default != NoDefault
    else if v.Null? then !c.notNull
    else KindAccepts(c.kind, v)
  }

  /** `insert…Schema.strict()` (and `.partial()`) accepting a body: no unknown
      or omitted key, every value of its column's type, every required key
      present unless partial. */
  predicate InsertSchemaAccepts(t: Table, body: Record, partial: bool) {
    (forall k | k in body :: InsertKey(t, k) && SchemaAccepts(ColumnOf(t, k).value, body[k], partial))
    && (partial || RequiredKeys(t) <= body.Keys)
  }

  /** The application schema takes `userId`, `status` and the three metric
      columns, and refuses `id` and both timestamps. */
  lemma ApplicationInsertKeys()
    ensures InsertKey(LoanApplications, "userId") && InsertKey(LoanApplications, "status")
    ensures InsertKey(LoanApplications, "ltv") && InsertKey(LoanApplications, "dscr")
    ensures InsertKey(LoanApplications, "monthlyInterest")
    ensures !InsertKey(LoanApplications, "id") && !InsertKey(LoanApplications, "createdAt")
    ensures !InsertKey(LoanApplications, "updatedAt")
  {
  }

  /** The document schema refuses only `id` and `createdAt` among the columns. */
  lemma DocumentInsertKeys(k: string)
    requires DocumentColumn(k).Some?
    ensures InsertKey(Documents, k) <==> k != "id" && k != "createdAt"
  {
  }

  // -------------------------------------------------- numeric(p, s) columns

  /** What PostgreSQL's numeric input reads: NaN or a number. */
  datatype NumericValue = NaN | Number(x: real)

  /** The characters C's `isspace` accepts: space, tab, line feed, vertical
      tab, form feed and carriage return. */
  predicate IsSqlSpace(c: char) {
    c == ' ' || c == '\t' || c == '\n' || c == '\U{000B}' || c == '\U{000C}' || c == '\r'
  }

  function SqlTrimStart(s: string): (r: string)
    ensures |r| <= |s|
  {
    if |s| > 0 && IsSqlSpace(s[0]) then SqlTrimStart(s[1..]) else s
  }

  function SqlTrimEnd(s: string): (r: string)
    ensures |r| <= |s|
  {
    if |s| > 0 && IsSqlSpace(s[|s| - 1]) then SqlTrimEnd(s[..|s| - 1]) else s
  }

  /** "NaN" in any mix of upper and lower case. */
  predicate IsNaNText(t: string) {
    |t| == 3 && (t[0] == 'n' || t[0] == 'N') && (t[1] == 'a' || t[1] == 'A') && (t[2] == 'n' || t[2] == 'N')
  }

  /** The exponent that ends the text: none (0), or `e`/`E`, an optional sign
      and at least one digit. */
  function ExponentPart(r: string): Option<int> {
    if |r| == 0 then Some(0)
    else if r[0] == 'e' || r[0] == 'E' then
      var w := r[1..];
      var v := if |w| > 0 && (w[0] == '+' || w[0] == '-') then w[1..] else w;
      var n := DigitRun(v);
      var e: int := if n == 0 then 0 else DigitsValue(v[..n]);
      if n == 0 || n < |v| then None
      else if |w| > 0 && w[0] == '-' then Some(-e)
      else Some(e)
    else None
  }

  /** m times 10 to the power e. */
  function Scale10(m: real, e: int): real {
    if e >= 0 then m * Pow10(e) as real else m / Pow10(-e) as real
  }

  /** The decimal form: an optional sign, digits with an optional point and
      at least one digit in all, then an optional exponent, and nothing else. */
  function DecimalInput(t: string): Option<real> {
    var u := if |t| > 0 && (t[0] == '-' || t[0] == '+') then t[1..] else t;
    var i := DigitRun(u);
    var frac := FractionDigits(u[i..]);
    var used := if i < |u| && u[i] == '.' then i + 1 + |frac| else i;
    match ParseSigned(t)
    case None => None
    case Some(m) =>
      match ExponentPart(u[used..])
      case None => None
      case Some(e) => Some(Scale10(m, e))
  }

  /** PostgreSQL's numeric input: leading and trailing white space is
      skipped, "NaN" in any case is NaN, and the rest must be the decimal
      form. The infinity spellings are left unread: no column here may hold
      an infinite value, so PostgreSQL refuses them as it refuses text that
      is not a number. */
  function NumericInput(s: string): Option<NumericValue> {
    var t := SqlTrimEnd(SqlTrimStart(s));
    if IsNaNText(t) then Some(NaN)
    else match DecimalInput(t)
      case Some(x) => Some(Number(x))
      case None => None
  }

  /** The numeric value a JSON value is written as: text through the numeric
      input, a JavaScript number as itself. */
  function NumericOf(v: Value): Option<NumericValue> {
    match v
    case Str(s) => NumericInput(s)
    case Num(n) => Some(Number(n))
    case _ => None
  }

  /** A number fits numeric(p, s) when, rounded to s places (half away from
      zero), it has at most p - s integer digits. */
  predicate FitsNumeric(x: real, precision: nat, scale: nat)
    requires scale <= precision
  {
    var r := Rounded(x, scale);
    -(Pow10(precision - scale) as real) < r < Pow10(precision - scale) as real
  }

  /** NaN fits every numeric column; a number fits when it rounds into range. */
  predicate NumericFits(n: NumericValue, precision: nat, scale: nat)
    requires scale <= precision
  {
    n.NaN? || FitsNumeric(n.x, precision, scale)
  }

  /** A value the database stores in a column of this kind. */
  predicate StoredFits(kind: Kind, v: Value) {
    match kind
    case Text => v.Str?
    case Numeric(p, s) => s <= p && NumericOf(v).Some? && NumericFits(NumericOf(v).value, p, s)
    case Boolean => v.Bool?
    case Json => IsJson(v)
    case Timestamp => v.Date?
  }

  /** How PostgreSQL prints a value of a column with scale s: the number
      rounded to s places with exactly s decimals, or "NaN". */
  function NumericOut(n: NumericValue, scale: nat): string {
    match n
    case NaN => "NaN"
    case Number(x) => ToFixed(Rounded(x, scale), scale)
  }

  /** What the database keeps of a value written to a column: a numeric
      column keeps the value rounded to its scale, as the text PostgreSQL
      prints for it; other columns keep the value as given. A value the
      column refuses is left as it is, and the row holding it is refused. */
  function StoredValue(kind: Kind, v: Value): Value {
    if kind.Numeric? && StoredFits(kind, v) then Str(NumericOut(NumericOf(v).value, kind.scale))
    else v
  }

  /** Unsigned fixed-point text: a digit run, a point and the digits after
      it make up the whole string. */
  predicate FixedShape(u: string) {
    |u| > 0 && IsDigit(u[0]) && IsDigit(u[|u| - 1])
    && var i := DigitRun(u); 0 < i < |u| && u[i] == '.' && i + 1 + |FractionDigits(u[i..])| == |u|
  }

  /** `toFixed` text with at least one decimal has that shape. */
  lemma UnitsToFixedShape(n: nat, d: nat)
    requires d >= 1
    ensures FixedShape(UnitsToFixed(n, d))
  {
    var p := Pow10(d);
    DivModNat(n, p);
    var w, f := NatToString(n / p), PadDigits(n % p, d);
    var u := w + "." + f;
    assert UnitsToFixed(n, d) == u;
    assert u == w + ("." + f);
    DigitRunOf(w, "." + f);
    assert u[|w|..] == "." + f;
    FractionAfterPoint(f);
    assert u[|u| - 1] == f[|f| - 1];
    assert u[0] == w[0];
  }

  /** Text that neither starts nor ends with white space is not trimmed. */
  lemma SqlTrimNothing(t: string)
    requires |t| > 0 && !IsSqlSpace(t[0]) && !IsSqlSpace(t[|t| - 1])
    ensures SqlTrimEnd(SqlTrimStart(t)) == t
  {
  }

  /** Text of that shape, with or without a minus sign, is read whole as
      sign and digits, with no exponent. */
  lemma DecimalInputWhole(t: string, u: string)
    requires FixedShape(u)
    requires t == u || t == "-" + u
    ensures ParseSigned(t).Some? && DecimalInput(t) == ParseSigned(t)
  {
    var v := if |t| > 0 && (t[0] == '-' || t[0] == '+') then t[1..] else t;
    if t != u {
      assert t[1..] == u;
    }
    assert v == u;
    var i := DigitRun(u);
    assert u[i + 1 + |FractionDigits(u[i..])|..] == "";
    assert ExponentPart("") == Some(0);
    assert Scale10(ParseSigned(t).value, 0) == ParseSigned(t).value;
  }

  /** Untrimmed text other than "NaN" is read by the decimal form. */
  lemma NumericInputOfDecimal(t: string)
    requires SqlTrimEnd(SqlTrimStart(t)) == t && !IsNaNText(t) && DecimalInput(t).Some?
    ensures NumericInput(t) == Some(Number(DecimalInput(t).value))
  {
  }

  /** Such text has no white space to trim, is not "NaN", and is read whole. */
  lemma NumericInputSigned(t: string, u: string)
    requires FixedShape(u)
    requires t == u || t == "-" + u
    ensures ParseSigned(t).Some?
    ensures NumericInput(t) == Some(Number(ParseSigned(t).value))
  {
    assert t[0] == u[0] || t[0] == '-';
    assert t[|t| - 1] == u[|u| - 1];
    SqlTrimNothing(t);
    assert !IsNaNText(t) by {
      if |t| == 3 {
        assert t[0] != 'n' && t[0] != 'N';
      }
    }
    DecimalInputWhole(t, u);
    NumericInputOfDecimal(t);
  }

  /** Numeric text starting with a digit or a minus reads as `parseFloat`
      reads it. */
  lemma NumericInputAsParsed(t: string, u: string)
    requires FixedShape(u)
    requires t == u || t == "-" + u
    ensures ParseFloat(t).Some? && NumericInput(t) == Some(Number(ParseFloat(t).value))
  {
    NumericInputSigned(t, u);
    assert t[0] == u[0] || t[0] == '-';
    assert !IsJsWhitespace(t[0]);
    assert TrimStart(t) == t;
  }

  /** PostgreSQL reads what `toFixed` prints as the rounded number. */
  lemma NumericTextOfFixed(x: real, d: nat)
    requires d >= 1
    ensures NumericInput(ToFixed(x, d)) == Some(Number(Rounded(x, d)))
  {
    var y := if x < 0.0 then -x else x;
    UnitsToFixedShape(RoundedUnits(y, d), d);
    ParseUnsignedFixedValue(y, d);
    NumericInputAsParsed(ToFixed(x, d), UnsignedFixed(y, d));
    ParseToFixed(x, d);
  }

  lemma UnitsOfRounded(n: nat, d: nat)
    ensures RoundedUnits(n as real / Pow10(d) as real, d) == n
  {
    var p := Pow10(d) as real;
    assert n as real / p * p == n as real;
  }

  /** Rounding to d places twice is rounding once. */
  lemma RoundedTwice(x: real, d: nat)
    ensures Rounded(Rounded(x, d), d) == Rounded(x, d)
  {
    var y := if x < 0.0 then -x else x;
    var n := RoundedUnits(y, d);
    UnitsOfRounded(n, d);
    if x < 0.0 && n > 0 {
      var p := Pow10(d) as real;
      assert n as real / p > 0.0;
      assert -(-(n as real / p)) == n as real / p;
    }
  }

  /** Printing a number already at d places prints its own `toFixed(d)`
      text; only a negative number that rounds to zero loses its sign. */
  lemma FixedOfRounded(x: real, d: nat)
    requires x >= 0.0 || Rounded(x, d) != 0.0
    ensures ToFixed(Rounded(x, d), d) == ToFixed(x, d)
  {
    var y := if x < 0.0 then -x else x;
    var n := RoundedUnits(y, d);
    var p := Pow10(d) as real;
    UnitsOfRounded(n, d);
    if x < 0.0 {
      assert n > 0;
      assert n as real / p > 0.0;
      assert -(-(n as real / p)) == n as real / p;
    }
  }

  /** The text PostgreSQL prints for a number reads back as the number
      rounded to the column's scale. */
  lemma StoredNumberReadsBack(x: real, s: nat)
    requires s >= 1
    ensures NumericInput(NumericOut(Number(x), s)) == Some(Number(Rounded(x, s)))
  {
    NumericTextOfFixed(Rounded(x, s), s);
    RoundedTwice(x, s);
  }

  /** A number fits exactly when its rounded value does. */
  lemma FitsRounded(x: real, p: nat, s: nat)
    requires s <= p
    ensures FitsNumeric(Rounded(x, s), p, s) <==> FitsNumeric(x, p, s)
  {
    RoundedTwice(x, s);
  }

  /** PostgreSQL reads "NaN" as NaN. */
  lemma NaNText()
    ensures NumericInput("NaN") == Some(NaN)
  {
    assert SqlTrimStart("NaN") == "NaN";
    assert SqlTrimEnd("NaN") == "NaN";
  }

  /** A value the column accepts is kept as the text of its value rounded
      to the column's scale, "NaN" for NaN; one it refuses is kept as
      given, so the row is refused. Values of other kinds are kept as given. */
  lemma StoredValueMeaning(kind: Kind, v: Value)
    requires kind.Numeric? ==> kind.scale >= 1
    ensures !kind.Numeric? ==> StoredValue(kind, v) == v
    ensures kind.Numeric? && !StoredFits(kind, v) ==> StoredValue(kind, v) == v
    ensures kind.Numeric? && StoredFits(kind, v) && NumericOf(v) == Some(NaN) ==>
      StoredValue(kind, v) == Str("NaN")
    ensures kind.Numeric? && StoredFits(kind, v) && NumericOf(v).value.Number? ==>
      StoredValue(kind, v).Str?
      && NumericInput(StoredValue(kind, v).s) == Some(Number(Rounded(NumericOf(v).value.x, kind.scale)))
  {
    if kind.Numeric? && StoredFits(kind, v) && NumericOf(v).value.Number? {
      StoredNumberReadsBack(NumericOf(v).value.x, kind.scale);
    }
  }

  /** A column takes what it keeps of a value exactly when it takes the value. */
  lemma StoredFitsKept(kind: Kind, v: Value)
    requires kind.Numeric? ==> kind.scale >= 1
    ensures StoredFits(kind, StoredValue(kind, v)) <==> StoredFits(kind, v)
  {
    if kind.Numeric? && StoredFits(kind, v) {
      var n := NumericOf(v).value;
      var w := StoredValue(kind, v);
      if n.Number? {
        StoredNumberReadsBack(n.x, kind.scale);
        assert NumericOf(w) == Some(Number(Rounded(n.x, kind.scale)));
        FitsRounded(n.x, kind.precision, kind.scale);
      } else {
        NaNText();
        assert NumericOf(w) == Some(NaN);
      }
    }
  }

  /** Writing a stored value back stores the same thing: the rounded text
      is already at the column's scale. */
  lemma StoredValueTwice(kind: Kind, v: Value)
    requires kind.Numeric? ==> kind.scale >= 1
    ensures StoredValue(kind, StoredValue(kind, v)) == StoredValue(kind, v)
  {
    StoredFitsKept(kind, v);
    if kind.Numeric? && StoredFits(kind, v) {
      var w := StoredValue(kind, v);
      if NumericOf(v).value.Number? {
        var x := NumericOf(v).value.x;
        var s := kind.scale;
        StoredNumberReadsBack(x, s);
        assert NumericOf(w) == Some(Number(Rounded(x, s)));
        RoundedTwice(x, s);
        assert StoredValue(kind, w) == Str(ToFixed(Rounded(Rounded(x, s), s), s));
      } else {
        NaNText();
        assert NumericOf(w) == Some(NaN);
      }
    }
  }

  /** Text `toFixed(s)` printed for a non-negative number is already what
      the database keeps. */
  lemma FixedTextKept(y: real, p: nat, s: nat)
    requires 1 <= s <= p && y >= 0.0
    ensures StoredValue(Numeric(p, s), Str(ToFixed(y, s))) == Str(ToFixed(y, s))
  {
    NumericTextOfFixed(y, s);
    if StoredFits(Numeric(p, s), Str(ToFixed(y, s))) {
      RoundedTwice(y, s);
      FixedOfRounded(y, s);
    }
  }

  /** A number `toFixed(s)` printed fits numeric(p, s) exactly when its
      rounded value has fewer than p - s integer digits. */
  lemma FixedTextFits(x: real, p: nat, s: nat)
    requires 1 <= s <= p
    ensures StoredFits(Numeric(p, s), Str(ToFixed(x, s)))
      <==> -(Pow10(p - s) as real) < Rounded(x, s) < Pow10(p - s) as real
  {
    NumericTextOfFixed(x, s);
    assert NumericOf(Str(ToFixed(x, s))) == Some(Number(Rounded(x, s)));
    RoundedTwice(x, s);
  }

  /** "Infinity" is not numeric text for a column with a precision. */
  lemma InfinityDoesNotFit(p: nat, s: nat)
    ensures !StoredFits(Numeric(p, s), Str("Infinity"))
  {
    assert SqlTrimStart("Infinity") == "Infinity";
    assert SqlTrimEnd("Infinity") == "Infinity";
    assert DigitRun("Infinity") == 0;
  }

  /** A value read as a number that fits is kept as that number's text at
      the column's scale. */
  lemma KeptNumber(p: nat, s: nat, t: string, x: real)
    requires s <= p && NumericInput(t) == Some(Number(x)) && FitsNumeric(x, p, s)
    ensures StoredValue(Numeric(p, s), Str(t)) == Str(NumericOut(Number(x), s))
  {
    assert NumericOf(Str(t)) == Some(Number(x));
    assert StoredFits(Numeric(p, s), Str(t));
  }

  lemma Digits250000()
    ensures NatToString(250000) == "250000" && DigitsValue("250000") == 250000
  {
    assert NatToString(250000) == "250000";
    NatToStringValue(250000);
  }

  lemma Kept250000()
    ensures FitsNumeric(250000.0, 15, 2) && NumericOut(Number(250000.0), 2) == "250000.00"
  {
    assert Pow10(2) == 100;
    assert RoundedUnits(250000.0, 2) == 25000000;
    assert Rounded(250000.0, 2) == 250000.0;
    Digits250000();
    assert PadDigits(0, 2) == "00";
  }

  lemma Parsed250000()
    ensures DigitRun("250000") == 6 && ParseSigned("250000") == Some(250000.0)
  {
    assert DigitRun("250000") == 6;
    assert ("250000")[..6] == "250000";
    Digits250000();
    assert FractionDigits("") == "";
  }

  lemma PaddedAmountRead()
    ensures NumericInput(" 250000") == Some(Number(250000.0))
  {
    assert SqlTrimStart(" 250000") == "250000";
    assert SqlTrimEnd("250000") == "250000";
    Parsed250000();
    assert ("250000")[6..] == "";
  }

  /** `loanAmount` (numeric(15, 2)) sent as " 250000" is read past the
      space and kept as "250000.00". */
  lemma PaddedAmountKept()
    ensures StoredValue(Numeric(15, 2), Str(" 250000")) == Str("250000.00")
  {
    PaddedAmountRead();
    Kept250000();
    KeptNumber(15, 2, " 250000", 250000.0);
  }

  lemma ExponentAmountRead()
    ensures NumericInput("2.5e5") == Some(Number(250000.0))
  {
    assert SqlTrimStart("2.5e5") == "2.5e5";
    assert SqlTrimEnd("2.5e5") == "2.5e5";
    assert DigitRun("2.5e5") == 1;
    assert DigitRun("5e5") == 1;
    assert FractionDigits(".5e5") == "5";
    assert ("2.5e5")[3..] == "e5";
    assert ("e5")[1..] == "5";
    assert DigitRun("5") == 1;
    assert ("5")[..1] == "5";
    assert DigitsValue("5") == 5;
    assert ExponentPart("e5") == Some(5);
    assert ParseSigned("2.5e5") == Some(2.5);
    assert Pow10(5) == 100000;
  }

  /** The same amount in exponent form, "2.5e5", is kept as "250000.00". */
  lemma ExponentAmountKept()
    ensures StoredValue(Numeric(15, 2), Str("2.5e5")) == Str("250000.00")
  {
    ExponentAmountRead();
    Kept250000();
    KeptNumber(15, 2, "2.5e5", 250000.0);
  }

  lemma HalfCentDigits()
    ensures DigitsValue("100") == 100 && DigitsValue("005") == 5
  {
    assert NatToString(100) == "100";
    NatToStringValue(100);
    assert PadDigits(5, 3) == "005";
    PadDigitsValue(5, 3);
  }

  lemma HalfCentParsed()
    ensures DigitRun("100.005") == 3 && FractionDigits(".005") == "005"
    ensures ParseSigned("100.005") == Some(100.005)
  {
    assert DigitRun("100.005") == 3;
    assert ("100.005")[3..] == ".005";
    assert (".005")[1..] == "005";
    assert DigitRun("005") == 3;
    assert ("100.005")[..3] == "100";
    HalfCentDigits();
    assert Pow10(3) == 1000;
  }

  lemma HalfCentRead()
    ensures NumericInput("100.005") == Some(Number(100.005))
  {
    assert SqlTrimStart("100.005") == "100.005";
    assert SqlTrimEnd("100.005") == "100.005";
    HalfCentParsed();
    assert ("100.005")[3..] == ".005";
    assert ("100.005")[7..] == "";
  }

  lemma HalfCentOut()
    ensures FitsNumeric(100.005, 15, 2) && NumericOut(Number(100.005), 2) == "100.01"
  {
    assert Pow10(2) == 100;
    assert RoundedUnits(100.005, 2) == 10001;
    assert Rounded(100.005, 2) == 100.01;
    assert RoundedUnits(100.01, 2) == 10001;
    assert NatToString(100) == "100";
    assert PadDigits(1, 2) == "01";
  }

  /** "100.005" is kept rounded half away from zero, as "100.01". */
  lemma HalfCentRounded()
    ensures StoredValue(Numeric(15, 2), Str("100.005")) == Str("100.01")
  {
    HalfCentRead();
    HalfCentOut();
    KeptNumber(15, 2, "100.005", 100.005);
  }

  /** "nan" in any case is kept as NaN in every numeric column. */
  lemma NaNKept(p: nat, s: nat)
    requires s <= p
    ensures StoredValue(Numeric(p, s), Str("nan")) == Str("NaN")
  {
    assert SqlTrimStart("nan") == "nan";
    assert SqlTrimEnd("nan") == "nan";
    assert NumericInput("nan") == Some(NaN);
  }

  /** The row constraints the database enforces: every key a column, every
      value of its column's type and size, every not-null column present. */
  predicate RowFits(t: Table, row: Record) {
    (forall k | k in row :: ColumnOf(t, k).Some? && StoredFits(ColumnOf(t, k).value.kind, row[k]))
    && NotNullColumns(t) <= row.Keys
  }

  // ------------------------------------------------------------- writing

  function DefaultValue(d: Default, id: string, now: int): Option<Value> {
    match d
    case NoDefault => None
    case Constant(v) => Some(v)
    case Now => Some(Date(now))
    case RandomId => Some(Str(id))
  }

  /** What an insert puts in column k: what the column keeps of the given
      value; NULL for `null`; the column default for a missing or `undefined`
      value. */
  function InsertedValue(t: Table, values: Record, k: string, id: string, now: int): Option<Value>
    requires ColumnOf(t, k).Some?
  {
    if k in values && !values[k].Undefined? then
      (if values[k].Null? then None else Some(StoredValue(ColumnOf(t, k).value.kind, values[k])))
    else DefaultValue(ColumnOf(t, k).value.default, id, now)
  }

  /** The row an insert of `values` creates; `id` is the generated key and
      `now` the time of the statement. Keys that are not columns are dropped. */
  function InsertRow(t: Table, values: Record, id: string, now: int): Record {
    map k | k in values.Keys + DefaultedColumns(t) && ColumnOf(t, k).Some?
      && InsertedValue(t, values, k, id, now).Some?
      :: InsertedValue(t, values, k, id, now).value
  }

  /** What an update puts in column k: what the column keeps of the new
      value, NULL for `null`, and the old value when the key is missing or
      `undefined`. */
  function UpdatedValue(t: Table, row: Record, changes: Record, k: string): Option<Value>
    requires ColumnOf(t, k).Some?
  {
    if k in changes && !changes[k].Undefined? then
      (if changes[k].Null? then None else Some(StoredValue(ColumnOf(t, k).value.kind, changes[k])))
    else if k in row then Some(row[k])
    else None
  }

  /** The row after `UPDATE … SET changes`. */
  function UpdateRow(t: Table, row: Record, changes: Record): (r: Record)
    ensures forall k | k in r :: ColumnOf(t, k).Some?
  {
    map k | k in row.Keys + changes.Keys && ColumnOf(t, k).Some? && UpdatedValue(t, row, changes, k).Some?
      :: UpdatedValue(t, row, changes, k).value
  }

  /** An insert's row holds what each column keeps of the given non-null
      values (the value itself, or for a numeric column the value rounded to
      its scale), and the default of every column the values leave out. */
  lemma InsertRowMeaning(t: Table, values: Record, id: string, now: int, k: string)
    requires ColumnOf(t, k).Some?
    ensures k in values && !values[k].Undefined? && !values[k].Null? ==>
      k in InsertRow(t, values, id, now)
      && InsertRow(t, values, id, now)[k] == StoredValue(ColumnOf(t, k).value.kind, values[k])
    ensures k in values && !values[k].Undefined? && !values[k].Null? && !ColumnOf(t, k).value.kind.Numeric? ==>
      InsertRow(t, values, id, now)[k] == values[k]
    ensures k in values && values[k].Null? ==> k !in InsertRow(t, values, id, now)
    ensures (k !in values || values[k].Undefined?) ==>
      (k in InsertRow(t, values, id, now) <==> ColumnOf(t, k).value.default != NoDefault)
  {
    DefaultedColumnsExact(t, k);
    var d := ColumnOf(t, k).value.default;
    if (k !in values || values[k].Undefined?) && d.Constant? {
      assert d.v == Bool(false) || d.v == Bool(true) || d.v == Str("draft")
        || d.v == Str("quick-start") || d.v == Str("pending");
    }
  }

  /** A column the values leave out takes its default. */
  lemma DefaultApplied(t: Table, values: Record, id: string, now: int, k: string)
    requires k !in values && ColumnOf(t, k).Some?
    requires ColumnOf(t, k).value.default != NoDefault
    ensures k in InsertRow(t, values, id, now)
    ensures InsertRow(t, values, id, now)[k] == DefaultValue(ColumnOf(t, k).value.default, id, now).value
  {
    DefaultedColumnsExact(t, k);
  }

  /** A new application is a draft on the quick-start step unless the
      values say otherwise. */
  lemma ApplicationDefaults(values: Record, id: string, now: int)
    requires "status" !in values && "currentStep" !in values
    ensures var row := InsertRow(LoanApplications, values, id, now);
      "status" in row && row["status"] == Str("draft")
      && "currentStep" in row && row["currentStep"] == Str("quick-start")
  {
    DefaultApplied(LoanApplications, values, id, now, "status");
    DefaultApplied(LoanApplications, values, id, now, "currentStep");
  }

  /** Both consent flags default to false, and a new application is marked
      income producing, unless the values say otherwise. */
  lemma ApplicationFlagDefaults(values: Record, id: string, now: int)
    requires "hasBankruptcy" !in values && "authorizeCreditPull" !in values
    requires "isIncomeProducing" !in values
    ensures var row := InsertRow(LoanApplications, values, id, now);
      "hasBankruptcy" in row && row["hasBankruptcy"] == Bool(false)
      && "authorizeCreditPull" in row && row["authorizeCreditPull"] == Bool(false)
      && "isIncomeProducing" in row && row["isIncomeProducing"] == Bool(true)
  {
    DefaultApplied(LoanApplications, values, id, now, "hasBankruptcy");
    DefaultApplied(LoanApplications, values, id, now, "authorizeCreditPull");
    DefaultApplied(LoanApplications, values, id, now, "isIncomeProducing");
  }

  /** A new application gets the generated id, and both timestamps are the
      statement's time. */
  lemma ApplicationKeyAndTimes(values: Record, id: string, now: int)
    requires "id" !in values && "createdAt" !in values && "updatedAt" !in values
    ensures var row := InsertRow(LoanApplications, values, id, now);
      "id" in row && row["id"] == Str(id)
      && "createdAt" in row && row["createdAt"] == Date(now)
      && "updatedAt" in row && row["updatedAt"] == Date(now)
  {
    DefaultApplied(LoanApplications, values, id, now, "id");
    DefaultApplied(LoanApplications, values, id, now, "createdAt");
    DefaultApplied(LoanApplications, values, id, now, "updatedAt");
  }

  /** A new document is pending unless the values say otherwise. */
  lemma DocumentDefaults(values: Record, id: string, now: int)
    requires "status" !in values && "id" !in values && "createdAt" !in values
    ensures var row := InsertRow(Documents, values, id, now);
      "status" in row && row["status"] == Str("pending")
      && "id" in row && row["id"] == Str(id)
      && "createdAt" in row && row["createdAt"] == Date(now)
  {
    DefaultApplied(Documents, values, id, now, "status");
    DefaultApplied(Documents, values, id, now, "id");
    DefaultApplied(Documents, values, id, now, "createdAt");
  }

  /** An update changes exactly the columns it names with a defined value,
      to what the column keeps of it (for a numeric column, the value rounded
      to its scale): `null` clears one, and every other column keeps its
      value. */
  lemma UpdateRowMeaning(t: Table, row: Record, changes: Record, k: string)
    requires ColumnOf(t, k).Some?
    ensures k in changes && !changes[k].Undefined? && !changes[k].Null? ==>
      k in UpdateRow(t, row, changes)
      && UpdateRow(t, row, changes)[k] == StoredValue(ColumnOf(t, k).value.kind, changes[k])
    ensures k in changes && !changes[k].Undefined? && !changes[k].Null? && !ColumnOf(t, k).value.kind.Numeric? ==>
      UpdateRow(t, row, changes)[k] == changes[k]
    ensures k in changes && changes[k].Null? ==> k !in UpdateRow(t, row, changes)
    ensures (k !in changes || changes[k].Undefined?) ==>
      (k in UpdateRow(t, row, changes) <==> k in row)
      && (k in row ==> UpdateRow(t, row, changes)[k] == row[k])
  {
  }

  /** A body the strict insert schema accepts leaves no not-null column
      empty once defaults are applied. */
  lemma AcceptedInsertHasNotNull(t: Table, body: Record, id: string, now: int, k: string)
    requires InsertSchemaAccepts(t, body, false)
    requires k in NotNullColumns(t)
    ensures k in InsertRow(t, body, id, now)
  {
    NotNullColumnsExact(t, k);
    RequiredKeysExact(t, k);
    InsertRowMeaning(t, body, id, now, k);
    if k in body {
      assert SchemaAccepts(ColumnOf(t, k).value, body[k], false);
    }
  }
}

=== FILE: storage.dfy ===
/**
 * `DatabaseStorage`: the application and document tables as two maps from
 * primary key to row, and the statements each storage method runs on them.
 * The generated key and the statement's time are parameters; the database's
 * refusals (a duplicate key, a row that breaks a column constraint, a
 * document whose application does not exist) are `DbError`s.
 */
module Storage {
  import opened Wrappers
  import opened JsValue
  import opened Schema

  datatype DbError =
    | DuplicateKey       // the generated primary key is already taken
    | RowRefused         // a not-null, type or numeric(p, s) constraint fails
    | MissingParent      // documents.application_id names no application

  /** `row[col] === v` for a column that is not NULL. */
  predicate HasValue(row: Record, col: string, v: Value) {
    col in row && row[col] == v
  }

  /** The primary key a row carries. */
  function KeyOf(row: Record): string {
    if "id" in row && row["id"].Str? then row["id"].s else ""
  }

  /** The application a document row names. */
  function ParentOf(row: Record): string {
    if "applicationId" in row && row["applicationId"].Str? then row["applicationId"].s else ""
  }

  /** The time in a timestamp column; 0 where the column is NULL. */
  function TimeOf(row: Record, col: string): int {
    if col in row && row[col].Date? then row[col].time else 0
  }

  /** `ORDER BY col DESC` */
  predicate NewestFirst(rows: seq<Record>, col: string) {
    forall i, j | 0 <= i < j < |rows| :: TimeOf(rows[i], col) >= TimeOf(rows[j], col)
  }

  /** Every row of the table is stored under its own `id`. */
  predicate KeyedById(table: map<string, Record>) {
    forall k | k in table :: KeyOf(table[k]) == k
  }

  /** The keys of the rows `WHERE col = v` selects. */
  function Matching(table: map<string, Record>, col: string, v: Value): (keys: set<string>)
    ensures keys <= table.Keys
  {
    set k | k in table && HasValue(table[k], col, v)
  }

  /** Puts a row into a newest-first list after every row at least as new. */
  method InsertNewestFirst(rows: seq<Record>, row: Record, col: string) returns (r: seq<Record>)
    requires NewestFirst(rows, col)
    ensures NewestFirst(r, col)
    ensures multiset(r) == multiset(rows) + multiset{row}
  {
    var i := 0;
    while i < |rows| && TimeOf(rows[i], col) >= TimeOf(row, col)
      invariant 0 <= i <= |rows|
      invariant forall j | 0 <= j < i :: TimeOf(rows[j], col) >= TimeOf(row, col)
    {
      i := i + 1;
    }
    InsertionKeepsOrder(rows, row, col, i);
    r := rows[..i] + [row] + rows[i..];
    assert rows == rows[..i] + rows[i..];
  }

  /** Putting a row just before the first strictly older row keeps the list
      newest first. */
  lemma InsertionKeepsOrder(rows: seq<Record>, row: Record, col: string, i: nat)
    requires NewestFirst(rows, col) && i <= |rows|
    requires forall j | 0 <= j < i :: TimeOf(rows[j], col) >= TimeOf(row, col)
    requires i < |rows| ==> TimeOf(rows[i], col) < TimeOf(row, col)
    ensures NewestFirst(rows[..i] + [row] + rows[i..], col)
  {
    var r := rows[..i] + [row] + rows[i..];
    forall a, b | 0 <= a < b < |r| ensures TimeOf(r[a], col) >= TimeOf(r[b], col) {
      if b < i {
        assert r[a] == rows[a] && r[b] == rows[b];
      } else if b == i {
        assert r[a] == rows[a];
      } else if a == i {
        assert r[b] == rows[b - 1];
        assert TimeOf(rows[i], col) >= TimeOf(rows[b - 1], col);
      } else if a < i {
        assert r[a] == rows[a] && r[b] == rows[b - 1];
      } else {
        assert r[a] == rows[a - 1] && r[b] == rows[b - 1];
      }
    }
  }

  /** `SELECT * FROM table WHERE col = v ORDER BY orderCol DESC`: every
      matching row exactly once, newest first. */
  method SelectNewestFirst(table: map<string, Record>, col: string, v: Value, orderCol: string)
    returns (rows: seq<Record>)
    requires KeyedById(table)
    ensures NewestFirst(rows, orderCol)
    ensures |rows| == |Matching(table, col, v)|
    ensures forall x | x in rows :: KeyOf(x) in Matching(table, col, v) && x == table[KeyOf(x)]
    ensures forall k | k in Matching(table, col, v) :: table[k] in rows
  {
    var all := Matching(table, col, v);
    var todo := all;
    rows := [];
    while todo != {}
      invariant todo <= all
      invariant NewestFirst(rows, orderCol)
      invariant |rows| + |todo| == |all|
      invariant forall x | x in rows :: KeyOf(x) in all - todo && x == table[KeyOf(x)]
      invariant forall k | k in all - todo :: table[k] in rows
      decreases |todo|
    {
      var k :| k in todo;
      var before := rows;
      rows := InsertNewestFirst(rows, table[k], orderCol);
      assert forall x :: x in rows <==> x in before || x == table[k] by {
        assert forall x :: x in rows <==> x in multiset(rows);
        assert forall x :: x in before <==> x in multiset(before);
      }
      todo := todo - {k};
    }
  }

  /** The constraints every stored application row meets. */
  predicate ApplicationRowValid(key: string, row: Record) {
    RowFits(LoanApplications, row)
    && HasValue(row, "id", Str(key))
    && "createdAt" in row && row["createdAt"].Date?
    && "updatedAt" in row && row["updatedAt"].Date?
  }

  /** An update the row constraints accept keeps the row's key and creation
      time and stamps `updatedAt` with a date, since the update schema cannot
      name those three columns. */
  lemma UpdateKeepsIdentity(id: string, row: Record, changes: Record, now: int)
    requires ApplicationRowValid(id, row)
    requires forall k | k in changes :: InsertKey(LoanApplications, k)
    requires RowFits(LoanApplications, UpdateRow(LoanApplications, row, changes["updatedAt" := Date(now)]))
    ensures ApplicationRowValid(id, UpdateRow(LoanApplications, row, changes["updatedAt" := Date(now)]))
  {
    var set_ := changes["updatedAt" := Date(now)];
    ApplicationInsertKeys();
    UpdateRowMeaning(LoanApplications, row, set_, "id");
    UpdateRowMeaning(LoanApplications, row, set_, "createdAt");
    UpdateRowMeaning(LoanApplications, row, set_, "updatedAt");
  }

  /** The constraints every stored document row meets, its parent included. */
  predicate DocumentRowValid(key: string, row: Record, applications: map<string, Record>) {
    RowFits(Documents, row)
    && HasValue(row, "id", Str(key))
    && "createdAt" in row && row["createdAt"].Date?
    && "applicationId" in row && row["applicationId"].Str?
    && row["applicationId"].s in applications
  }

  predicate ApplicationsValid(applications: map<string, Record>) {
    forall k | k in applications :: ApplicationRowValid(k, applications[k])
  }

  predicate DocumentsValid(documents: map<string, Record>, applications: map<string, Record>) {
    forall k | k in documents :: DocumentRowValid(k, documents[k], applications)
  }

  /** The documents that survive deleting an application: `ON DELETE CASCADE`. */
  function WithoutDocumentsOf(documents: map<string, Record>, applicationId: string): (rest: map<string, Record>)
    ensures rest.Keys <= documents.Keys
  {
    map k | k in documents && !HasValue(documents[k], "applicationId", Str(applicationId)) :: documents[k]
  }

  /** A document table stays valid when an application goes and its
      documents go with it. */
  lemma CascadeKeepsParents(documents: map<string, Record>, applications: map<string, Record>, id: string)
    requires DocumentsValid(documents, applications)
    ensures DocumentsValid(WithoutDocumentsOf(documents, id), applications - {id})
  {
    var rest := WithoutDocumentsOf(documents, id);
    forall k | k in rest ensures DocumentRowValid(k, rest[k], applications - {id}) {
      assert DocumentRowValid(k, documents[k], applications);
    }
  }

  /** A document table stays valid when applications are added or changed. */
  lemma ParentsKept(documents: map<string, Record>, applications: map<string, Record>, id: string, row: Record)
    requires DocumentsValid(documents, applications)
    ensures DocumentsValid(documents, applications[id := row])
  {
    forall k | k in documents ensures DocumentRowValid(k, documents[k], applications[id := row]) {
      assert DocumentRowValid(k, documents[k], applications);
    }
  }

  /** Storing a valid document row keeps the document table valid. */
  lemma DocumentStored(documents: map<string, Record>, applications: map<string, Record>, id: string, row: Record)
    requires DocumentsValid(documents, applications)
    requires DocumentRowValid(id, row, applications)
    ensures DocumentsValid(documents[id := row], applications)
  {
  }

  /** A document row the database accepts names its application by text. */
  lemma ParentIsText(row: Record)
    requires RowFits(Documents, row)
    ensures "applicationId" in row && row["applicationId"].Str?
  {
    assert "applicationId" in NotNullColumns(Documents);
    assert StoredFits(DocumentColumn("applicationId").value.kind, row["applicationId"]);
  }

  /** An update through the document insert keys keeps the key and the
      creation time of a stored document. */
  lemma UpdatedDocumentValid(id: string, row: Record, changes: Record, applications: map<string, Record>)
    requires DocumentRowValid(id, row, applications)
    requires forall k | k in changes :: InsertKey(Documents, k)
    requires RowFits(Documents, UpdateRow(Documents, row, changes))
    requires ParentOf(UpdateRow(Documents, row, changes)) in applications
    ensures DocumentRowValid(id, UpdateRow(Documents, row, changes), applications)
  {
    assert !InsertKey(Documents, "id") && !InsertKey(Documents, "createdAt");
    UpdateRowMeaning(Documents, row, changes, "id");
    UpdateRowMeaning(Documents, row, changes, "createdAt");
    ParentIsText(UpdateRow(Documents, row, changes));
  }

  class DatabaseStorage {
    var applications: map<string, Record>
    var documents: map<string, Record>

    predicate Valid()
      reads this
    {
      ApplicationsValid(applications) && DocumentsValid(documents, applications)
    }

    constructor ()
      ensures Valid()
      ensures applications == map[] && documents == map[]
    {
      applications := map[];
      documents := map[];
    }

    /** `createApplication`: inserts the values, with the defaults of the
        columns they leave out, under the generated key `id` at time `now`. */
    method CreateApplication(values: Record, id: string, now: int) returns (r: Result<Record, DbError>)
      requires Valid()
      requires forall k | k in values :: InsertKey(LoanApplications, k)
      modifies this
      ensures Valid()
      ensures var row := InsertRow(LoanApplications, values, id, now);
        if id in old(applications) then r == Err(DuplicateKey) && unchanged(this)
        else if !RowFits(LoanApplications, row) then r == Err(RowRefused) && unchanged(this)
        else r == Ok(row) && applications == old(applications)[id := row] && documents == old(documents)
    {
      var row := InsertRow(LoanApplications, values, id, now);
      if id in applications {
        return Err(DuplicateKey);
      }
      if !RowFits(LoanApplications, row) {
        return Err(RowRefused);
      }
      ApplicationInsertKeys();
      ApplicationKeyAndTimes(values, id, now);
      ParentsKept(documents, applications, id, row);
      applications := applications[id := row];
      r := Ok(row);
    }

    /** `getApplication`: the row with that key; none when there is none. */
    method GetApplication(id: string) returns (r: Option<Record>)
      requires Valid()
      ensures id in applications ==> r == Some(applications[id]) && HasValue(r.value, "id", Str(id))
      ensures id !in applications ==> r == None
    {
      if id in applications {
        r := Some(applications[id]);
      } else {
        r := None;
      }
    }

    /** `getUserApplications`: the user's applications, most recently
        updated first. */
    method GetUserApplications(userId: string) returns (rows: seq<Record>)
      requires Valid()
      ensures NewestFirst(rows, "updatedAt")
      ensures |rows| == |Matching(applications, "userId", Str(userId))|
      ensures forall x | x in rows :: x in applications.Values && HasValue(x, "userId", Str(userId))
      ensures forall k | k in applications && HasValue(applications[k], "userId", Str(userId)) :: applications[k] in rows
    {
      assert KeyedById(applications) by {
        forall k | k in applications ensures KeyOf(applications[k]) == k {
          assert ApplicationRowValid(k, applications[k]);
        }
      }
      rows := SelectNewestFirst(applications, "userId", Str(userId), "updatedAt");
    }

    /** `updateApplication`: sets the supplied columns and `updatedAt`; the
        other columns keep their values. No row with that key: nothing. */
    method UpdateApplication(id: string, changes: Record, now: int) returns (r: Result<Option<Record>, DbError>)
      requires Valid()
      requires forall k | k in changes :: InsertKey(LoanApplications, k)
      modifies this
      ensures Valid()
      ensures id !in old(applications) ==> r == Ok(None) && unchanged(this)
      ensures id in old(applications) ==>
        var row := UpdateRow(LoanApplications, old(applications)[id], changes["updatedAt" := Date(now)]);
        if RowFits(LoanApplications, row)
        then r == Ok(Some(row)) && applications == old(applications)[id := row] && documents == old(documents)
        else r == Err(RowRefused) && unchanged(this)
    {
      if id !in applications {
        return Ok(None);
      }
      var old_row := applications[id];
      var set_ := changes["updatedAt" := Date(now)];
      var row := UpdateRow(LoanApplications, old_row, set_);
      if !RowFits(LoanApplications, row) {
        return Err(RowRefused);
      }
      assert ApplicationRowValid(id, old_row);
      UpdateKeepsIdentity(id, old_row, changes, now);
      ParentsKept(documents, applications, id, row);
      applications := applications[id := row];
      r := Ok(Some(row));
    }

    /** `deleteApplication`: removes the row and, by the cascade, its
        documents. */
    method DeleteApplication(id: string)
      requires Valid()
      modifies this
      ensures Valid()
      ensures applications == old(applications) - {id}
      ensures documents == WithoutDocumentsOf(old(documents), id)
    {
      CascadeKeepsParents(documents, applications, id);
      applications := applications - {id};
      documents := WithoutDocumentsOf(documents, id);
    }

    /** `createDocument`: inserts the values, with the defaults of the
        columns they leave out; the application must exist. */
    method CreateDocument(values: Record, id: string, now: int) returns (r: Result<Record, DbError>)
      requires Valid()
      requires forall k | k in values :: InsertKey(Documents, k)
      modifies this
      ensures Valid()
      ensures var row := InsertRow(Documents, values, id, now);
        if id in old(documents) then r == Err(DuplicateKey) && unchanged(this)
        else if !RowFits(Documents, row) then r == Err(RowRefused) && unchanged(this)
        else if ParentOf(row) !in old(applications) then r == Err(MissingParent) && unchanged(this)
        else r == Ok(row) && documents == old(documents)[id := row] && applications == old(applications)
    {
      var row := InsertRow(Documents, values, id, now);
      if id in documents {
        return Err(DuplicateKey);
      }
      if !RowFits(Documents, row) {
        return Err(RowRefused);
      }
      if ParentOf(row) !in applications {
        return Err(MissingParent);
      }
      ParentIsText(row);
      assert !InsertKey(Documents, "id") && !InsertKey(Documents, "createdAt");
      DefaultApplied(Documents, values, id, now, "id");
      DefaultApplied(Documents, values, id, now, "createdAt");
      DocumentStored(documents, applications, id, row);
      documents := documents[id := row];
      r := Ok(row);
    }

    /** `getDocumentById`: the row with that key; none when there is none. */
    method GetDocumentById(id: string) returns (r: Option<Record>)
      requires Valid()
      ensures id in documents ==> r == Some(documents[id]) && HasValue(r.value, "id", Str(id))
      ensures id !in documents ==> r == None
    {
      if id in documents {
        r := Some(documents[id]);
      } else {
        r := None;
      }
    }

    /** `getApplicationDocuments`: the application's documents, newest
        first. */
    method GetApplicationDocuments(applicationId: string) returns (rows: seq<Record>)
      requires Valid()
      ensures NewestFirst(rows, "createdAt")
      ensures |rows| == |Matching(documents, "applicationId", Str(applicationId))|
      ensures forall x | x in rows :: x in documents.Values && HasValue(x, "applicationId", Str(applicationId))
      ensures forall k | k in documents && HasValue(documents[k], "applicationId", Str(applicationId)) :: documents[k] in rows
    {
      assert KeyedById(documents) by {
        forall k | k in documents ensures KeyOf(documents[k]) == k {
          assert DocumentRowValid(k, documents[k], applications);
        }
      }
      rows := SelectNewestFirst(documents, "applicationId", Str(applicationId), "createdAt");
    }

    /** `updateDocument`: sets the supplied columns and nothing else; no
        timestamp moves. No row with that key: nothing. */
    method UpdateDocument(id: string, changes: Record) returns (r: Result<Option<Record>, DbError>)
      requires Valid()
      requires forall k | k in changes :: InsertKey(Documents, k)
      modifies this
      ensures Valid()
      ensures id !in old(documents) ==> r == Ok(None) && unchanged(this)
      ensures id in old(documents) ==>
        var row := UpdateRow(Documents, old(documents)[id], changes);
        if !RowFits(Documents, row) then r == Err(RowRefused) && unchanged(this)
        else if ParentOf(row) !in old(applications) then r == Err(MissingParent) && unchanged(this)
        else r == Ok(Some(row)) && documents == old(documents)[id := row] && applications == old(applications)
    {
      if id !in documents {
        return Ok(None);
      }
      var old_row := documents[id];
      var row := UpdateRow(Documents, old_row, changes);
      if !RowFits(Documents, row) {
        return Err(RowRefused);
      }
      if ParentOf(row) !in applications {
        return Err(MissingParent);
      }
      UpdatedDocumentValid(id, old_row, changes, applications);
      DocumentStored(documents, applications, id, row);
      documents := documents[id := row];
      r := Ok(Some(row));
    }

    /** `deleteDocument`: removes that document only. */
    method DeleteDocument(id: string)
      requires Valid()
      modifies this
      ensures Valid()
      ensures documents == old(documents) - {id}
      ensures applications == old(applications)
    {
      documents := documents - {id};
    }
  }
}

=== FILE: wrappers.dfy ===
/** Optional values and results, as used throughout the model. */
module Wrappers {

  datatype Option<+T> = None | Some(value: T)

  datatype Result<+T, +E> = Ok(value: T) | Err(error: E)
}
